=== FILE: README.md ===
# gerenciafacil — a Dafny model of the status engine and its neighbours

gerenciafacil is a React/TypeScript management app. Companies use it to plan action plans,
tasks, teams, collaborators and meetings. This project models the logic at its core as pure
Dafny functions over immutable datatypes, and proves properties of that model.

The model covers these parts:

- **The status engine for tasks and action plans.** This is the transition tables and the
  interactive validators, plus the older, looser task validator. It also covers the log-entry
  constructors, the deadline monitors that promote overdue entities to `delayed`, and the write
  paths that append to an entity's status log. The pooled, newest-first history view is
  included too.
- **The meeting lifecycle.** This covers the meeting status table, the field validator, and the
  guarded create, update, status-update and delete operations over a document repository with a
  cache. It also covers the rescheduling rule and entry, the today / upcoming / past tabs, the
  participant picker, and the meeting store's reducers and queries.
- **Access control.** This is the `ACCESS_LEVELS` permission matrix, `hasPermission` and its
  shorthands, the rank check `isAuthorized`, and the login matching rule.
- **The pure helpers.** These are:
  - the phone, CPF and CNPJ input masks;
  - the company store's validator and reducers, and the same id-keyed reducers of the task,
    action-plan, team and collaborator stores;
  - the action-plan service, with its validator, date-range filter, create defaults, toggle and
    cache;
  - the dashboard's progress arithmetic and ongoing-actions table;
  - the calendar event mapping;
  - the work-schedule editor.

Modelling conventions:

- Dates are integers: milliseconds, or day numbers where only the calendar day matters.
- The current instant is a parameter named `now`.
- Fresh ids (`crypto.randomUUID`, Firestore's generated ids) are parameters. A scan that needs
  many ids takes `freshId: nat -> Id`.
- A Firestore collection is a `map<Id, Doc>`.
- A service's in-memory cache is `Option<Cache(data, timestamp)>`.
- A service operation returns `Step(reply, next)`: the reply (`Ok(value)` or
  `Failure(message)`) and the service state after the call. A thrown error is a `Failure` with
  the error's message, and the state it leaves is the unchanged state.
- The order in which a query returns documents is a `listing: seq<Id>` parameter.
- A store reducer is a function from the old list to the new list.
- Status values are closed datatypes. A stored status string is read through `Parse`, so the
  "unknown status" branches of the source remain expressible.

The deadline monitors share one generic module, `DeadlineSweep`. It holds the scan (`Sweep`)
and the application of its updates (`Apply`) over an abstract entity type. `TaskMonitor` and
`PlanMonitor` instantiate it with their overdue predicate and their patch.

## Model

| member | source | states |
|---|---|---|
| TaskStatusConfig.Parse | src/utils/taskStatusConfig.ts:31-33 | a stored status string reads as a status only when it is that status's stored name, and it reads as the status whose name it is |
| TaskStatusConfig.ParseName | src/utils/taskStatusConfig.ts:3-10 | every task status is stored under a name that reads back as that status |
| TaskStatusConfig.Label | src/utils/taskStatusConfig.ts:3-10 | every task status has a Portuguese label that reads back as that status, so no two statuses share a label |
| TaskStatusConfig.Transitions | src/utils/taskStatusConfig.ts:22-29 | no row lists its own status; `blocked` is the only row that lists `not_started`; `completed` is the only row that is empty |
| TaskStatusConfig.AvailableStatuses | src/utils/taskStatusConfig.ts:31-33 | the available statuses are exactly the table row of a known status, and `[]` for an unknown one |
| TaskStatusConfig.ValidateStatusChange | src/utils/taskStatusConfig.ts:35-91 | before the start date every target but `blocked` is rejected with the start-date message. A change is accepted iff it passes the start guard and the table, a `delayed` target is past the end date, and a `not_started` target comes from `blocked`. A target missing from the row is rejected with the not-permitted message, and a `delayed` target before the end date with the too-early message; no other rejection text occurs. Only a late `completed` carries a message on acceptance (the late-completion one). `automatic` is never set |
| TaskStatusConfig.RevertGuardSubsumed | src/utils/taskStatusConfig.ts:80-87 | removing the `not_started` guard changes no verdict, because the table check already rejects every origin except `blocked` |
| TaskStatusConfig.CompletedIsTerminal | src/utils/taskStatusConfig.ts:27 | every change out of `completed` is rejected |
| TaskStatusConfig.NoSelfTransition | src/utils/taskStatusConfig.ts:54-60 | re-selecting the current status is always rejected |
| TaskStatusConfig.OnlyBlockedBeforeStart | src/utils/taskStatusConfig.ts:46-51 | before the start date only `blocked` can be accepted, whatever the table row says |
| PlanStatusConfig.Parse | src/utils/actionPlanStatusConfig.ts:31-33 | a stored plan status string reads as a status only when it is that status's stored name |
| PlanStatusConfig.ParseName | src/utils/actionPlanStatusConfig.ts:3-10 | every plan status is stored under a name that reads back as that status |
| PlanStatusConfig.Label | src/utils/actionPlanStatusConfig.ts:3-10 | every plan status has a Portuguese label that reads back as that status, so no two statuses share a label |
| PlanStatusConfig.Transitions | src/utils/actionPlanStatusConfig.ts:22-29 | no row lists its own status; no row lists `rescheduled`; every row is non-empty; only `cancelled` lists `not_started` |
| PlanStatusConfig.AvailableStatuses | src/utils/actionPlanStatusConfig.ts:31-33 | the available statuses are exactly the table row of a known status, and `[]` for an unknown one |
| PlanStatusConfig.ValidateStatusChange | src/utils/actionPlanStatusConfig.ts:35-94 | before the start date every target but `cancelled` is rejected with the start-date message. A change is accepted iff it passes the start guard and the table, a `delayed` target is past the end date, and a `not_started` target comes from `cancelled`. A target missing from the row is rejected with the not-permitted message, and a `delayed` target before the end date with the too-early message; no other rejection text occurs. Only a late `completed` carries a message on acceptance (the late-completion one). `automatic` is never set |
| PlanStatusConfig.RevertGuardSubsumed | src/utils/actionPlanStatusConfig.ts:83-90 | removing the `not_started` guard changes no verdict: `cancelled` is the only row that lists `not_started` |
| PlanStatusConfig.RescheduledUnreachable | src/utils/actionPlanStatusConfig.ts:22-29 | `rescheduled` is never an accepted target, from any status at any time |
| PlanStatusConfig.NoTerminalStatus | src/utils/actionPlanStatusConfig.ts:25-27 | once the start date has passed, every status has some accepted way out |
| PlanStatusConfig.NoSelfTransition | src/utils/actionPlanStatusConfig.ts:57-63 | re-selecting the current plan status is always rejected |
| TaskStatusManager.ValidateStatusChange | src/utils/taskStatusManager.ts:4-29 | the only rejection is `in_progress` before the start date, with the early-start message. An `in_progress` task past its end date gets an accepted, automatic verdict with the canned message, whatever the target. Every other call is accepted without a message |
| TaskStatusManager.IgnoresTransitionTable | src/utils/taskStatusManager.ts:4-29 | reopening a completed task is accepted here, although the task table rejects it |
| TaskStatusManager.CreateStatusLog | src/utils/taskStatusManager.ts:31-45 | the entry names the task, starts at its current status and ends at the new one. `automatic` is false unless given. The system note is present iff the entry is automatic. There is no justification and no user |
| TaskStatusManager.CreatedLogContinuesHistory | src/utils/taskStatusManager.ts:31-45 | appending the created entry to a gap-free log keeps it gap-free, ending at the new status |
| StatusLogs.ChainedAppend | src/store/taskStore.ts:48-70 | an entry that starts at the current status keeps the log gap-free, ending at the entry's target |
| StatusTracking.TrackStatusChange | src/hooks/useStatusTracking.ts:6-25 | the entry names the entity and carries the given statuses and justification unchanged. The system note is present iff the entry is automatic. No user is recorded |
| StatusTracking.ManualByDefault | src/hooks/useStatusTracking.ts:11 | without the flag the entry is manual and carries no system note |
| StatusHistory.AddHistoryEntry | src/hooks/useStatusHistory.ts:7-33 | the entry names the entity and carries its current status, the new status, the given id and the instant. The entity type is always `task`. The entry is automatic only when the option says `true`. Message, notes and user pass through |
| StatusHistory.AddHistoryEntryDefaults | src/hooks/useStatusHistory.ts:26-29 | without options the entry is manual and has no message and no user |
| StatusHistory.FormatHistoryEntry | src/hooks/useStatusHistory.ts:35-51 | the line starts with the date and the transition. The automatic tag follows iff the entry is automatic. The message ends the line iff it is non-empty. The length is exactly those parts |
| StatusHistory.FormatHistoryEntryDecodes | src/hooks/useStatusHistory.ts:46-48 | once the head is known, the tag and the message can be read back from a formatted line |
| TaskHistoryView.Pool | src/components/tasks/TaskStatusHistory.tsx:12-18 | the pool has one entry per log entry of every task |
| TaskHistoryView.PoolAppend | src/components/tasks/TaskStatusHistory.tsx:12-18 | pooling distributes over concatenation of task lists |
| TaskHistoryView.PoolMembers | src/components/tasks/TaskStatusHistory.tsx:12-18 | an entry is pooled iff some task holds that log entry, and it carries that task's name |
| TaskHistoryView.NewerOrSameIsPreorder | src/components/tasks/TaskStatusHistory.tsx:19-23 | the newest-first order, with unparseable dates last, is a total preorder |
| Sorting.Sort | src/components/tasks/TaskStatusHistory.tsx:19-23 | the result is sorted, a permutation of the input, and entries the order ranks level keep their input order, as the stable `Array.prototype.sort` does |
| Sorting.TiesInInputOrder | src/components/tasks/TaskStatusHistory.tsx:19-23 | in a stable sort, two level entries appear in the order of the input |
| TaskHistoryView.History | src/components/tasks/TaskStatusHistory.tsx:12-23 | the history is a permutation of the pool, and parseable timestamps appear newest first; entries with the same timestamp keep their pool order. When every timestamp parses, this is the order the source's stable sort produces; entries with an unparseable timestamp go last, which is the model's own choice |
| TaskHistoryView.Shown | src/components/tasks/TaskStatusHistory.tsx:63-79 | an optional line is shown iff its field is non-empty, and then with that field's text |
| TaskHistoryView.RenderCard | src/components/tasks/TaskStatusHistory.tsx:35-80 | the card shows the entry's id, task name and status labels, and the formatted date or `Data inválida`. The badge is the automatic badge iff the entry is automatic, and absent otherwise. Justification, system notes and user name each appear iff present, and then with the entry's own text |
| TaskHistoryView.Render | src/components/tasks/TaskStatusHistory.tsx:25-80 | the empty message appears iff no task has a log entry; otherwise there is one card per pooled entry, in history order, which is newest first whenever every timestamp parses |
| TaskHistoryView.SilentTaskAddsNothing | src/components/tasks/TaskStatusHistory.tsx:12-18 | a task without log entries adds nothing to the pool |
| TaskStore.AddTask | src/store/taskStore.ts:22-28 | the task is appended with its log reset to empty, and the list before it is kept |
| TaskStore.UpdateTask | src/store/taskStore.ts:30-41 | only tasks with the id change; they take the patch and the current instant as `updatedAt` |
| TaskStore.UpdateTaskStatus | src/store/taskStore.ts:43-71 | an unknown id leaves the list unchanged. Every task with the id takes the new status, and its log grows by the manual entry from the old status with the given user name and justification. Other tasks are unchanged |
| TaskStore.UpdateTaskStatusKeepsHistoryChained | src/store/taskStore.ts:48-70 | with distinct ids, every task's log stays gap-free through a manual change |
| TaskStore.UpdateTaskStatusSkipsValidation | src/store/taskStore.ts:43-71 | the store reopens a completed task, although the task table rejects the change |
| TaskStore.DeleteTask | src/store/taskStore.ts:73-76 | exactly the tasks with the id are dropped; the others keep their multiplicity and their order |
| TaskStore.AddThenDelete | src/store/taskStore.ts:22-28 | deleting a freshly added task with a new id restores the list |
| TaskService.GetAllTasks | src/services/taskService.ts:35-64 | a fresh cache is served as it is. Otherwise every listed document is read in order, with a missing status read as `not_started` and missing logs as `[]`, and cached with the instant |
| TaskService.Normalize | src/services/taskService.ts:43-48 | a read document keeps its key as id and every stored field; a missing status reads as `not_started` and missing logs as `[]` |
| TaskService.CacheServesWithinWindow | src/services/taskService.ts:38-40 | a fetch is served again, unchanged, within five minutes, and read afresh after that |
| TaskService.CreateTask | src/services/taskService.ts:84-113 | the task is stored under the fresh id with every given field: name, dates, assignee and plan as given, status `not_started` and logs `[]` unless given, active, and `updatedAt` the instant. Other documents are unchanged. A present cache gets the task appended |
| TaskService.UpdateTaskStatus | src/services/taskService.ts:115-161 | a missing document fails with `Task not found` and writes nothing. Otherwise the document takes the status and its logs with the entry appended, and only the matching cached tasks change. One notification is sent iff the write happened |
| TaskService.UpdateTaskStatusSkipsValidation | src/services/taskService.ts:115-161 | the service reopens a completed task, although the task table rejects the change |
| TaskService.UpdateTaskStatusKeepsHistoryChained | src/services/taskService.ts:128-138 | the stored log stays gap-free when the caller's entry starts at the stored status |
| TaskService.DeleteTask | src/services/taskService.ts:163-176 | the document is removed, and exactly the cached tasks with the id are dropped; the rest of the cache keeps its order |
| TaskService.CreateThenDelete | src/services/taskService.ts:84-176 | deleting a freshly created task restores the repository and the cache |
| TaskService.ClearCache | src/services/taskService.ts:185-187 | the cache is dropped and nothing else changes |
| MonitorTimer.Start | src/services/TaskMonitoringService.ts:18-60 | the new handle is armed and remembered. No other interval survives except one the truthiness test forgot. From a tracked state with a non-zero handle, exactly one interval is armed |
| MonitorTimer.Stop | src/services/TaskMonitoringService.ts:62-66 | the remembered interval is cancelled and still remembered; from a tracked state nothing stays armed |
| MonitorTimer.RestartArmsOne | src/services/TaskMonitoringService.ts:22-25 | restarting leaves exactly the last interval armed, and stop after start leaves none |
| MonitorTimer.StopIdempotent | src/services/TaskMonitoringService.ts:62-66 | stopping twice is the same as stopping once |
| MonitorTimer.ZeroHandleLeaks | src/services/TaskMonitoringService.ts:23 | a zero handle is falsy, so a restart leaves it armed |
| DeadlineSweep.Sweep | src/services/TaskMonitoringService.ts:28-55 | the scan sends one update per due entity, in snapshot order, each built from that entity |
| DeadlineSweep.SweepSound | src/services/TaskMonitoringService.ts:32-36 | every update addresses a due entity of the snapshot |
| DeadlineSweep.SweepComplete | src/services/TaskMonitoringService.ts:32-53 | every due entity gets an update built from it |
| DeadlineSweep.DueIsAddressed | src/services/TaskMonitoringService.ts:32-53 | a due entity is addressed by some update |
| DeadlineSweep.Apply | src/services/TaskMonitoringService.ts:37 | applying updates keeps the list's length |
| DeadlineSweep.ApplyUntouched | src/services/TaskMonitoringService.ts:37 | entities no update addresses are left as they were |
| DeadlineSweep.AllCureTail | src/services/TaskMonitoringService.ts:36-52 | curing is inherited by every suffix of an update list |
| DeadlineSweep.SweepAllCure | src/services/TaskMonitoringService.ts:36-52 | when every buildable patch cures, every update of a scan cures |
| DeadlineSweep.ApplyCures | src/services/TaskMonitoringService.ts:36-52 | when every patch cures, every addressed entity ends up not due |
| DeadlineSweep.ApplyCuresHead | src/services/TaskMonitoringService.ts:36-52 | the case of the above where the first update addresses the entity |
| DeadlineSweep.ApplyDistinct | src/services/TaskMonitoringService.ts:37-52 | with distinct addresses, an addressed entity carries exactly the merge of its own update |
| DeadlineSweep.SweepDistinct | src/services/TaskMonitoringService.ts:32-53 | a snapshot with distinct ids yields updates with distinct addresses |
| DeadlineSweep.SweepAddressed | src/services/TaskMonitoringService.ts:32-53 | with distinct ids, the update addressing an entity is the one built from it |
| DeadlineSweep.AddressedIsCured | src/services/TaskMonitoringService.ts:36-52 | an entity addressed by a curing update is no longer due |
| DeadlineSweep.SweepLeavesNoneDue | src/services/TaskMonitoringService.ts:36-52 | after a scan and its updates, no due entity of the snapshot remains due |
| DeadlineSweep.UnaddressedStaysCured | src/services/TaskMonitoringService.ts:36 | an entity the scan skipped was not due and stays so |
| DeadlineSweep.SweepIdempotent | src/services/TaskMonitoringService.ts:36 | a second scan right after the first finds nothing to do |
| DeadlineSweep.SweepEffect | src/services/TaskMonitoringService.ts:32-53 | with distinct ids, each entity is left untouched if it was not due, and otherwise carries the merge of the update built from it |
| TaskMonitor.DelayLog | src/services/TaskMonitoringService.ts:41-49 | the entry names the task, goes from its status to `delayed`, is automatic with the deadline note, and has no justification or user |
| TaskMonitor.DelayPatch | src/services/TaskMonitoringService.ts:37-52 | merged into the task, the patch makes it `delayed`, appends the entry to its unchanged log and stamps `updatedAt`. Merged into any task, it leaves the end date and makes the task `delayed` |
| TaskMonitor.CheckTasks | src/services/TaskMonitoringService.ts:32-53 | one update per overdue task, in list order, each addressed to that task and carrying its delay patch |
| TaskMonitor.ApplyIsStoreUpdate | src/services/TaskMonitoringService.ts:37 | applying a batch is the store's `updateTask` for the first update, then the rest |
| TaskMonitor.CheckTasksSound | src/services/TaskMonitoringService.ts:32-36 | every update names a task that is past its end date and neither completed nor delayed |
| TaskMonitor.CheckTasksComplete | src/services/TaskMonitoringService.ts:32-53 | every such task gets the delay update built from it |
| TaskMonitor.StoreUpdateCures | src/services/TaskMonitoringService.ts:36-52 | the store merge keeps ids, and a merged delay patch leaves no task overdue |
| TaskMonitor.CheckTasksIdempotent | src/services/TaskMonitoringService.ts:36 | a second check at the same instant, after the first is applied, issues no update |
| TaskMonitor.CheckTasksEffect | src/services/TaskMonitoringService.ts:32-53 | with distinct ids, a task that is not overdue is left as it was, and an overdue one becomes exactly its delay patch applied |
| TaskMonitor.CheckTasksKeepsHistoryChained | src/services/TaskMonitoringService.ts:39-50 | with distinct ids, a gap-free log stays gap-free through a check |
| TaskMonitor.MonitorBypassesTable | src/services/TaskMonitoringService.ts:36-38 | an overdue task whose table row lacks `delayed` is still delayed, although the validator rejects that change |
| TaskMonitor.StartMonitoring | src/services/TaskMonitoringService.ts:18-60 | starting runs one check at once and arms the new interval. From a tracked timer with a non-zero handle, only that interval stays armed |
| PlanMonitor.DelayLog | src/services/ActionPlanMonitoringService.ts:38-46 | the entry names the plan in its task-id field, goes from its status to `delayed`, is automatic with the deadline note, and has no user |
| PlanMonitor.DelayPatch | src/services/ActionPlanMonitoringService.ts:34-48 | merged into the plan, the patch makes it `delayed`, appends the entry to its log (a missing log counts as empty) and stamps `updatedAt` |
| PlanMonitor.CheckActionPlans | src/services/ActionPlanMonitoringService.ts:30-50 | one update per overdue plan, in list order, each addressed to that plan and carrying its delay patch |
| PlanMonitor.ApplyIsStoreUpdate | src/services/ActionPlanMonitoringService.ts:34 | applying a batch is the store's `updateActionPlan` for the first update, then the rest |
| PlanMonitor.CheckActionPlansSound | src/services/ActionPlanMonitoringService.ts:30-33 | every update names a plan past its end date that is neither completed nor delayed |
| PlanMonitor.CheckActionPlansComplete | src/services/ActionPlanMonitoringService.ts:30-50 | every such plan gets the delay update built from it |
| PlanMonitor.StoreUpdateCures | src/services/ActionPlanMonitoringService.ts:33-48 | the store merge keeps ids, and a merged delay patch leaves no plan overdue |
| PlanMonitor.CheckActionPlansIdempotent | src/services/ActionPlanMonitoringService.ts:33 | re-checking after the updates are applied issues no update |
| PlanMonitor.CheckActionPlansEffect | src/services/ActionPlanMonitoringService.ts:30-50 | with distinct ids, a plan that is not overdue is left as it was, and an overdue one becomes exactly its delay patch applied |
| PlanMonitor.CheckActionPlansKeepsHistoryChained | src/services/ActionPlanMonitoringService.ts:36-47 | with distinct ids, a gap-free plan log stays gap-free through a check |
| PlanMonitor.MonitorBypassesTable | src/services/ActionPlanMonitoringService.ts:33 | an overdue cancelled plan is delayed, although the table has no such edge |
| PlanMonitor.StartMonitoring | src/services/ActionPlanMonitoringService.ts:18-56 | starting runs one check at once and arms the new interval, the only one armed from a tracked timer |
| ActionPlanStore.AddActionPlan | src/store/actionPlanStore.ts:22-25 | the plan is appended as given |
| ActionPlanStore.UpdateActionPlan | src/store/actionPlanStore.ts:27-32 | only plans with the id take the patch, and no time stamp is added; ids are kept |
| ActionPlanStore.DeleteActionPlan | src/store/actionPlanStore.ts:34-37 | exactly the plans with the id are dropped; the others keep their multiplicity and their order |
| ActionPlanStore.ToggleActionPlanStatus | src/store/actionPlanStore.ts:39-44 | only plans with the id change, and only in `active` |
| ActionPlanStore.ToggleTwice | src/store/actionPlanStore.ts:39-44 | toggling twice restores the list |
| ActionPlanStore.AddThenDelete | src/store/actionPlanStore.ts:22-37 | deleting a freshly added plan with a new id restores the list |
| TeamStore.AddTeam | src/store/teamStore.ts:22-25 | the team is appended as given |
| TeamStore.UpdateTeam | src/store/teamStore.ts:27-32 | only teams with the id take the patch; ids are kept |
| TeamStore.DeleteTeam | src/store/teamStore.ts:34-37 | exactly the teams with the id are dropped; the others keep their multiplicity and their order |
| TeamStore.ToggleTeamStatus | src/store/teamStore.ts:39-44 | only teams with the id change, and only in `active` |
| TeamStore.ToggleTwice | src/store/teamStore.ts:39-44 | toggling twice restores the list |
| TeamStore.AddThenDelete | src/store/teamStore.ts:22-37 | deleting a freshly added team with a new id restores the list |
| CollaboratorStore.AddCollaborator | src/store/useStore.ts:21-24 | the collaborator is appended as given |
| CollaboratorStore.UpdateCollaborator | src/store/useStore.ts:26-31 | only collaborators with the id take the patch; ids are kept |
| CollaboratorStore.DeleteCollaborator | src/store/useStore.ts:33-36 | exactly the collaborators with the id are dropped; the others keep their multiplicity and their order |
| CollaboratorStore.AddThenDelete | src/store/useStore.ts:21-36 | deleting a freshly added collaborator with a new id restores the list |
| MeetingService.Transitions | src/services/meetingService.ts:261-267 | no row lists its own status, and only `completed` has an empty row |
| MeetingService.ValidateStatusChange | src/services/meetingService.ts:257-278 | a change is accepted iff the current status is known and its row lists the target; a rejection carries the transition message |
| MeetingService.CompletedIsTerminal | src/services/meetingService.ts:265 | a completed meeting accepts no change, and no status moves to itself |
| MeetingService.OnlyScheduledReschedules | src/services/meetingService.ts:262 | only a scheduled meeting can move to `rescheduled` |
| MeetingService.ValidateMeeting | src/services/meetingService.ts:215-255 | a draft is valid iff every check passes. Otherwise the first failing check, in source order, decides the message: title, date, times, start before end, location, link, participants |
| MeetingService.EqualTimesRejected | src/services/meetingService.ts:229-231 | equal start and end times are rejected with the end-before-start message |
| MeetingService.Stored | src/services/meetingService.ts:102-111 | the stored meeting carries every field of the draft (title, date, times, kind, location, link, participants, status, history) under the new id, with `updatedAt` the instant |
| MeetingService.GetAllMeetings | src/services/meetingService.ts:36-59 | a fresh cache is served as it is. Otherwise the listed documents are read in order, each under its id, and cached with the instant |
| MeetingService.MeetingCacheWindow | src/services/meetingService.ts:39-41 | a fetch is served again, unchanged, within five minutes, and read afresh after that |
| MeetingService.CreateMeeting | src/services/meetingService.ts:95-123 | an invalid draft is refused with the validator's message and nothing is written. A valid one is stored under the fresh id with every field of the draft, and the reply and the cache entry are that stored meeting, appended to a present cache |
| MeetingService.Lookup | src/services/meetingService.ts:69-93 | the first cached meeting with the id is returned, as `find` scans; without one, the stored document; there is no result iff neither exists |
| MeetingService.UpdateMeetingStatus | src/services/meetingService.ts:154-185 | an unknown meeting or a rejected move fails and writes nothing. Otherwise the document and the matching cached meetings take the new status |
| MeetingService.CompletedMeetingStaysCompleted | src/services/meetingService.ts:161-164 | a completed meeting keeps its status through every status update |
| MeetingService.DeleteMeeting | src/services/meetingService.ts:187-209 | an unknown or completed meeting is refused. Otherwise the document and the matching cached meetings are removed, and the rest of the cache keeps its order |
| MeetingService.UpdateMeeting | src/services/meetingService.ts:125-152 | a missing document fails. Otherwise the document takes the present fields, the kind (presential or online) included, and a fresh `updatedAt`; the matching cached meetings take the fields |
| MeetingService.EditSwitchesKind | src/services/meetingService.ts:125-140 | an edit that carries only a kind switches the stored meeting to that kind and changes nothing else but `updatedAt` |
| MeetingService.ClearCache | src/services/meetingService.ts:211-213 | the cache is dropped and the repository kept |
| MeetingStore.AddMeeting | src/store/meetingStore.ts:24-27 | the meeting is appended as given |
| MeetingStore.UpdateMeeting | src/store/meetingStore.ts:29-36 | only meetings with the id change: each field the patch carries, the kind included, replaces the stored one, the others are kept, and `updatedAt` becomes the current instant |
| MeetingStore.DeleteMeeting | src/store/meetingStore.ts:38-41 | exactly the meetings with the id are dropped; the others keep their multiplicity and their order |
| MeetingStore.AddThenDelete | src/store/meetingStore.ts:24-41 | deleting a freshly added meeting with a new id restores the list |
| MeetingStore.MeetingsByParticipant | src/store/meetingStore.ts:43-46 | exactly the meetings whose collaborator list holds the id, each as often as in the store and in the store's order |
| MeetingStore.MeetingsByTeam | src/store/meetingStore.ts:48-51 | exactly the meetings whose team list holds the id, each as often as in the store and in the store's order |
| MeetingStore.MeetingsByActionPlan | src/store/meetingStore.ts:53-56 | exactly the meetings whose action-plan list holds the id, each as often as in the store and in the store's order |
| MeetingStore.QueriesKeepOrder | src/store/meetingStore.ts:43-56 | each query distributes over concatenation and answers a single meeting by itself or by nothing, so each answer is the order-preserving subsequence of the matching meetings |
| Seqs.FilterSubsequence | src/store/meetingStore.ts:38-41 | filtering yields a subsequence of the input |
| MeetingUtils.RescheduleAgreesWithTable | src/utils/meetingUtils.ts:3-6 | a meeting may be rescheduled iff the meeting table accepts `rescheduled` from its status |
| MeetingUtils.CanReschedule | src/utils/meetingUtils.ts:3-6 | a meeting may be rescheduled iff the meeting status table accepts `rescheduled` from its status |
| MeetingUtils.CreateReschedulingEntry | src/utils/meetingUtils.ts:8-28 | the entry copies the meeting's date and times as the previous ones, takes the new ones, the reason and the user from the arguments |
| MeetingUtils.RescheduleUpdate | src/components/meetings/ScheduledMeetingList.tsx:40-59 | the update, applied by the store, leaves the meeting `rescheduled` at the new date and times, stamped, with the history grown by exactly one entry that records where it was and names the user; nothing else changes |
| MeetingUtils.Confirm | src/components/meetings/ScheduledMeetingList.tsx:32-63 | with a signed-in user, the intended confirmation: an update is sent iff a meeting is selected and a user is present, addressed to the selected meeting, and it moves the meeting in that user's name |
| MeetingUtils.ConfirmAsWrittenNeverMoves | src/components/meetings/ScheduledMeetingList.tsx:20-38 | as written, the confirmation never sends an update, whatever the collaborator store holds, while the intended one with a user does |
| MeetingGroups.GroupOf | src/components/meetings/MeetingGroups.tsx:26-32 | same day gives today, a later day upcoming, an earlier day past |
| MeetingGroups.EarlierIsPreorder | src/components/meetings/MeetingGroups.tsx:42-48 | ordering by day and then start time is a total preorder |
| MeetingGroups.Tab | src/components/meetings/MeetingGroups.tsx:22-52 | a tab is sorted and holds exactly the meetings of its group, as often as they occur; meetings on the same day and start time keep their input order |
| MeetingGroups.Partition | src/components/meetings/MeetingGroups.tsx:22-52 | every tab is sorted, with equal day and time in input order, and a meeting is in the today, upcoming or past tab iff its day is equal, later or earlier |
| MeetingGroups.PartitionIsExact | src/components/meetings/MeetingGroups.tsx:22-39 | the three tabs together hold every meeting exactly as often as the input does |
| MeetingGroups.PartitionSizes | src/components/meetings/MeetingGroups.tsx:22-39 | the tab sizes add up to the number of meetings |
| MeetingGroups.Render | src/components/meetings/MeetingGroups.tsx:54-60 | the empty message appears iff there are no meetings; otherwise the tabs are the partition |
| MeetingGroups.GroupAsWrittenShiftsWest | src/components/meetings/MeetingGroups.tsx:23-26 | as written, west of Greenwich a meeting dated today is filed under past, and one dated tomorrow under today |
| MeetingGroups.LocalDayWest | src/components/meetings/MeetingGroups.tsx:23-24 | west of Greenwich, midnight at Greenwich falls on the previous local day |
| MeetingGroups.GroupAsWrittenAgreesEast | src/components/meetings/MeetingGroups.tsx:23-32 | at Greenwich and east of it, the code as written agrees with the day comparison |
| ParticipantSelector.ToggleMember | src/components/meetings/ParticipantSelector.tsx:72-81 | a selected member is removed everywhere, the other ids keeping their multiplicity and order; an unselected one is appended; the other lists are kept |
| ParticipantSelector.ToggleMemberTwice | src/components/meetings/ParticipantSelector.tsx:72-81 | toggling an unselected member twice restores the selection |
| ParticipantSelector.AppendMissing | src/components/meetings/ParticipantSelector.tsx:98-102 | the ids keep their prefix and gain exactly the missing members, in the order they first appear among the team's members, and stay duplicate-free |
| ParticipantSelector.ToggleTeam | src/components/meetings/ParticipantSelector.tsx:83-109 | an unknown team emits nothing, and the emitted value drops the action-plan ids. Deselecting removes the team and all its members, the other ids keeping their multiplicity and order. Selecting appends the team and the members not yet present, in the order they first appear in the team |
| ParticipantSelector.DeselectDropsIndividualPicks | src/components/meetings/ParticipantSelector.tsx:91-94 | deselecting a team also drops a member who had been chosen on their own |
| ParticipantSelector.FilterAppendMissing | src/components/meetings/ParticipantSelector.tsx:91-103 | filtering out a team's members undoes appending them |
| ParticipantSelector.SelectThenDeselect | src/components/meetings/ParticipantSelector.tsx:83-109 | selecting and then deselecting a team whose members were not chosen restores both lists |
| ParticipantSelector.DedupBy | src/components/meetings/ParticipantSelector.tsx:26-31 | the result has distinct ids and holds only input entries |
| ParticipantSelector.DedupCovers | src/components/meetings/ParticipantSelector.tsx:26-31 | every id of the input survives deduplication |
| ParticipantSelector.DedupKeepsFirst | src/components/meetings/ParticipantSelector.tsx:26-31 | the entry kept for an id is its first occurrence |
| ParticipantSelector.DedupKeepsEveryFirst | src/components/meetings/ParticipantSelector.tsx:26-31 | the first entry of every id is kept |
| ParticipantSelector.FirstIndex | src/components/dashboard/OngoingActionsTable.tsx:66-67 | the position of the first entry with an id, or the length when none has it, as `find` scans |
| ParticipantSelector.DedupInOrder | src/components/dashboard/OngoingActionsTable.tsx:66-67 | deduplication lists the ids in the order they first appear |
| ParticipantSelector.SortedDedupTies | src/components/meetings/ParticipantSelector.tsx:26-32 | after deduplicating and sorting by name, entries with the same name appear in the order their ids first appear |
| ParticipantSelector.ByNameIsPreorder | src/components/meetings/ParticipantSelector.tsx:32 | comparing names is a total preorder |
| ParticipantSelector.ActiveList | src/components/meetings/ParticipantSelector.tsx:24-43 | the list is sorted by name, with distinct ids, holding only active input entries; entries with the same name appear in the order their ids first appear among the active entries |
| ParticipantSelector.ActiveListComplete | src/components/meetings/ParticipantSelector.tsx:24-43 | every active id is offered, by the first active entry that has it |
| ParticipantSelector.SortKeysDistinct | src/components/meetings/ParticipantSelector.tsx:32 | sorting keeps ids distinct |
| ParticipantSelector.MultisetTwice | src/components/meetings/ParticipantSelector.tsx:26-31 | an entry at two positions occurs at least twice |
| ParticipantSelector.KeysDistinctOnce | src/components/meetings/ParticipantSelector.tsx:26-31 | with distinct ids every entry occurs once |
| ParticipantSelector.ActiveCollaborators | src/components/meetings/ParticipantSelector.tsx:24-32 | only active collaborators, first of each id, sorted by name; equal names in the order their ids first appear |
| ParticipantSelector.ActiveTeams | src/components/meetings/ParticipantSelector.tsx:35-43 | only active teams, first of each id, sorted by name; equal names in the order their ids first appear |
| AccessControl.Parse | src/config/accessControl.ts:10-21 | a module key reads as the module it names, and only as that |
| AccessControl.Rank | src/contexts/AuthContext.tsx:26-30 | the rank of a level lies between 1 and 3 |
| AccessControl.AdminRow | src/config/accessControl.ts:24-35 | admin holds every action on every module except changes to the TV view |
| AccessControl.TvIsViewOnly | src/config/accessControl.ts:34-58 | every level may view the TV module and none may change it |
| AccessControl.ManagerRow | src/config/accessControl.ts:36-47 | a manager deletes only meetings and has no access to settings |
| AccessControl.UserRow | src/config/accessControl.ts:48-59 | a user views only their tasks, meetings, the calendar and the TV view, edits only their tasks, and never creates or deletes |
| AccessControl.ActionNeedsView | src/config/accessControl.ts:23-60 | no level may act on a module it cannot view |
| AccessControl.GrantsMonotone | src/config/accessControl.ts:23-60 | grants grow with the rank: user within manager within admin |
| Permissions.HasPermission | src/contexts/PermissionsContext.tsx:14-21 | false without a user and for an unknown module; otherwise the matrix entry for the user's level, the module and the action |
| Permissions.CanView | src/hooks/usePermissions.ts:14 | view is granted iff someone is signed in and the matrix lets their level view the named module |
| Permissions.CanCreate | src/hooks/usePermissions.ts:15 | create is granted iff the matrix grants it to the user's level, and only on a viewable module |
| Permissions.CanEdit | src/hooks/usePermissions.ts:16 | edit is granted iff the matrix grants it to the user's level, and only on a viewable module |
| Permissions.CanDelete | src/hooks/usePermissions.ts:17 | delete is granted iff the matrix grants it to the user's level, and only on a viewable module |
| Permissions.HasPermissionMonotone | src/contexts/PermissionsContext.tsx:14-21 | a higher-ranked collaborator may do whatever a lower-ranked one may, and nothing is allowed on a module that cannot be viewed |
| Auth.IsAuthorized | src/contexts/AuthContext.tsx:97-100 | nothing is authorised without a user. Anyone signed in is authorised at the user level and at their own level, and an admin at every level. Only an admin passes the admin level, and a plain user never passes the manager level |
| Auth.AuthorizedHoldsLevelGrants | src/contexts/AuthContext.tsx:97-100 | being authorised for a level carries every grant of that level |
| Auth.Login | src/contexts/AuthContext.tsx:67-91 | the built-in credentials sign in the first admin, if there is one. Otherwise the first active collaborator with the same lower-cased first name and password signs in. A failed login keeps the session user, and a signed-in user is always from the list |
| Auth.InactiveOnlyAsDefaultAdmin | src/contexts/AuthContext.tsx:78-84 | an inactive collaborator signs in only as the first admin through the built-in credentials |
| Auth.DefaultAdminIgnoresCase | src/contexts/AuthContext.tsx:69 | the built-in credentials match iff the user name is `admin` in any mix of upper and lower case and the password is exactly `admin` |
| Auth.Logout | src/contexts/AuthContext.tsx:93-95 | after logout nobody is signed in and nothing is authorised |
| InputMask.Digits | src/components/common/InputMask.tsx:14 | stripping leaves only digits and never lengthens the text |
| InputMask.DigitsAppend | src/components/common/InputMask.tsx:14 | stripping distributes over concatenation |
| InputMask.DigitsOfDigits | src/components/common/InputMask.tsx:14 | stripping leaves bare digits unchanged |
| InputMask.DigitsOfPunctuation | src/components/common/InputMask.tsx:14 | stripping removes punctuation entirely |
| InputMask.Insert | src/components/common/InputMask.tsx:19-35 | inserting punctuation keeps the digits and adds its length |
| InputMask.Leftmost | src/components/common/InputMask.tsx:25-35 | the search finds the leftmost matching window, or reports that none matches |
| InputMask.Window | src/components/common/InputMask.tsx:25-35 | a window is the `k` characters from its position |
| InputMask.AreaCode | src/components/common/InputMask.tsx:19 | the area-code step only inserts punctuation |
| InputMask.LineDash | src/components/common/InputMask.tsx:20 | the line-dash step only inserts punctuation |
| InputMask.GroupDot | src/components/common/InputMask.tsx:25-26 | the CPF dot step only inserts punctuation |
| InputMask.CheckDash | src/components/common/InputMask.tsx:27 | the CPF check-digit step only inserts punctuation |
| InputMask.FirstDot | src/components/common/InputMask.tsx:32 | the first CNPJ dot step only inserts punctuation |
| InputMask.SecondDot | src/components/common/InputMask.tsx:33 | the second CNPJ dot step only inserts punctuation |
| InputMask.BranchSlash | src/components/common/InputMask.tsx:34 | the CNPJ slash step only inserts punctuation |
| InputMask.BranchDash | src/components/common/InputMask.tsx:35 | the CNPJ dash step only inserts punctuation |
| InputMask.Format | src/components/common/InputMask.tsx:16-38 | formatting keeps the digits, and over-long input is left bare |
| InputMask.Mask | src/components/common/InputMask.tsx:13-41 | the output's digits are the input's digits; more than 11 (phone, CPF) or 14 (CNPJ) digits come back bare |
| InputMask.MaskIdempotent | src/components/common/InputMask.tsx:13-41 | masking a masked value changes nothing |
| InputMask.PhoneShape | src/components/common/InputMask.tsx:17-22 | eleven phone digits become "(DD) DDDDD-DDDD", which fits the phone placeholder |
| InputMask.CpfShape | src/components/common/InputMask.tsx:23-29 | eleven CPF digits become "DDD.DDD.DDD-DD" |
| InputMask.LeftmostFrom | src/components/common/InputMask.tsx:25-35 | a search that fails everywhere before a matching position finds that position |
| InputMask.CnpjDots | src/components/common/InputMask.tsx:32-33 | the first two CNPJ steps put dots after the second and fifth digits |
| InputMask.DottedChars | src/components/common/InputMask.tsx:32-33 | after the dots, only positions 2 and 6 hold non-digits |
| InputMask.CnpjSlashAt | src/components/common/InputMask.tsx:34 | the slash pattern first matches at the second dot |
| InputMask.CnpjSlash | src/components/common/InputMask.tsx:34 | the slash goes after the eighth digit |
| InputMask.CnpjDash | src/components/common/InputMask.tsx:35 | the dash goes after the twelfth digit |
| InputMask.CnpjShape | src/components/common/InputMask.tsx:30-37 | fourteen CNPJ digits become "DD.DDD.DDD/DDDD-DD" |
| InputMask.FitsCat | src/components/companies/CompanyForm.tsx:107 | fitting a placeholder is compositional |
| InputMask.FitsDigits | src/components/companies/CompanyForm.tsx:107 | bare digits fit a placeholder of zeros |
| InputMask.CnpjTextFits | src/components/companies/CompanyForm.tsx:107 | digits punctuated as a CNPJ fit the CNPJ placeholder |
| InputMask.CnpjFits | src/components/common/InputMask.tsx:30-37 | a complete CNPJ is shown in the form's placeholder shape |
| CompanyStore.ValidateCompany | src/store/companyStore.ts:43-76 | valid iff all five fields are filled and no other company has the CNPJ. Otherwise the first failing check decides the message: name, CNPJ, e-mail, phone, address, duplicate |
| CompanyStore.OwnCnpjIsNotDuplicate | src/store/companyStore.ts:65-73 | a stored company re-validated under its own id passes, and under no id it is a duplicate |
| CompanyStore.AddCompany | src/store/companyStore.ts:19-22 | the company is appended without validation |
| CompanyStore.UpdateCompany | src/store/companyStore.ts:24-29 | only companies with the id take the patch |
| CompanyStore.DeleteCompany | src/store/companyStore.ts:31-34 | exactly the companies with the id are dropped; the others keep their multiplicity and their order |
| CompanyStore.ToggleCompanyStatus | src/store/companyStore.ts:36-41 | only companies with the id change, and only in `active` |
| CompanyStore.ToggleTwice | src/store/companyStore.ts:36-41 | toggling twice restores the list |
| CompanyStore.AddThenDelete | src/store/companyStore.ts:19-34 | deleting a freshly added company with a new id restores the list |
| ActionPlanService.Read | src/services/actionPlanService.ts:48-52 | a read document carries its key as id and its stored fields |
| ActionPlanService.GetAllActionPlans | src/services/actionPlanService.ts:35-63 | a fresh cache is served as it is. Otherwise the listed documents are read in order and cached with the instant |
| ActionPlanService.ServerRange | src/services/actionPlanService.ts:83-93 | the server's answer holds exactly the listed documents whose period meets the range, each as often as listed, in listing order |
| ActionPlanService.GetActionPlansByDateRange | src/services/actionPlanService.ts:65-99 | only overlapping plans are returned. If the cache holds any overlapping plan, the answer is the overlapping cached plans, in cache order and multiplicity. Otherwise it is the overlapping listed documents, in listing order. Nothing changes |
| ActionPlanService.GetActionPlanById | src/services/actionPlanService.ts:101-125 | the first cached plan with the id is found, as `find` scans, else the stored document, else nothing; nothing changes |
| ActionPlanService.ValidateActionPlan | src/services/actionPlanService.ts:215-257 | valid iff name, coordinator, a team, both dates and end not before start are present, and no other document has the name. Otherwise the first failing check decides the message |
| ActionPlanService.CreateActionPlan | src/services/actionPlanService.ts:127-159 | an invalid plan is refused with the validator's message and nothing is written. A valid one is stored under the fresh id with its name, coordinator, teams, dates and logs as given, status `not_started` unless given, active, and `updatedAt` the instant, and is appended to a present cache |
| ActionPlanService.CreateRejectsStoredName | src/services/actionPlanService.ts:239-250 | a name already stored blocks every new plan that carries it |
| ActionPlanService.UpdateActionPlan | src/services/actionPlanService.ts:161-179 | a missing document fails. Otherwise the document takes the fields and the server stamp, and the matching cached plans take the fields |
| ActionPlanService.DeleteActionPlan | src/services/actionPlanService.ts:181-194 | the document is removed, and exactly the cached plans with the id are dropped; the rest of the cache keeps its multiplicity and order |
| ActionPlanService.ToggleActionPlanStatus | src/services/actionPlanService.ts:196-208 | an unknown plan is left alone. Otherwise the negation of the looked-up flag is written through the update |
| ActionPlanService.ActivePatch | src/services/actionPlanService.ts:200-202 | the patch changes `active` and nothing else |
| ActionPlanService.ClearCache | src/services/actionPlanService.ts:211-213 | the cache is dropped and the repository kept |
| ActionPlanService.MergeKeepsAgreement | src/services/actionPlanService.ts:161-179 | merging the same fields into a cached copy and its document keeps them equal up to `updatedAt` |
| ActionPlanService.CreateKeepsCoherent | src/services/actionPlanService.ts:127-159 | creation keeps every cached plan a copy of its stored document |
| ActionPlanService.UpdateKeepsCoherent | src/services/actionPlanService.ts:161-179 | updating keeps every cached plan a copy of its stored document |
| ActionPlanService.DeleteKeepsCoherent | src/services/actionPlanService.ts:181-194 | deletion keeps every cached plan a copy of its stored document |
| ActionPlanService.LookupSeesStoredFlag | src/services/actionPlanService.ts:101-125 | with a coherent cache, the lookup of a stored plan reports its stored `active` flag |
| ActionPlanService.ToggleFlipsStoredFlag | src/services/actionPlanService.ts:196-208 | with a coherent cache, toggling flips exactly the stored plan's flag, and no other document changes |
| OngoingActions.RoundedPercent | src/components/dashboard/OngoingActionsTable.tsx:89 | the percentage is the nearest integer to `100c/t`, halves upward, and at most 100 |
| OngoingActions.QuotientBounds | src/components/dashboard/OngoingActionsTable.tsx:89 | the integer rounding formula stays within 100 and rounds correctly |
| OngoingActions.CalculateProgress | src/components/dashboard/OngoingActionsTable.tsx:76-96 | the total is zero iff the plan has no task, and then all three values are zero. "Completed" counts the plan's active tasks, so it is zero iff none is active and equals the total iff all are. The percentage is the rounded share, at most 100 |
| OngoingActions.ProgressOfAppend | src/components/dashboard/OngoingActionsTable.tsx:77-88 | a task of another plan changes nothing; a task of the plan adds one to the total, and one to "completed" iff it is active |
| OngoingActions.Bar | src/components/dashboard/OngoingActionsTable.tsx:180-182 | green from 70, yellow from 30 to 69, red below 30 |
| OngoingActions.BarMonotone | src/components/dashboard/OngoingActionsTable.tsx:180-182 | more progress never shows a worse colour |
| OngoingActions.AllDoneRoundsToHundred | src/components/dashboard/OngoingActionsTable.tsx:89 | everything done rounds to exactly 100 |
| OngoingActions.BarOfExtremes | src/components/dashboard/OngoingActionsTable.tsx:76-96 | a plan without tasks shows red; a plan whose tasks are all active shows green |
| OngoingActions.ByEndIsPreorder | src/components/dashboard/OngoingActionsTable.tsx:73 | ordering by end date is a total preorder |
| OngoingActions.OngoingPlans | src/components/dashboard/OngoingActionsTable.tsx:71-73 | the active plans, each as often as in the input, sorted by end date; plans with the same end date keep their input order |
| OngoingActions.UniqueTeams | src/components/dashboard/OngoingActionsTable.tsx:66-68 | a team is listed iff it is active and the first team with its id; ids are distinct and come in the order they first appear |
| OngoingActions.Names | src/components/dashboard/OngoingActionsTable.tsx:156 | the names of the teams, in order |
| OngoingActions.CoordinatorName | src/components/dashboard/OngoingActionsTable.tsx:143-159 | the name of the first collaborator with the coordinator's id, or "Não definido" when there is none |
| OngoingActions.RowOf | src/components/dashboard/OngoingActionsTable.tsx:142-146 | a row is delayed iff the clock has passed the end date, and shows the plan's progress and coordinator. Its teams are exactly the plan's teams among the unique active ones, in the order their ids first appear, and the group cell lists their names in that order |
| OngoingActions.PlanTeams | src/components/dashboard/OngoingActionsTable.tsx:144 | exactly the plan's teams among the unique active ones, in the order their ids first appear |
| OngoingActions.Rows | src/components/dashboard/OngoingActionsTable.tsx:142-146 | one row per ongoing plan, in end-date order, equal end dates in input order |
| OngoingActions.Render | src/components/dashboard/OngoingActionsTable.tsx:119-125 | the empty message appears iff no plan is active; otherwise a non-empty table of the rows |
| CalendarUtils.OfMeeting | src/utils/calendarUtils.ts:27-39 | a meeting event keeps the meeting's id and title, is tagged as a meeting, and sets no all-day flag |
| CalendarUtils.OfTask | src/utils/calendarUtils.ts:41-53 | a task event keeps the task's id and name, is tagged as a task, and is all-day |
| CalendarUtils.OfPlan | src/utils/calendarUtils.ts:55-68 | a plan event keeps the plan's id and name, is tagged as a plan, and is all-day |
| CalendarUtils.MeetingEvents | src/utils/calendarUtils.ts:27-39 | one meeting event per meeting, in order |
| CalendarUtils.TaskEvents | src/utils/calendarUtils.ts:41-53 | one task event per task, in order |
| CalendarUtils.PlanEvents | src/utils/calendarUtils.ts:55-68 | one plan event per plan, in order |
| CalendarUtils.FormatCalendarEvents | src/utils/calendarUtils.ts:22-71 | the meetings' events, then the tasks', then the plans', one each |
| CalendarUtils.KindsInBlocks | src/utils/calendarUtils.ts:70 | an event's kind tells which block it is in, and only meeting events lack the all-day flag |
| CalendarUtils.Ids | src/utils/calendarUtils.ts:28-56 | the ids of the events, in order |
| CalendarUtils.MeetingsRecovered | src/utils/calendarUtils.ts:27-70 | picking out the meeting events gives back the meeting block, carrying the meetings' ids |
| CalendarUtils.TasksRecovered | src/utils/calendarUtils.ts:41-70 | picking out the task events gives back the task block, carrying the tasks' ids |
| CalendarUtils.PlansRecovered | src/utils/calendarUtils.ts:55-70 | picking out the plan events gives back the plan block, carrying the plans' ids |
| CalendarUtils.SplitAtT | src/utils/calendarUtils.ts:30-31 | the part before the first `T` holds no `T` |
| CalendarUtils.StampSplits | src/utils/calendarUtils.ts:30-31 | a composed date-time splits back into its day and time when the day holds no `T` |
| CalendarUtils.MeetingEventDecodes | src/utils/calendarUtils.ts:30-31 | a meeting event's start and end give back the meeting's day and its start and end times |
| WorkScheduleSection.AddSchedule | src/components/collaborators/WorkScheduleSection.tsx:10-20 | appends a presential period with no days, from 08:00 to 17:00 |
| WorkScheduleSection.UpdateSchedule | src/components/collaborators/WorkScheduleSection.tsx:22-28 | only the period at the index takes the fields; the length is kept |
| WorkScheduleSection.RemoveSchedule | src/components/collaborators/WorkScheduleSection.tsx:30-32 | exactly the period at the index is dropped and the others keep their order; an index outside the list changes nothing |
| WorkScheduleSection.OfferedRemovalKeepsOne | src/components/collaborators/WorkScheduleSection.tsx:51 | removal is offered only with more than one period, so at least one always remains |
| WorkScheduleSection.AddThenRemove | src/components/collaborators/WorkScheduleSection.tsx:10-32 | removing the period just added restores the list |
| WorkScheduleSection.UpdateWithOwnFields | src/components/collaborators/WorkScheduleSection.tsx:22-28 | writing back a period's own fields changes nothing |
| WorkScheduleSection.ToggleDay | src/components/collaborators/WorkScheduleSection.tsx:102-106 | checking appends the day; unchecking removes every copy of it and keeps the other days in their order |
| WorkScheduleSection.CheckThenUncheck | src/components/collaborators/WorkScheduleSection.tsx:102-106 | checking an unchecked day and unchecking it restores the list |
| WorkScheduleSection.SetDay | src/components/collaborators/WorkScheduleSection.tsx:97-106 | only the period at the index changes, and the day is in its list iff the box was checked |

## Left out

- Firestore I/O: collection queries, `serverTimestamp`, transactions and `Timestamp` conversion
  are an abstract map with an explicit instant. The network-error fallbacks are not modelled:
  the stale cache served on error, the empty list from the range query, and the rethrown
  errors.
- `getTaskById` in src/services/taskService.ts is not modelled; no modelled operation calls it.
- The replacing reducers (`setTasks`, `setActionPlans`, `setTeams`, `setCollaborators`,
  `setMeetings`) are not modelled. Each is a plain assignment of the whole list.
- Timers and React effects are left out: `setInterval` firing, `useEffect` wiring, the
  dashboard's 30-second refresh, and loading and error states. A monitor is its single check
  plus the handle bookkeeping of `startMonitoring`/`stopMonitoring`.
- Wall-clock access, date parsing and locale formatting are parameters. This covers `new Date`,
  `TimeService` and `toLocaleString`. Formatted dates and a day's rendered text are inputs of
  the history, calendar and card functions.
- Unparseable dates (`NaN`) are only modelled for log timestamps, which sort last. Elsewhere
  dates are integers, and a missing or empty action-plan date is `None`.
- `localeCompare` and the `<` comparison of strings are modelled as code-point order. JavaScript's `<` compares UTF-16 code units, which differs only for characters outside the Basic Multilingual Plane.
- TaskHistoryView.History: when a timestamp does not parse, the source's comparator returns `NaN`, and the resulting order depends on the JavaScript engine. The model puts such entries after every dated one, so its order is the source's only when every timestamp parses.
- TaskHistoryView.Render: the cards follow `TaskHistoryView.History`, so with an unparseable timestamp their order is the model's choice, as above.
- `toLowerCase` is modelled on Latin letters and Latin-1 accented capitals only.
- The ids from `crypto.randomUUID` and from Firestore are parameters.
- The zustand `persist` layer and the `window` event bus are out. The `taskStatusChanged`
  notification is a counter.
- src/types/Meeting.ts is not part of this model. The meeting record follows its use in
  src/services/meetingService.ts and src/store/meetingStore.ts.
- The broken callers are not modelled: src/hooks/useActionPlanStatus.ts,
  src/hooks/useTaskStatus.ts and src/components/tasks/TeamMemberTaskForm.tsx. Neither is
  MyTasksTab's duplicate overdue check.
- The calendar events' `description` and the other `extendedProps` fields are not modelled,
  because the entities here do not carry them.
- OngoingActions.RoundedPercent: `Math.round(c / t * 100)` is modelled with exact rational
  rounding, because floating-point tie artefacts are out of scope.
- ActionPlanService.GetActionPlansByDateRange: the server's string comparison of dates is
  modelled as integer comparison, and the server's answer as the overlapping listed documents.
- MeetingService.UpdateMeeting: the cache is given the present fields only. The source spreads
  the raw updates into the cached copy, so an explicit `null` or `undefined` field would
  overwrite the cached value there.
- MeetingService.GetAllMeetings: the date ordering of the query is the order of the `listing`
  parameter. It is not derived from the documents.
- ActionPlanService.CreateActionPlan: the returned and cached plan carry the stored document's
  `updatedAt`, the instant `now`. The source returns the caller's object spread under the new
  id, so its `updatedAt` is whatever the caller passed, and the server stamp is only stored.
- MeetingService.CreateMeeting: as for plans, the returned and cached meeting carry the stamp
  `now` as `updatedAt`, while the source returns the caller's object, with the caller's value.
- Cache aliasing is not modelled. `getAllTasks`, `getAllMeetings` and `getAllActionPlans` hand
  out the cache's own array, and the creates `push` into that array, so a list a caller
  obtained earlier grows in place. The model passes values, so an earlier answer never changes.
- TaskService.UpdateTaskStatus: the caller's entry is stored as given. Its conversion to a
  Firestore `Timestamp` is not modelled.

## Findings

| source | as written | input that shows it | evidently intended | confidence | as-written member | corrected member |
|---|---|---|---|---|---|---|
| src/components/meetings/MeetingGroups.tsx:23-26 | `new Date(meeting.date)` reads a "YYYY-MM-DD" date as midnight at Greenwich, and `setHours(0, 0, 0, 0)` then takes that instant's local day | in a time zone three hours west of Greenwich (offset -180 minutes), a meeting dated today | the meeting is filed under "today" (its calendar day equals today's) | not executed | MeetingGroups.GroupAsWrittenShiftsWest | MeetingGroups.GroupOf |
| src/components/meetings/ScheduledMeetingList.tsx:20-38 | `user` is destructured from `useStore()`, the collaborator store, which has no `user` field, so `user` is `undefined` and the guard `!selectedMeeting \|\| !user` always returns | any confirmed reschedule of a scheduled meeting | the signed-in user, as `useAuth()` gives it elsewhere, is recorded in the entry and the meeting is moved | not executed | MeetingUtils.ConfirmAsWrittenNeverMoves | MeetingUtils.Confirm |

=== FILE: access_control.dfy ===
/** The permission matrix `ACCESS_LEVELS` (src/config/accessControl.ts): for each access level,
    module and action, whether it is granted. */
module AccessControl {

  import opened Wrappers
  import opened Entities

  datatype AppModule = Dashboard | Collaborators | Teams | Projects | Tasks | MyTasks
                     | Meetings | CalendarView | Settings | Tv

  datatype Action = View | Create | Edit | Delete

  datatype Permission = Permission(view: bool, create: bool, edit: bool, delete: bool)

  /** The module key as written in the matrix. */
  function Name(m: AppModule): string {
    match m
    case Dashboard => "dashboard"
    case Collaborators => "collaborators"
    case Teams => "teams"
    case Projects => "projects"
    case Tasks => "tasks"
    case MyTasks => "myTasks"
    case Meetings => "meetings"
    case CalendarView => "calendar"
    case Settings => "settings"
    case Tv => "tv"
  }

  /** The module a key names, if any. */
  function Parse(key: string): (r: Option<AppModule>)
    ensures r.Some? ==> Name(r.value) == key
    ensures forall m :: Name(m) == key ==> r == Some(m)
  {
    if key == "dashboard" then Some(Dashboard)
    else if key == "collaborators" then Some(Collaborators)
    else if key == "teams" then Some(Teams)
    else if key == "projects" then Some(Projects)
    else if key == "tasks" then Some(Tasks)
    else if key == "myTasks" then Some(MyTasks)
    else if key == "meetings" then Some(Meetings)
    else if key == "calendar" then Some(CalendarView)
    else if key == "settings" then Some(Settings)
    else if key == "tv" then Some(Tv)
    else None
  }

  const All := Permission(true, true, true, true)
  const NoAccess := Permission(false, false, false, false)
  const ViewOnly := Permission(true, false, false, false)
  const NoDelete := Permission(true, true, true, false)

  /** `ACCESS_LEVELS[level][module]`. */
  function Matrix(level: AccessLevel, m: AppModule): Permission {
    match level
    case Admin => if m == Tv then ViewOnly else All
    case Manager =>
      if m == Meetings then All
      else if m == Settings then NoAccess
      else if m == Tv then ViewOnly
      else NoDelete
    case User =>
      if m == MyTasks then Permission(true, false, true, false)
      else if m == Meetings || m == CalendarView || m == Tv then ViewOnly
      else NoAccess
  }

  function Grants(p: Permission, a: Action): bool {
    match a
    case View => p.view
    case Create => p.create
    case Edit => p.edit
    case Delete => p.delete
  }

  predicate Allowed(level: AccessLevel, m: AppModule, a: Action) {
    Grants(Matrix(level, m), a)
  }

  /** The rank `isAuthorized` compares: admin 3, manager 2, user 1. */
  function Rank(level: AccessLevel): (r: nat)
    ensures 1 <= r <= 3
  {
    match level
    case Admin => 3
    case Manager => 2
    case User => 1
  }

  /** Admin holds everything except changes to the TV view, which it may only see. */
  lemma AdminRow(m: AppModule, a: Action)
    ensures Allowed(Admin, m, a) <==> m != Tv || a == View
  {
  }

  /** Every level may view the TV module and none may change it. */
  lemma TvIsViewOnly(level: AccessLevel, a: Action)
    ensures Allowed(level, Tv, a) <==> a == View
  {
  }

  /** A manager deletes only meetings and has no access to settings. */
  lemma ManagerRow(m: AppModule, a: Action)
    ensures Allowed(Manager, m, Delete) <==> m == Meetings
    ensures !Allowed(Manager, Settings, a)
  {
  }

  /** A user sees only their tasks, meetings, the calendar and the TV view, edits only their
      tasks, and never creates or deletes. */
  lemma UserRow(m: AppModule)
    ensures Allowed(User, m, View) <==> m in {MyTasks, Meetings, CalendarView, Tv}
    ensures Allowed(User, m, Edit) <==> m == MyTasks
    ensures !Allowed(User, m, Create) && !Allowed(User, m, Delete)
  {
  }

  /** No level may act on a module it cannot see. */
  lemma ActionNeedsView(level: AccessLevel, m: AppModule, a: Action)
    ensures Allowed(level, m, a) ==> Allowed(level, m, View)
  {
  }

  /** Grants grow with the rank: user within manager within admin. */
  lemma GrantsMonotone(low: AccessLevel, high: AccessLevel, m: AppModule, a: Action)
    requires Rank(low) <= Rank(high)
    ensures Allowed(low, m, a) ==> Allowed(high, m, a)
  {
  }
}

/** `hasPermission` (src/contexts/PermissionsContext.tsx) and the shorthands of
    src/hooks/usePermissions.ts. */
module Permissions {

  import opened Wrappers
  import opened Entities
  import opened AccessControl

  /** `hasPermission(module, action)` for the signed-in collaborator, if any. */
  function HasPermission(user: Option<Collaborator>, key: string, a: Action): (r: bool)
    ensures user.None? ==> !r
    ensures Parse(key).None? ==> !r
    ensures user.Some? ==> forall m :: Name(m) == key ==> (r <==> Allowed(user.value.accessLevel, m, a))
  {
    match (user, Parse(key))
    case (Some(u), Some(m)) => Grants(Matrix(u.accessLevel, m), a)
    case _ => false
  }

  /** The signed-in collaborator's level grants action `a` on the module `key` names. */
  predicate Granted(user: Option<Collaborator>, key: string, a: Action) {
    user.Some? && Parse(key).Some? && Allowed(user.value.accessLevel, Parse(key).value, a)
  }

  /** `canView(module)`. */
  function CanView(user: Option<Collaborator>, key: string): (r: bool)
    ensures r <==> Granted(user, key, View)
  {
    HasPermission(user, key, View)
  }

  /** `canCreate(module)`: only on a module the collaborator can view. */
  function CanCreate(user: Option<Collaborator>, key: string): (r: bool)
    ensures r <==> Granted(user, key, Create)
    ensures r ==> CanView(user, key)
  {
    HasPermission(user, key, Create)
  }

  /** `canEdit(module)`: only on a module the collaborator can view. */
  function CanEdit(user: Option<Collaborator>, key: string): (r: bool)
    ensures r <==> Granted(user, key, Edit)
    ensures r ==> CanView(user, key)
  {
    HasPermission(user, key, Edit)
  }

  /** `canDelete(module)`: only on a module the collaborator can view. */
  function CanDelete(user: Option<Collaborator>, key: string): (r: bool)
    ensures r <==> Granted(user, key, Delete)
    ensures r ==> CanView(user, key)
  {
    HasPermission(user, key, Delete)
  }

  /** Whatever a collaborator may do, one of a higher level may do too, and nothing is allowed
      on a module the collaborator cannot view. */
  lemma HasPermissionMonotone(u: Collaborator, v: Collaborator, key: string, a: Action)
    requires Rank(u.accessLevel) <= Rank(v.accessLevel)
    ensures HasPermission(Some(u), key, a) ==> HasPermission(Some(v), key, a)
    ensures HasPermission(Some(u), key, a) ==> CanView(Some(u), key)
  {
  }
}

=== FILE: action_plan_service.dfy ===
/** The action-plan service (src/services/actionPlanService.ts) over an abstract document
    repository and its in-memory cache. */
module ActionPlanService {

  import opened Wrappers
  import opened Seqs
  import opened Verdicts
  import opened Entities
  import PS = PlanStatusConfig
  import Text

  /** `CACHE_DURATION`: five minutes in milliseconds. */
  const CacheDuration: int := 5 * 60 * 1000

  /** What the repository reports when `updateDoc` meets a missing document. */
  const NoDocument := "not-found"

  /** A stored action-plan document; the id is the document's key. */
  datatype PlanDoc = PlanDoc(
    name: string,
    startDate: int,
    endDate: int,
    coordinatorId: Id,
    teamIds: seq<Id>,
    status: PS.PlanStatus,
    statusLogs: Option<seq<PlanLog>>,
    active: bool,
    updatedAt: int)

  datatype Cache = Cache(data: seq<ActionPlan>, timestamp: int)

  datatype Service = Service(repo: map<Id, PlanDoc>, cache: Option<Cache>)

  datatype Reply<T> = Ok(value: T) | Failure(message: string)

  datatype Step<T> = Step(reply: Reply<T>, next: Service)

  /** `{ id: doc.id, ...doc.data() }`. */
  function Read(id: Id, d: PlanDoc): (p: ActionPlan)
    ensures p.id == id && p.name == d.name && p.status == d.status && p.active == d.active
  {
    ActionPlan(id, d.name, d.startDate, d.endDate, d.coordinatorId, d.teamIds, d.status, d.statusLogs,
               d.active, d.updatedAt)
  }

  /** `updateDoc(ref, { ...updates, updatedAt: serverTimestamp() })`. */
  function MergeDoc(d: PlanDoc, p: PlanPatch, now: int): PlanDoc {
    d.(name := p.name.GetOr(d.name), startDate := p.startDate.GetOr(d.startDate),
       endDate := p.endDate.GetOr(d.endDate), coordinatorId := p.coordinatorId.GetOr(d.coordinatorId),
       teamIds := p.teamIds.GetOr(d.teamIds), status := p.status.GetOr(d.status),
       statusLogs := if p.statusLogs.Some? then p.statusLogs else d.statusLogs,
       active := p.active.GetOr(d.active), updatedAt := now)
  }

  predicate Fresh(c: Option<Cache>, now: int) {
    c.Some? && now - c.value.timestamp < CacheDuration
  }

  /** `getAllActionPlans` at instant `now`; `listing` is the order in which the repository returns
      its documents. */
  function GetAllActionPlans(s: Service, now: int, listing: seq<Id>): (st: Step<seq<ActionPlan>>)
    requires forall k :: 0 <= k < |listing| ==> listing[k] in s.repo
    ensures Fresh(s.cache, now) ==> st == Step(Ok(s.cache.value.data), s)
    ensures !Fresh(s.cache, now) ==>
              && st.reply.Ok?
              && |st.reply.value| == |listing|
              && st.next == s.(cache := Some(Cache(st.reply.value, now)))
              && forall k :: 0 <= k < |listing| ==>
                   st.reply.value[k].id == listing[k] && st.reply.value[k] == Read(listing[k], s.repo[listing[k]])
  {
    if Fresh(s.cache, now) then Step(Ok(s.cache.value.data), s)
    else
      var plans := seq(|listing|, k requires 0 <= k < |listing| => Read(listing[k], s.repo[listing[k]]));
      Step(Ok(plans), s.(cache := Some(Cache(plans, now))))
  }

  /** `planStart <= rangeEnd && planEnd >= rangeStart`: the plan's period meets the range. */
  predicate Overlaps(p: ActionPlan, rangeStart: int, rangeEnd: int) {
    p.startDate <= rangeEnd && p.endDate >= rangeStart
  }

  function InRange(rangeStart: int, rangeEnd: int): ActionPlan -> bool {
    (p: ActionPlan) => Overlaps(p, rangeStart, rangeEnd)
  }

  /** The documents of `listing`, read in that order. */
  function ReadAll(repo: map<Id, PlanDoc>, listing: seq<Id>): (r: seq<ActionPlan>)
    requires forall k :: 0 <= k < |listing| ==> listing[k] in repo
    ensures |r| == |listing|
    ensures forall k :: 0 <= k < |listing| ==> r[k] == Read(listing[k], repo[listing[k]])
  {
    seq(|listing|, k requires 0 <= k < |listing| => Read(listing[k], repo[listing[k]]))
  }

  /** The server query of `getActionPlansByDateRange`: the overlapping documents of `listing`, in
      that order. */
  function ServerRange(s: Service, rangeStart: int, rangeEnd: int, listing: seq<Id>): (r: seq<ActionPlan>)
    requires forall k :: 0 <= k < |listing| ==> listing[k] in s.repo
    ensures forall p :: p in r ==> Overlaps(p, rangeStart, rangeEnd)
    ensures forall k :: 0 <= k < |listing| && Overlaps(Read(listing[k], s.repo[listing[k]]), rangeStart, rangeEnd)
              ==> Read(listing[k], s.repo[listing[k]]) in r
    ensures forall p :: p in r ==> exists k :: 0 <= k < |listing| && p == Read(listing[k], s.repo[listing[k]])
    ensures Subsequence(r, ReadAll(s.repo, listing))
    ensures forall p :: multiset(r)[p] == if Overlaps(p, rangeStart, rangeEnd) then multiset(ReadAll(s.repo, listing))[p] else 0
  {
    var all := ReadAll(s.repo, listing);
    var hits := Filter(all, InRange(rangeStart, rangeEnd));
    forall k | 0 <= k < |listing| && Overlaps(Read(listing[k], s.repo[listing[k]]), rangeStart, rangeEnd)
      ensures Read(listing[k], s.repo[listing[k]]) in hits
    {
      assert all[k] in all;
    }
    forall p | p in hits ensures exists k :: 0 <= k < |listing| && p == Read(listing[k], s.repo[listing[k]]) {
      var k :| 0 <= k < |all| && all[k] == p;
    }
    FilterSubsequence(all, InRange(rangeStart, rangeEnd));
    FilterCount(all, InRange(rangeStart, rangeEnd));
    hits
  }

  /** `getActionPlansByDateRange`: the overlapping cached plans when there are any, whatever the
      cache's age, in cache order; otherwise the repository's overlapping documents in `listing`
      order. Nothing is cached. */
  function GetActionPlansByDateRange(s: Service, rangeStart: int, rangeEnd: int, listing: seq<Id>)
    : (st: Step<seq<ActionPlan>>)
    requires forall k :: 0 <= k < |listing| ==> listing[k] in s.repo
    ensures st.next == s && st.reply.Ok?
    ensures forall p :: p in st.reply.value ==> Overlaps(p, rangeStart, rangeEnd)
    ensures s.cache.Some? && (exists p :: p in s.cache.value.data && Overlaps(p, rangeStart, rangeEnd)) ==>
              forall p :: p in st.reply.value <==> p in s.cache.value.data && Overlaps(p, rangeStart, rangeEnd)
    ensures s.cache.Some? && (exists p :: p in s.cache.value.data && Overlaps(p, rangeStart, rangeEnd)) ==>
              && Subsequence(st.reply.value, s.cache.value.data)
              && forall p :: multiset(st.reply.value)[p] == if Overlaps(p, rangeStart, rangeEnd) then multiset(s.cache.value.data)[p] else 0
    ensures (s.cache.None? || forall p :: p in s.cache.value.data ==> !Overlaps(p, rangeStart, rangeEnd)) ==>
              forall k :: 0 <= k < |listing| && Overlaps(Read(listing[k], s.repo[listing[k]]), rangeStart, rangeEnd)
                ==> Read(listing[k], s.repo[listing[k]]) in st.reply.value
    ensures (s.cache.None? || forall p :: p in s.cache.value.data ==> !Overlaps(p, rangeStart, rangeEnd)) ==>
              forall p :: p in st.reply.value ==>
                exists k :: 0 <= k < |listing| && p == Read(listing[k], s.repo[listing[k]])
    ensures (s.cache.None? || forall p :: p in s.cache.value.data ==> !Overlaps(p, rangeStart, rangeEnd)) ==>
              && Subsequence(st.reply.value, ReadAll(s.repo, listing))
              && forall p :: multiset(st.reply.value)[p]
                             == if Overlaps(p, rangeStart, rangeEnd) then multiset(ReadAll(s.repo, listing))[p] else 0
  {
    var cached := if s.cache.Some? then Filter(s.cache.value.data, InRange(rangeStart, rangeEnd)) else [];
    if |cached| > 0 then
      assert cached[0] in cached;
      FilterSubsequence(s.cache.value.data, InRange(rangeStart, rangeEnd));
      FilterCount(s.cache.value.data, InRange(rangeStart, rangeEnd));
      Step(Ok(cached), s)
    else
      Step(Ok(ServerRange(s, rangeStart, rangeEnd, listing)), s)
  }

  function HasId(id: Id): ActionPlan -> bool {
    (p: ActionPlan) => p.id == id
  }

  /** `getActionPlanById`: the first cached plan with the id (`find`), else the stored document, else null. */
  function GetActionPlanById(s: Service, id: Id): (st: Step<Option<ActionPlan>>)
    ensures st.next == s && st.reply.Ok?
    ensures s.cache.Some? && (exists p :: p in s.cache.value.data && p.id == id) ==>
              && st.reply.value.Some?
              && st.reply.value.value in s.cache.value.data && st.reply.value.value.id == id
    ensures s.cache.Some? && (exists p :: p in s.cache.value.data && p.id == id) ==>
              exists i :: 0 <= i < |s.cache.value.data| && Some(s.cache.value.data[i]) == st.reply.value
                          && forall j :: 0 <= j < i ==> s.cache.value.data[j].id != id
    ensures (s.cache.None? || forall p :: p in s.cache.value.data ==> p.id != id) ==>
              st.reply.value == if id in s.repo then Some(Read(id, s.repo[id])) else None
  {
    var hit := if s.cache.Some? then Find(s.cache.value.data, HasId(id)) else None;
    if hit.Some? then Step(Ok(hit), s)
    else if id in s.repo then Step(Ok(Some(Read(id, s.repo[id]))), s)
    else Step(Ok(None), s)
  }

  /** The input of `createActionPlan`; a missing or empty date string is `None`. */
  datatype NewPlan = NewPlan(
    name: string,
    startDate: Option<int>,
    endDate: Option<int>,
    coordinatorId: Id,
    teamIds: seq<Id>,
    status: Option<PS.PlanStatus>,
    statusLogs: Option<seq<PlanLog>>,
    active: bool)

  const NameRequired := "Nome da ação é obrigatório"
  const CoordinatorRequired := "Responsável é obrigatório"
  const TeamRequired := "Selecione pelo menos um grupo"
  const DatesRequired := "Datas de início e término são obrigatórias"
  const EndBeforeStart := "Data de término deve ser posterior à data de início"
  const DuplicateName := "Já existe uma ação com este nome"

  /** A stored document other than `id` carries the name exactly; without an `id` every document
      counts. */
  predicate NameTaken(repo: map<Id, PlanDoc>, name: string, id: Option<Id>) {
    exists k :: k in repo && repo[k].name == name && Some(k) != id
  }

  /** A name, a coordinator and at least one team. */
  predicate Staffed(p: NewPlan) {
    !Text.IsBlank(p.name) && p.coordinatorId != "" && |p.teamIds| > 0
  }

  /** Everything `validateActionPlan` checks before the name query. */
  predicate WellFormed(p: NewPlan) {
    && Staffed(p)
    && p.startDate.Some? && p.endDate.Some?
    && p.endDate.value >= p.startDate.value
  }

  /** `validateActionPlan`: the first failing check decides the message. */
  function ValidateActionPlan(repo: map<Id, PlanDoc>, p: NewPlan, id: Option<Id>): (v: Verdict)
    ensures v.valid <==> WellFormed(p) && !NameTaken(repo, p.name, id)
    ensures v.valid ==> v == Accept(None)
    ensures Text.IsBlank(p.name) ==> v == Reject(NameRequired)
    ensures !Text.IsBlank(p.name) && p.coordinatorId == "" ==> v == Reject(CoordinatorRequired)
    ensures !Text.IsBlank(p.name) && p.coordinatorId != "" && |p.teamIds| == 0 ==> v == Reject(TeamRequired)
    ensures Staffed(p) && (p.startDate.None? || p.endDate.None?) ==> v == Reject(DatesRequired)
    ensures Staffed(p) && p.startDate.Some? && p.endDate.Some? && p.endDate.value < p.startDate.value
            ==> v == Reject(EndBeforeStart)
    ensures WellFormed(p) && NameTaken(repo, p.name, id) ==> v == Reject(DuplicateName)
  {
    if Text.IsBlank(p.name) then Reject(NameRequired)
    else if p.coordinatorId == "" then Reject(CoordinatorRequired)
    else if |p.teamIds| == 0 then Reject(TeamRequired)
    else if p.startDate.None? || p.endDate.None? then Reject(DatesRequired)
    else if p.endDate.value < p.startDate.value then Reject(EndBeforeStart)
    else if NameTaken(repo, p.name, id) then Reject(DuplicateName)
    else Accept(None)
  }

  /** `createActionPlan`: validate, then store the document under the repository's fresh id with
      the status defaulted and `active` forced on, and append the plan to a present cache. A
      rejected plan writes nothing. */
  function CreateActionPlan(s: Service, input: NewPlan, newId: Id, now: int): (st: Step<ActionPlan>)
    requires newId !in s.repo
    ensures !ValidateActionPlan(s.repo, input, None).valid ==>
              st == Step(Failure(ValidateActionPlan(s.repo, input, None).message.value), s)
    ensures st.reply.Ok? <==> WellFormed(input) && !NameTaken(s.repo, input.name, None)
    ensures st.reply.Ok? ==>
              && st.reply.value.id == newId && st.reply.value.active
              && st.reply.value.name == input.name
              && st.reply.value.status == input.status.GetOr(PS.NotStarted)
              && st.reply.value.startDate == input.startDate.value && st.reply.value.endDate == input.endDate.value
              && st.reply.value.coordinatorId == input.coordinatorId && st.reply.value.teamIds == input.teamIds
              && st.reply.value.statusLogs == input.statusLogs
              && newId in st.next.repo
              && st.next.repo == s.repo[newId := st.next.repo[newId]]
              && Read(newId, st.next.repo[newId]) == st.reply.value
              && st.next.repo[newId].updatedAt == now
              && (st.next.cache.Some? <==> s.cache.Some?)
              && (s.cache.Some? ==> st.next.cache.value == s.cache.value.(data := s.cache.value.data + [st.reply.value]))
  {
    var v := ValidateActionPlan(s.repo, input, None);
    if !v.valid then Step(Failure(v.message.value), s)
    else
      var doc := PlanDoc(input.name, input.startDate.value, input.endDate.value, input.coordinatorId,
                         input.teamIds, input.status.GetOr(PS.NotStarted), input.statusLogs, true, now);
      var plan := Read(newId, doc);
      var cache := if s.cache.Some? then Some(s.cache.value.(data := s.cache.value.data + [plan])) else None;
      Step(Ok(plan), Service(s.repo[newId := doc], cache))
  }

  /** A name already stored under any document blocks every new plan that carries it, however the
      rest of the plan looks. */
  lemma CreateRejectsStoredName(s: Service, input: NewPlan, newId: Id, now: int, other: Id)
    requires newId !in s.repo && other in s.repo && s.repo[other].name == input.name
    ensures CreateActionPlan(s, input, newId, now).reply.Failure?
    ensures CreateActionPlan(s, input, newId, now).next == s
  {
  }

  function Merged(patch: PlanPatch): ActionPlan -> ActionPlan {
    (p: ActionPlan) => MergePlan(p, patch)
  }

  /** `updateActionPlan`: merge the updates and the server stamp into the document; rewrite the
      cached plans with the id with the updates alone. A missing document fails the write and leaves
      the cache alone. */
  function UpdateActionPlan(s: Service, id: Id, patch: PlanPatch, now: int): (st: Step<()>)
    ensures id !in s.repo ==> st == Step(Failure(NoDocument), s)
    ensures id in s.repo ==>
              && st.reply.Ok?
              && st.next.repo == s.repo[id := MergeDoc(s.repo[id], patch, now)]
              && (st.next.cache.Some? <==> s.cache.Some?)
    ensures id in s.repo && s.cache.Some? ==>
              && st.next.cache.value.timestamp == s.cache.value.timestamp
              && |st.next.cache.value.data| == |s.cache.value.data|
              && forall i :: 0 <= i < |s.cache.value.data| ==>
                   st.next.cache.value.data[i]
                   == if s.cache.value.data[i].id == id then MergePlan(s.cache.value.data[i], patch)
                      else s.cache.value.data[i]
  {
    if id !in s.repo then Step(Failure(NoDocument), s)
    else
      var cache := if s.cache.Some? then Some(s.cache.value.(data := MapWhere(s.cache.value.data, PlanId, id, Merged(patch))))
                   else None;
      Step(Ok(()), Service(s.repo[id := MergeDoc(s.repo[id], patch, now)], cache))
  }

  function IsNotPlan(id: Id): ActionPlan -> bool {
    (p: ActionPlan) => p.id != id
  }

  /** `deleteActionPlan`: remove the document (a missing one is no error) and every cached plan
      with the id. */
  function DeleteActionPlan(s: Service, id: Id): (st: Step<()>)
    ensures st.reply.Ok? && st.next.repo == s.repo - {id}
    ensures st.next.cache.Some? <==> s.cache.Some?
    ensures s.cache.Some? ==>
              && st.next.cache.value.timestamp == s.cache.value.timestamp
              && (forall p :: p in st.next.cache.value.data <==> p in s.cache.value.data && p.id != id)
              && (forall p :: multiset(st.next.cache.value.data)[p] == if p.id != id then multiset(s.cache.value.data)[p] else 0)
              && Subsequence(st.next.cache.value.data, s.cache.value.data)
  {
    var cache := if s.cache.Some? then
                   FilterCount(s.cache.value.data, IsNotPlan(id));
                   FilterSubsequence(s.cache.value.data, IsNotPlan(id));
                   Some(s.cache.value.(data := Filter(s.cache.value.data, IsNotPlan(id))))
                 else None;
    Step(Ok(()), Service(s.repo - {id}, cache))
  }

  /** `toggleActionPlanStatus`: read the plan (cache first) and write the negation of the flag it
      read; an unknown plan changes nothing. */
  function ToggleActionPlanStatus(s: Service, id: Id, now: int): (st: Step<()>)
    ensures GetActionPlanById(s, id).reply.value.None? ==> st == Step(Ok(()), s)
    ensures GetActionPlanById(s, id).reply.value.Some? ==>
              st == UpdateActionPlan(s, id, ActivePatch(!GetActionPlanById(s, id).reply.value.value.active), now)
  {
    var found := GetActionPlanById(s, id).reply.value;
    if found.None? then Step(Ok(()), s)
    else UpdateActionPlan(s, id, ActivePatch(!found.value.active), now)
  }

  /** `{ active }` as a partial update. */
  function ActivePatch(active: bool): (p: PlanPatch)
    ensures forall a :: MergePlan(a, p) == a.(active := active)
  {
    PlanPatch(None, None, None, None, None, None, None, Some(active), None)
  }

  /** `clearCache`. */
  function ClearCache(s: Service): (r: Service)
    ensures r.cache.None? && r.repo == s.repo
  {
    s.(cache := None)
  }

  /** A cached plan agrees with a stored one up to the server's `updatedAt` stamp. */
  predicate Agree(a: ActionPlan, b: ActionPlan) {
    a.(updatedAt := 0) == b.(updatedAt := 0)
  }

  /** Every cached plan is a copy of the stored document with its id. */
  predicate Coherent(s: Service) {
    s.cache.Some? ==> forall p :: p in s.cache.value.data ==> p.id in s.repo && Agree(p, Read(p.id, s.repo[p.id]))
  }

  /** Merging the same updates into a cached copy and into its document keeps them in agreement. */
  lemma MergeKeepsAgreement(p: ActionPlan, d: PlanDoc, patch: PlanPatch, now: int)
    requires Agree(p, Read(p.id, d))
    ensures Agree(MergePlan(p, patch), Read(p.id, MergeDoc(d, patch, now)))
  {
    assert p.(updatedAt := 0) == Read(p.id, d).(updatedAt := 0);
  }

  /** Writes through the service keep the cache a faithful copy of the repository. */
  lemma CreateKeepsCoherent(s: Service, input: NewPlan, newId: Id, now: int)
    requires newId !in s.repo && Coherent(s)
    ensures Coherent(CreateActionPlan(s, input, newId, now).next)
  {
  }

  lemma {:induction false} UpdateKeepsCoherent(s: Service, id: Id, patch: PlanPatch, now: int)
    requires Coherent(s)
    ensures Coherent(UpdateActionPlan(s, id, patch, now).next)
  {
    var n := UpdateActionPlan(s, id, patch, now).next;
    if id in s.repo && s.cache.Some? {
      var old_ := s.cache.value.data;
      forall q | q in n.cache.value.data ensures q.id in n.repo && Agree(q, Read(q.id, n.repo[q.id])) {
        var i :| 0 <= i < |n.cache.value.data| && n.cache.value.data[i] == q;
        assert old_[i] in old_;
        if old_[i].id == id {
          MergeKeepsAgreement(old_[i], s.repo[id], patch, now);
        }
      }
    }
  }

  lemma DeleteKeepsCoherent(s: Service, id: Id)
    requires Coherent(s)
    ensures Coherent(DeleteActionPlan(s, id).next)
  {
  }

  /** On a coherent service the lookup reports the stored flag of a known plan. */
  lemma LookupSeesStoredFlag(s: Service, id: Id)
    requires Coherent(s) && id in s.repo
    ensures GetActionPlanById(s, id).reply.value.Some?
    ensures GetActionPlanById(s, id).reply.value.value.active == s.repo[id].active
  {
    var found := GetActionPlanById(s, id).reply.value;
    if s.cache.Some? && exists p :: p in s.cache.value.data && p.id == id {
      assert Agree(found.value, Read(id, s.repo[id]));
      assert found.value.(updatedAt := 0).active == found.value.active;
    }
  }

  /** On a coherent service the toggle flips the stored flag of a known plan and touches no other
      document. */
  lemma ToggleFlipsStoredFlag(s: Service, id: Id, now: int)
    requires Coherent(s) && id in s.repo
    ensures ToggleActionPlanStatus(s, id, now).next.repo.Keys == s.repo.Keys
    ensures ToggleActionPlanStatus(s, id, now).next.repo[id].active == !s.repo[id].active
    ensures forall k :: k in s.repo && k != id ==> ToggleActionPlanStatus(s, id, now).next.repo[k] == s.repo[k]
  {
    LookupSeesStoredFlag(s, id);
    var st := UpdateActionPlan(s, id, ActivePatch(!s.repo[id].active), now);
    assert ToggleActionPlanStatus(s, id, now) == st;
    assert st.next.repo == s.repo[id := MergeDoc(s.repo[id], ActivePatch(!s.repo[id].active), now)];
  }
}

=== FILE: action_plan_store.dfy ===
/** The client-side action plan store's reducers (src/store/actionPlanStore.ts). */
module ActionPlanStore {

  import opened Seqs
  import opened Entities

  function IsNotPlan(id: Id): ActionPlan -> bool {
    (p: ActionPlan) => p.id != id
  }

  function Flip(p: ActionPlan): ActionPlan {
    p.(active := !p.active)
  }

  /** `addActionPlan`: append the plan as given. */
  function AddActionPlan(plans: seq<ActionPlan>, plan: ActionPlan): (r: seq<ActionPlan>)
    ensures |r| == |plans| + 1 && r[..|plans|] == plans && r[|plans|] == plan
  {
    plans + [plan]
  }

  /** `updateActionPlan`: `{ ...plan, ...updates }` for every plan with the id; no time stamp is added. */
  function UpdateActionPlan(plans: seq<ActionPlan>, id: Id, patch: PlanPatch): (r: seq<ActionPlan>)
    ensures |r| == |plans|
    ensures forall i :: 0 <= i < |plans| ==>
              r[i] == if plans[i].id == id then MergePlan(plans[i], patch) else plans[i]
    ensures forall i :: 0 <= i < |plans| ==> r[i].id == plans[i].id
  {
    MapWhere(plans, PlanId, id, Merged(patch))
  }

  /** `{ ...plan, ...updates }`. */
  function Merged(patch: PlanPatch): ActionPlan -> ActionPlan {
    (p: ActionPlan) => MergePlan(p, patch)
  }

  /** `deleteActionPlan`: drop every plan with the id, keep the rest in order. */
  function DeleteActionPlan(plans: seq<ActionPlan>, id: Id): (r: seq<ActionPlan>)
    ensures forall p :: p in r <==> p in plans && p.id != id
    ensures forall p :: multiset(r)[p] == if p.id != id then multiset(plans)[p] else 0
    ensures Subsequence(r, plans)
  {
    FilterCount(plans, IsNotPlan(id));
    FilterSubsequence(plans, IsNotPlan(id));
    Filter(plans, IsNotPlan(id))
  }

  /** `toggleActionPlanStatus`: flip `active` of every plan with the id, nothing else. */
  function ToggleActionPlanStatus(plans: seq<ActionPlan>, id: Id): (r: seq<ActionPlan>)
    ensures |r| == |plans|
    ensures forall i :: 0 <= i < |plans| && plans[i].id == id ==>
              r[i].active == !plans[i].active && r[i].(active := plans[i].active) == plans[i]
    ensures forall i :: 0 <= i < |plans| && plans[i].id != id ==> r[i] == plans[i]
  {
    MapWhere(plans, PlanId, id, Flip)
  }

  lemma ToggleTwice(plans: seq<ActionPlan>, id: Id)
    ensures ToggleActionPlanStatus(ToggleActionPlanStatus(plans, id), id) == plans
  {
    MapWhereTwice(plans, PlanId, id, Flip);
  }

  lemma AddThenDelete(plans: seq<ActionPlan>, plan: ActionPlan)
    requires forall p :: p in plans ==> p.id != plan.id
    ensures DeleteActionPlan(AddActionPlan(plans, plan), plan.id) == plans
  {
    FilterAppend(plans, [plan], IsNotPlan(plan.id));
    FilterAll(plans, IsNotPlan(plan.id));
  }
}

=== FILE: auth.dfy ===
/** Sign-in and the rank check of src/contexts/AuthContext.tsx. The collaborator list is the
    store's; the signed-in collaborator is the session state. */
module Auth {

  import opened Wrappers
  import opened Seqs
  import opened Entities
  import opened AccessControl
  import Text

  /** `isAuthorized(requiredLevel)`: with nobody signed in, nothing is authorised; anyone signed
      in is authorised at the user level and at their own level, an admin at every level, and
      only an admin at the admin level. */
  function IsAuthorized(user: Option<Collaborator>, required: AccessLevel): (r: bool)
    ensures r ==> user.Some?
    ensures user.Some? && (required == User || required == user.value.accessLevel || user.value.accessLevel == Admin) ==> r
    ensures r && required == Admin ==> user.value.accessLevel == Admin
    ensures r && required == Manager ==> user.value.accessLevel != User
  {
    user.Some? && Rank(user.value.accessLevel) >= Rank(required)
  }

  /** Authorisation for a level carries every grant of that level. */
  lemma AuthorizedHoldsLevelGrants(user: Option<Collaborator>, required: AccessLevel, m: AppModule, a: Action)
    requires IsAuthorized(user, required)
    ensures Allowed(required, m, a) ==> Allowed(user.value.accessLevel, m, a)
  {
    GrantsMonotone(required, user.value.accessLevel, m, a);
  }

  function IsAdmin(c: Collaborator): bool { c.accessLevel == Admin }

  /** The built-in credentials: `username.toLowerCase() === 'admin' && password === 'admin'`. */
  predicate DefaultAdmin(username: string, password: string) {
    Text.Lower(username) == "admin" && password == "admin"
  }

  /** `name.split(' ')[0].toLowerCase()`. */
  function FirstName(name: string): string {
    Text.Lower(Text.FirstWord(name))
  }

  /** The name-path match: same lower-cased first name, same password, and active. */
  function Matches(username: string, password: string): Collaborator -> bool {
    (c: Collaborator) => FirstName(c.name) == FirstName(username) && c.password == password && c.active
  }

  datatype Session = Session(ok: bool, user: Option<Collaborator>)

  /** `login(username, password)` against `collaborators`, from the session user `current`. */
  function Login(current: Option<Collaborator>, collaborators: seq<Collaborator>, username: string, password: string)
    : (s: Session)
    ensures DefaultAdmin(username, password) && Find(collaborators, IsAdmin).Some?
            ==> s == Session(true, Find(collaborators, IsAdmin))
    ensures !(DefaultAdmin(username, password) && Find(collaborators, IsAdmin).Some?) ==>
              && (s.ok <==> exists c :: c in collaborators && Matches(username, password)(c))
              && (s.ok ==> s.user.Some? && Matches(username, password)(s.user.value))
              && (s.ok ==> exists i :: 0 <= i < |collaborators| && collaborators[i] == s.user.value
                                       && forall j :: 0 <= j < i ==> !Matches(username, password)(collaborators[j]))
    ensures s.ok ==> s.user.Some? && s.user.value in collaborators
    ensures !s.ok ==> s.user == current
  {
    var admin := Find(collaborators, IsAdmin);
    if DefaultAdmin(username, password) && admin.Some? then Session(true, admin)
    else
      match Find(collaborators, Matches(username, password))
      case Some(c) => Session(true, Some(c))
      case None => Session(false, current)
  }

  /** An inactive collaborator never signs in except as the first admin through the built-in
      credentials, which do not look at `active`. */
  lemma InactiveOnlyAsDefaultAdmin(current: Option<Collaborator>, collaborators: seq<Collaborator>,
                                   username: string, password: string)
    requires Login(current, collaborators, username, password).ok
    requires !Login(current, collaborators, username, password).user.value.active
    ensures DefaultAdmin(username, password)
    ensures Login(current, collaborators, username, password).user.value.accessLevel == Admin
  {
  }

  /** `u` is "admin" with any of its letters capitalised. */
  predicate AdminCasing(u: string) {
    |u| == 5 && forall i :: 0 <= i < 5 ==> u[i] == "admin"[i] || u[i] == ("admin"[i] as int - 32) as char
  }

  /** The built-in credentials accept every casing of the user name "admin" and no other name,
      while the password must be "admin" exactly. */
  lemma DefaultAdminIgnoresCase(username: string, password: string)
    ensures DefaultAdmin(username, password) <==> AdminCasing(username) && password == "admin"
  {
    if Text.Lower(username) == "admin" {
      forall i | 0 <= i < 5 ensures username[i] == "admin"[i] || username[i] == ("admin"[i] as int - 32) as char {
        assert Text.LowerChar(username[i]) == "admin"[i];
      }
    }
    if AdminCasing(username) {
      forall i | 0 <= i < 5 ensures Text.Lower(username)[i] == "admin"[i] {
        assert Text.Lower(username)[i] == Text.LowerChar(username[i]);
      }
    }
  }

  /** `logout`. */
  function Logout(current: Option<Collaborator>): (r: Option<Collaborator>)
    ensures r.None? && !IsAuthorized(r, User)
  {
    None
  }
}

=== FILE: calendar_utils.dfy ===
/** `formatCalendarEvents` (src/utils/calendarUtils.ts): meetings, tasks and action plans as calendar
    events. A meeting's day is rendered by the caller-supplied `dayText`; task and plan dates pass
    through unchanged. */
module CalendarUtils {

  import opened Wrappers
  import opened Seqs
  import opened Entities
  import TS = TaskStatusConfig
  import PS = PlanStatusConfig

  datatype EventKind = MeetingEvent | TaskEvent | PlanEvent

  /** An event boundary: a composed "dateTtime" text, or a date taken over verbatim. */
  datatype When = Text(text: string) | Verbatim(at: int)

  /** The kind-specific `extendedProps`. */
  datatype Props =
    | MeetingProps(location: string, meetingLink: string, participants: Participants)
    | TaskProps(taskStatus: TS.TaskStatus, assigneeId: Id)
    | PlanProps(planStatus: PS.PlanStatus, coordinatorId: Id, teamIds: seq<Id>)

  datatype Event = Event(id: Id, title: string, start: When, end: When, allDay: Option<bool>,
                         kind: EventKind, props: Props)

  /** `${date}T${time}`. */
  function Stamp(day: string, time: string): string {
    day + "T" + time
  }

  function OfMeeting(m: Meeting, dayText: int -> string): (e: Event)
    ensures e.id == m.id && e.title == m.title && e.kind == MeetingEvent && e.allDay.None?
  {
    Event(m.id, m.title, Text(Stamp(dayText(m.date), m.startTime)), Text(Stamp(dayText(m.date), m.endTime)), None,
          MeetingEvent, MeetingProps(m.location, m.meetingLink, m.participants))
  }

  function OfTask(t: Task): (e: Event)
    ensures e.id == t.id && e.title == t.name && e.kind == TaskEvent && e.allDay == Some(true)
  {
    Event(t.id, t.name, Verbatim(t.startDate), Verbatim(t.endDate), Some(true), TaskEvent, TaskProps(t.status, t.assigneeId))
  }

  function OfPlan(p: ActionPlan): (e: Event)
    ensures e.id == p.id && e.title == p.name && e.kind == PlanEvent && e.allDay == Some(true)
  {
    Event(p.id, p.name, Verbatim(p.startDate), Verbatim(p.endDate), Some(true), PlanEvent,
          PlanProps(p.status, p.coordinatorId, p.teamIds))
  }

  /** `meetingEvents`. */
  function MeetingEvents(meetings: seq<Meeting>, dayText: int -> string): (r: seq<Event>)
    ensures |r| == |meetings| && forall i :: 0 <= i < |meetings| ==> r[i] == OfMeeting(meetings[i], dayText)
    ensures forall e :: e in r ==> e.kind == MeetingEvent
  {
    seq(|meetings|, i requires 0 <= i < |meetings| => OfMeeting(meetings[i], dayText))
  }

  /** `taskEvents`. */
  function TaskEvents(tasks: seq<Task>): (r: seq<Event>)
    ensures |r| == |tasks| && forall i :: 0 <= i < |tasks| ==> r[i] == OfTask(tasks[i])
    ensures forall e :: e in r ==> e.kind == TaskEvent
  {
    seq(|tasks|, i requires 0 <= i < |tasks| => OfTask(tasks[i]))
  }

  /** `actionPlanEvents`. */
  function PlanEvents(plans: seq<ActionPlan>): (r: seq<Event>)
    ensures |r| == |plans| && forall i :: 0 <= i < |plans| ==> r[i] == OfPlan(plans[i])
    ensures forall e :: e in r ==> e.kind == PlanEvent
  {
    seq(|plans|, i requires 0 <= i < |plans| => OfPlan(plans[i]))
  }

  /** `[...meetingEvents, ...taskEvents, ...actionPlanEvents]`. */
  function FormatCalendarEvents(meetings: seq<Meeting>, tasks: seq<Task>, plans: seq<ActionPlan>, dayText: int -> string)
    : (r: seq<Event>)
    ensures |r| == |meetings| + |tasks| + |plans|
    ensures forall i :: 0 <= i < |meetings| ==> r[i] == OfMeeting(meetings[i], dayText)
    ensures forall i :: 0 <= i < |tasks| ==> r[|meetings| + i] == OfTask(tasks[i])
    ensures forall i :: 0 <= i < |plans| ==> r[|meetings| + |tasks| + i] == OfPlan(plans[i])
  {
    MeetingEvents(meetings, dayText) + TaskEvents(tasks) + PlanEvents(plans)
  }

  /** The events come in blocks: meetings first, then tasks, then plans. */
  lemma KindsInBlocks(meetings: seq<Meeting>, tasks: seq<Task>, plans: seq<ActionPlan>, dayText: int -> string, i: nat)
    requires i < |FormatCalendarEvents(meetings, tasks, plans, dayText)|
    ensures FormatCalendarEvents(meetings, tasks, plans, dayText)[i].kind == MeetingEvent <==> i < |meetings|
    ensures FormatCalendarEvents(meetings, tasks, plans, dayText)[i].kind == TaskEvent <==>
              |meetings| <= i < |meetings| + |tasks|
    ensures FormatCalendarEvents(meetings, tasks, plans, dayText)[i].kind == PlanEvent <==> |meetings| + |tasks| <= i
    ensures FormatCalendarEvents(meetings, tasks, plans, dayText)[i].allDay.None? <==> i < |meetings|
  {
    var r := FormatCalendarEvents(meetings, tasks, plans, dayText);
    if i < |meetings| {
      assert r[i] == OfMeeting(meetings[i], dayText);
    } else if i < |meetings| + |tasks| {
      assert r[|meetings| + (i - |meetings|)] == OfTask(tasks[i - |meetings|]);
    } else {
      assert r[|meetings| + |tasks| + (i - |meetings| - |tasks|)] == OfPlan(plans[i - |meetings| - |tasks|]);
    }
  }

  function EventId(e: Event): Id {
    e.id
  }

  function Ids(es: seq<Event>): (r: seq<Id>)
    ensures |r| == |es| && forall i :: 0 <= i < |es| ==> r[i] == es[i].id
  {
    seq(|es|, i requires 0 <= i < |es| => es[i].id)
  }

  function IsKind(k: EventKind): Event -> bool {
    (e: Event) => e.kind == k
  }

  /** Picking out one kind of event gives back that block alone, so the events of each kind carry
      the ids of the entities of that kind, in their order. */
  lemma MeetingsRecovered(meetings: seq<Meeting>, tasks: seq<Task>, plans: seq<ActionPlan>, dayText: int -> string)
    ensures Filter(FormatCalendarEvents(meetings, tasks, plans, dayText), IsKind(MeetingEvent)) == MeetingEvents(meetings, dayText)
    ensures Ids(MeetingEvents(meetings, dayText)) == seq(|meetings|, i requires 0 <= i < |meetings| => meetings[i].id)
  {
    FilterFirst(MeetingEvents(meetings, dayText), TaskEvents(tasks), PlanEvents(plans), IsKind(MeetingEvent));
  }

  lemma TasksRecovered(meetings: seq<Meeting>, tasks: seq<Task>, plans: seq<ActionPlan>, dayText: int -> string)
    ensures Filter(FormatCalendarEvents(meetings, tasks, plans, dayText), IsKind(TaskEvent)) == TaskEvents(tasks)
    ensures Ids(TaskEvents(tasks)) == seq(|tasks|, i requires 0 <= i < |tasks| => tasks[i].id)
  {
    FilterMiddle(MeetingEvents(meetings, dayText), TaskEvents(tasks), PlanEvents(plans), IsKind(TaskEvent));
  }

  lemma PlansRecovered(meetings: seq<Meeting>, tasks: seq<Task>, plans: seq<ActionPlan>, dayText: int -> string)
    ensures Filter(FormatCalendarEvents(meetings, tasks, plans, dayText), IsKind(PlanEvent)) == PlanEvents(plans)
    ensures Ids(PlanEvents(plans)) == seq(|plans|, i requires 0 <= i < |plans| => plans[i].id)
  {
    FilterLast(MeetingEvents(meetings, dayText), TaskEvents(tasks), PlanEvents(plans), IsKind(PlanEvent));
  }

  /** The text before the first 'T', and the text after it. */
  function SplitAtT(s: string): (r: (string, string))
    ensures 'T' !in r.0
  {
    if s == [] then ([], [])
    else if s[0] == 'T' then ([], s[1..])
    else var rest := SplitAtT(s[1..]); ([s[0]] + rest.0, rest.1)
  }

  /** When the rendered day holds no 'T', the composed stamp splits back into day and time. */
  lemma {:induction false} StampSplits(day: string, time: string)
    requires 'T' !in day
    ensures SplitAtT(Stamp(day, time)) == (day, time)
  {
    if day == [] {
      assert Stamp(day, time) == "T" + time;
    } else {
      assert day[0] in day;
      assert Stamp(day, time)[0] == day[0];
      assert Stamp(day, time)[1..] == Stamp(day[1..], time);
      StampSplits(day[1..], time);
      assert [day[0]] + day[1..] == day;
    }
  }

  /** A meeting event's start and end give back the meeting's day and times. */
  lemma MeetingEventDecodes(m: Meeting, dayText: int -> string)
    requires 'T' !in dayText(m.date)
    ensures OfMeeting(m, dayText).start.Text? && OfMeeting(m, dayText).end.Text?
    ensures SplitAtT(OfMeeting(m, dayText).start.text) == (dayText(m.date), m.startTime)
    ensures SplitAtT(OfMeeting(m, dayText).end.text) == (dayText(m.date), m.endTime)
  {
    StampSplits(dayText(m.date), m.startTime);
    StampSplits(dayText(m.date), m.endTime);
  }
}

=== FILE: collaborator_store.dfy ===
/** The client-side collaborator store's reducers (src/store/useStore.ts). */
module CollaboratorStore {

  import opened Seqs
  import opened Entities

  function IsNotCollaborator(id: Id): Collaborator -> bool {
    (c: Collaborator) => c.id != id
  }

  /** `addCollaborator`: append the collaborator as given. */
  function AddCollaborator(cs: seq<Collaborator>, c: Collaborator): (r: seq<Collaborator>)
    ensures |r| == |cs| + 1 && r[..|cs|] == cs && r[|cs|] == c
  {
    cs + [c]
  }

  /** `updateCollaborator`: `{ ...c, ...updates }` for every collaborator with the id. */
  function UpdateCollaborator(cs: seq<Collaborator>, id: Id, patch: CollaboratorPatch): (r: seq<Collaborator>)
    ensures |r| == |cs|
    ensures forall i :: 0 <= i < |cs| ==>
              r[i] == if cs[i].id == id then MergeCollaborator(cs[i], patch) else cs[i]
    ensures forall i :: 0 <= i < |cs| ==> r[i].id == cs[i].id
  {
    MapWhere(cs, CollaboratorId, id, (c: Collaborator) => MergeCollaborator(c, patch))
  }

  /** `deleteCollaborator`: drop every collaborator with the id, keep the rest in order. */
  function DeleteCollaborator(cs: seq<Collaborator>, id: Id): (r: seq<Collaborator>)
    ensures forall c :: c in r <==> c in cs && c.id != id
    ensures forall c :: multiset(r)[c] == if c.id != id then multiset(cs)[c] else 0
    ensures Subsequence(r, cs)
  {
    FilterCount(cs, IsNotCollaborator(id));
    FilterSubsequence(cs, IsNotCollaborator(id));
    Filter(cs, IsNotCollaborator(id))
  }

  lemma AddThenDelete(cs: seq<Collaborator>, c: Collaborator)
    requires forall x :: x in cs ==> x.id != c.id
    ensures DeleteCollaborator(AddCollaborator(cs, c), c.id) == cs
  {
    FilterAppend(cs, [c], IsNotCollaborator(c.id));
    FilterAll(cs, IsNotCollaborator(c.id));
  }
}

=== FILE: company_store.dfy ===
/** The client-side company store (src/store/companyStore.ts): its reducers and the in-memory
    validator with its duplicate-CNPJ check. */
module CompanyStore {

  import opened Wrappers
  import opened Seqs
  import opened Verdicts
  import opened Entities
  import Text

  /** A `Partial<Company>` as the validator sees it; `None` is a missing field. */
  datatype CompanyDraft = CompanyDraft(name: Option<string>, cnpj: Option<string>, email: Option<string>,
                                       phone: Option<string>, address: Option<string>)

  /** `!field?.trim()` is false: the field is present and not blank. */
  predicate Filled(f: Option<string>) {
    f.Some? && !Text.IsBlank(f.value)
  }

  const NameRequired := "Nome da empresa é obrigatório"
  const CnpjRequired := "CNPJ é obrigatório"
  const EmailRequired := "Email é obrigatório"
  const PhoneRequired := "Telefone é obrigatório"
  const AddressRequired := "Endereço é obrigatório"
  const DuplicateCnpj := "Já existe uma empresa com este CNPJ"

  /** Some stored company other than the one with `id` already has the draft's CNPJ; without an
      `id` every stored company counts. */
  predicate CnpjTaken(companies: seq<Company>, d: CompanyDraft, id: Option<Id>) {
    exists c :: c in companies && Some(c.cnpj) == d.cnpj && Some(c.id) != id
  }

  predicate AllFilled(d: CompanyDraft) {
    Filled(d.name) && Filled(d.cnpj) && Filled(d.email) && Filled(d.phone) && Filled(d.address)
  }

  /** `validateCompany(company, id)`: the first failing check decides the message. */
  function ValidateCompany(companies: seq<Company>, d: CompanyDraft, id: Option<Id>): (v: Verdict)
    ensures v.valid <==> AllFilled(d) && !CnpjTaken(companies, d, id)
    ensures v.valid ==> v == Accept(None)
    ensures !Filled(d.name) ==> v == Reject(NameRequired)
    ensures Filled(d.name) && !Filled(d.cnpj) ==> v == Reject(CnpjRequired)
    ensures Filled(d.name) && Filled(d.cnpj) && !Filled(d.email) ==> v == Reject(EmailRequired)
    ensures Filled(d.name) && Filled(d.cnpj) && Filled(d.email) && !Filled(d.phone) ==> v == Reject(PhoneRequired)
    ensures Filled(d.name) && Filled(d.cnpj) && Filled(d.email) && Filled(d.phone) && !Filled(d.address)
            ==> v == Reject(AddressRequired)
    ensures AllFilled(d) && CnpjTaken(companies, d, id) ==> v == Reject(DuplicateCnpj)
  {
    if !Filled(d.name) then Reject(NameRequired)
    else if !Filled(d.cnpj) then Reject(CnpjRequired)
    else if !Filled(d.email) then Reject(EmailRequired)
    else if !Filled(d.phone) then Reject(PhoneRequired)
    else if !Filled(d.address) then Reject(AddressRequired)
    else if exists i :: 0 <= i < |companies| && Some(companies[i].cnpj) == d.cnpj && Some(companies[i].id) != id
    then Reject(DuplicateCnpj)
    else Accept(None)
  }

  /** Re-validating a stored company under its own id does not trip over its own CNPJ. */
  lemma OwnCnpjIsNotDuplicate(companies: seq<Company>, c: Company)
    requires c in companies
    requires forall o :: o in companies && o.cnpj == c.cnpj ==> o.id == c.id
    requires AllFilled(CompanyDraft(Some(c.name), Some(c.cnpj), Some(c.email), Some(c.phone), Some(c.address)))
    ensures ValidateCompany(companies, CompanyDraft(Some(c.name), Some(c.cnpj), Some(c.email), Some(c.phone),
                                                    Some(c.address)), Some(c.id)).valid
    ensures !ValidateCompany(companies, CompanyDraft(Some(c.name), Some(c.cnpj), Some(c.email), Some(c.phone),
                                                     Some(c.address)), None).valid
  {
  }

  function IsNotCompany(id: Id): Company -> bool {
    (c: Company) => c.id != id
  }

  function Flip(c: Company): Company {
    c.(active := !c.active)
  }

  /** `addCompany`: append the company as given; nothing is validated. */
  function AddCompany(companies: seq<Company>, c: Company): (r: seq<Company>)
    ensures |r| == |companies| + 1 && r[..|companies|] == companies && r[|companies|] == c
  {
    companies + [c]
  }

  /** `updateCompany`: `{ ...comp, ...updates }` for every company with the id. */
  function UpdateCompany(companies: seq<Company>, id: Id, patch: CompanyPatch): (r: seq<Company>)
    ensures |r| == |companies|
    ensures forall i :: 0 <= i < |companies| ==>
              r[i] == if companies[i].id == id then MergeCompany(companies[i], patch) else companies[i]
  {
    MapWhere(companies, CompanyId, id, (c: Company) => MergeCompany(c, patch))
  }

  /** `deleteCompany`: drop every company with the id, keep the rest in order. */
  function DeleteCompany(companies: seq<Company>, id: Id): (r: seq<Company>)
    ensures forall c :: c in r <==> c in companies && c.id != id
    ensures forall c :: multiset(r)[c] == if c.id != id then multiset(companies)[c] else 0
    ensures Subsequence(r, companies)
  {
    FilterCount(companies, IsNotCompany(id));
    FilterSubsequence(companies, IsNotCompany(id));
    Filter(companies, IsNotCompany(id))
  }

  /** `toggleCompanyStatus`: flip `active` of every company with the id, nothing else. */
  function ToggleCompanyStatus(companies: seq<Company>, id: Id): (r: seq<Company>)
    ensures |r| == |companies|
    ensures forall i :: 0 <= i < |companies| && companies[i].id == id ==>
              r[i].active == !companies[i].active && r[i].(active := companies[i].active) == companies[i]
    ensures forall i :: 0 <= i < |companies| && companies[i].id != id ==> r[i] == companies[i]
  {
    MapWhere(companies, CompanyId, id, Flip)
  }

  lemma ToggleTwice(companies: seq<Company>, id: Id)
    ensures ToggleCompanyStatus(ToggleCompanyStatus(companies, id), id) == companies
  {
    MapWhereTwice(companies, CompanyId, id, Flip);
  }

  lemma AddThenDelete(companies: seq<Company>, c: Company)
    requires forall x :: x in companies ==> x.id != c.id
    ensures DeleteCompany(AddCompany(companies, c), c.id) == companies
  {
    FilterAppend(companies, [c], IsNotCompany(c.id));
    FilterAll(companies, IsNotCompany(c.id));
  }
}

=== FILE: deadline_sweep.dfy ===
/** The check both deadline monitors run (src/services/TaskMonitoringService.ts and
    src/services/ActionPlanMonitoringService.ts), generic in the entity: take a snapshot, build
    one update for every entity that is due, then hand the updates one after another to the
    store's merge-by-id. */
module DeadlineSweep {

  import opened Seqs

  /** One `update(id, patch)` call. */
  datatype Update<P> = Update(id: string, patch: P)

  function UpdateId<P>(u: Update<P>): string { u.id }

  /** The `forEach` of a check: an update for each due entity, in snapshot order; the k-th update
      is built with the k-th fresh id. */
  function Sweep<E(!new), P>(items: seq<E>, due: E -> bool, build: (E, string) -> P, key: E -> string,
                             freshId: nat -> string): (us: seq<Update<P>>)
    ensures |us| == |Filter(items, due)|
    ensures forall k :: 0 <= k < |us| ==>
              us[k] == Update(key(Filter(items, due)[k]), build(Filter(items, due)[k], freshId(k)))
    decreases |items|
  {
    if items == [] then []
    else
      var init := items[..|items| - 1];
      var last := items[|items| - 1];
      var prev := Sweep(init, due, build, key, freshId);
      assert Filter(items, due) == if due(last) then Filter(init, due) + [last] else Filter(init, due);
      if due(last) then prev + [Update(key(last), build(last, freshId(|prev|)))] else prev
  }

  /** Every update addresses a due entity of the snapshot. */
  lemma SweepSound<E(!new), P>(items: seq<E>, due: E -> bool, build: (E, string) -> P, key: E -> string,
                              freshId: nat -> string, k: nat)
    requires k < |Sweep(items, due, build, key, freshId)|
    ensures exists i :: 0 <= i < |items| && due(items[i]) && Sweep(items, due, build, key, freshId)[k].id == key(items[i])
  {
    var f := Filter(items, due);
    assert f[k] in f;
    var i :| 0 <= i < |items| && items[i] == f[k];
  }

  /** Every due entity of the snapshot gets an update built from it. */
  lemma SweepComplete<E(!new), P>(items: seq<E>, due: E -> bool, build: (E, string) -> P, key: E -> string,
                                 freshId: nat -> string, i: nat)
    requires i < |items| && due(items[i])
    ensures exists k :: 0 <= k < |Sweep(items, due, build, key, freshId)|
              && Sweep(items, due, build, key, freshId)[k] == Update(key(items[i]), build(items[i], freshId(k)))
  {
    var f := Filter(items, due);
    assert items[i] in f;
    var k :| 0 <= k < |f| && f[k] == items[i];
    assert Sweep(items, due, build, key, freshId)[k] == Update(key(items[i]), build(items[i], freshId(k)));
  }

  /** No update addresses the id. */
  predicate Unaddressed<P>(us: seq<Update<P>>, id: string) {
    forall k :: 0 <= k < |us| ==> us[k].id != id
  }

  /** A due entity is addressed. */
  lemma DueIsAddressed<E(!new), P>(items: seq<E>, due: E -> bool, build: (E, string) -> P, key: E -> string,
                                  freshId: nat -> string, i: nat)
    requires i < |items| && due(items[i])
    ensures !Unaddressed(Sweep(items, due, build, key, freshId), key(items[i]))
  {
    SweepComplete(items, due, build, key, freshId, i);
  }

  /** The updates applied one after another, each as `items.map(e => key(e) === id ? apply(patch)(e) : e)`. */
  function Apply<E, P>(items: seq<E>, us: seq<Update<P>>, apply: P -> E -> E, key: E -> string): (r: seq<E>)
    ensures |r| == |items|
    decreases |us|
  {
    if us == [] then items
    else Apply(MapWhere(items, key, us[0].id, apply(us[0].patch)), us[1..], apply, key)
  }

  /** The merge never changes an entity's id. */
  ghost predicate KeepsKey<E(!new), P(!new)>(apply: P -> E -> E, key: E -> string) {
    forall p, e :: key(apply(p)(e)) == key(e)
  }

  /** Entities no update addresses are left exactly as they were. */
  lemma {:induction false} ApplyUntouched<E, P>(items: seq<E>, us: seq<Update<P>>, apply: P -> E -> E,
                                                key: E -> string, i: nat)
    requires i < |items| && Unaddressed(us, key(items[i]))
    ensures Apply(items, us, apply, key)[i] == items[i]
    decreases |us|
  {
    if us != [] {
      var m := MapWhere(items, key, us[0].id, apply(us[0].patch));
      assert m[i] == items[i];
      assert Unaddressed(us[1..], key(m[i])) by {
        forall k | 0 <= k < |us[1..]| ensures us[1..][k].id != key(m[i]) {
          assert us[1..][k] == us[k + 1];
        }
      }
      ApplyUntouched(m, us[1..], apply, key, i);
    }
  }

  /** Every patch cures: whatever entity it is merged into is no longer due. */
  ghost predicate AllCure<E(!new), P>(us: seq<Update<P>>, apply: P -> E -> E, due: E -> bool) {
    forall k, e :: 0 <= k < |us| ==> !due(apply(us[k].patch)(e))
  }

  lemma AllCureTail<E(!new), P>(us: seq<Update<P>>, apply: P -> E -> E, due: E -> bool)
    requires us != [] && AllCure(us, apply, due)
    ensures AllCure(us[1..], apply, due)
  {
    forall k, e | 0 <= k < |us[1..]| ensures !due(apply(us[1..][k].patch)(e)) {
      assert us[1..][k] == us[k + 1];
    }
  }

  /** Every patch the check can build cures. */
  ghost predicate Cures<E(!new), P(!new)>(build: (E, string) -> P, apply: P -> E -> E, due: E -> bool) {
    forall d, x, e :: !due(apply(build(d, x))(e))
  }

  lemma SweepAllCure<E(!new), P(!new)>(items: seq<E>, due: E -> bool, build: (E, string) -> P, key: E -> string,
                                       freshId: nat -> string, apply: P -> E -> E)
    requires Cures(build, apply, due)
    ensures AllCure(Sweep(items, due, build, key, freshId), apply, due)
  {
  }

  /** When every patch cures, every addressed entity ends up cured. */
  lemma {:induction false} ApplyCures<E(!new), P(!new)>(items: seq<E>, us: seq<Update<P>>, apply: P -> E -> E,
                                                        key: E -> string, due: E -> bool, i: nat, k: nat)
    requires KeepsKey(apply, key) && AllCure(us, apply, due)
    requires i < |items| && k < |us| && us[k].id == key(items[i])
    ensures !due(Apply(items, us, apply, key)[i])
    decreases |us|, 1
  {
    if k == 0 {
      ApplyCuresHead(items, us, apply, key, due, i);
    } else {
      var m := MapWhere(items, key, us[0].id, apply(us[0].patch));
      assert key(m[i]) == key(items[i]);
      assert us[1..][k - 1] == us[k];
      AllCureTail(us, apply, due);
      ApplyCures(m, us[1..], apply, key, due, i, k - 1);
    }
  }

  /** The case of `ApplyCures` where the first update addresses the entity. */
  lemma {:induction false} ApplyCuresHead<E(!new), P(!new)>(items: seq<E>, us: seq<Update<P>>, apply: P -> E -> E,
                                                            key: E -> string, due: E -> bool, i: nat)
    requires KeepsKey(apply, key) && AllCure(us, apply, due)
    requires i < |items| && us != [] && us[0].id == key(items[i])
    ensures !due(Apply(items, us, apply, key)[i])
    decreases |us|, 0
  {
    var m := MapWhere(items, key, us[0].id, apply(us[0].patch));
    var rest := us[1..];
    assert m[i] == apply(us[0].patch)(items[i]);
    AllCureTail(us, apply, due);
    if !Unaddressed(rest, key(m[i])) {
      var j :| 0 <= j < |rest| && rest[j].id == key(m[i]);
      ApplyCures(m, rest, apply, key, due, i, j);
    } else {
      ApplyUntouched(m, rest, apply, key, i);
    }
  }

  /** With distinct addresses, each addressed entity carries exactly the merge of its own update. */
  lemma {:induction false} ApplyDistinct<E(!new), P(!new)>(items: seq<E>, us: seq<Update<P>>, apply: P -> E -> E,
                                                           key: E -> string, i: nat, k: nat)
    requires KeepsKey(apply, key) && KeysDistinct(us, UpdateId)
    requires i < |items| && k < |us| && us[k].id == key(items[i])
    ensures Apply(items, us, apply, key)[i] == apply(us[k].patch)(items[i])
    decreases |us|
  {
    var m := MapWhere(items, key, us[0].id, apply(us[0].patch));
    var rest := us[1..];
    assert KeysDistinct(rest, UpdateId) by {
      forall a, b | 0 <= a < b < |rest| ensures UpdateId(rest[a]) != UpdateId(rest[b]) {
        assert rest[a] == us[a + 1] && rest[b] == us[b + 1];
      }
    }
    if k == 0 {
      assert Unaddressed(rest, key(m[i])) by {
        forall j | 0 <= j < |rest| ensures rest[j].id != key(m[i]) {
          assert rest[j] == us[j + 1];
          assert UpdateId(us[0]) != UpdateId(us[j + 1]);
        }
      }
      ApplyUntouched(m, rest, apply, key, i);
    } else {
      assert UpdateId(us[0]) != UpdateId(us[k]);
      assert m[i] == items[i];
      assert rest[k - 1] == us[k];
      ApplyDistinct(m, rest, apply, key, i, k - 1);
    }
  }

  /** A snapshot with distinct ids yields updates with distinct addresses. */
  lemma SweepDistinct<E(!new), P>(items: seq<E>, due: E -> bool, build: (E, string) -> P, key: E -> string,
                                 freshId: nat -> string)
    requires KeysDistinct(items, key)
    ensures KeysDistinct(Sweep(items, due, build, key, freshId), UpdateId)
  {
    var us := Sweep(items, due, build, key, freshId);
    var f := Filter(items, due);
    FilterKeysDistinct(items, due, key);
    forall a, b | 0 <= a < b < |us| ensures UpdateId(us[a]) != UpdateId(us[b]) {
      assert key(f[a]) != key(f[b]);
    }
  }

  /** With distinct ids, the update addressing an entity is the one built from it. */
  lemma SweepAddressed<E(!new), P>(items: seq<E>, due: E -> bool, build: (E, string) -> P, key: E -> string,
                                  freshId: nat -> string, i: nat, k: nat)
    requires KeysDistinct(items, key)
    requires i < |items| && k < |Sweep(items, due, build, key, freshId)|
    requires Sweep(items, due, build, key, freshId)[k].id == key(items[i])
    ensures Sweep(items, due, build, key, freshId)[k] == Update(key(items[i]), build(items[i], freshId(k)))
  {
    var f := Filter(items, due);
    assert f[k] in f;
    var j :| 0 <= j < |items| && items[j] == f[k];
    KeyDetermines(items, key, i, j);
  }

  lemma AddressedIsCured<E(!new), P(!new)>(items: seq<E>, us: seq<Update<P>>, apply: P -> E -> E,
                                           key: E -> string, due: E -> bool, i: nat)
    requires KeepsKey(apply, key) && AllCure(us, apply, due)
    requires i < |items| && !Unaddressed(us, key(items[i]))
    ensures !due(Apply(items, us, apply, key)[i])
  {
    var k :| 0 <= k < |us| && us[k].id == key(items[i]);
    ApplyCures(items, us, apply, key, due, i, k);
  }

  /** After a check, no entity of the snapshot is due any more. */
  lemma SweepLeavesNoneDue<E(!new), P(!new)>(items: seq<E>, due: E -> bool, build: (E, string) -> P,
                                             key: E -> string, freshId: nat -> string, apply: P -> E -> E, i: nat)
    requires KeepsKey(apply, key) && Cures(build, apply, due)
    requires i < |items|
    ensures !due(Apply(items, Sweep(items, due, build, key, freshId), apply, key)[i])
  {
    var us := Sweep(items, due, build, key, freshId);
    if !Unaddressed(us, key(items[i])) {
      SweepAllCure(items, due, build, key, freshId, apply);
      AddressedIsCured(items, us, apply, key, due, i);
    } else {
      UnaddressedStaysCured(items, due, build, key, freshId, apply, i);
    }
  }

  lemma UnaddressedStaysCured<E(!new), P(!new)>(items: seq<E>, due: E -> bool, build: (E, string) -> P,
                                                key: E -> string, freshId: nat -> string, apply: P -> E -> E, i: nat)
    requires i < |items| && Unaddressed(Sweep(items, due, build, key, freshId), key(items[i]))
    ensures !due(Apply(items, Sweep(items, due, build, key, freshId), apply, key)[i])
  {
    if due(items[i]) {
      DueIsAddressed(items, due, build, key, freshId, i);
    }
    ApplyUntouched(items, Sweep(items, due, build, key, freshId), apply, key, i);
  }

  /** A second check right after the first finds nothing to do. */
  lemma SweepIdempotent<E(!new), P(!new)>(items: seq<E>, due: E -> bool, build: (E, string) -> P,
                                          key: E -> string, freshId: nat -> string, apply: P -> E -> E,
                                          laterIds: nat -> string)
    requires KeepsKey(apply, key) && Cures(build, apply, due)
    ensures Sweep(Apply(items, Sweep(items, due, build, key, freshId), apply, key), due, build, key, laterIds) == []
  {
    var r := Apply(items, Sweep(items, due, build, key, freshId), apply, key);
    forall i | 0 <= i < |r| ensures !due(r[i]) {
      SweepLeavesNoneDue(items, due, build, key, freshId, apply, i);
    }
    FilterNone(r, due);
  }

  /** With distinct ids, after a check each entity is either untouched (it was not due) or
      carries the merge of the update built from it. */
  lemma SweepEffect<E(!new), P(!new)>(items: seq<E>, due: E -> bool, build: (E, string) -> P,
                                      key: E -> string, freshId: nat -> string, apply: P -> E -> E, i: nat)
    requires KeepsKey(apply, key) && KeysDistinct(items, key)
    requires i < |items|
    ensures !due(items[i]) ==> Apply(items, Sweep(items, due, build, key, freshId), apply, key)[i] == items[i]
    ensures due(items[i]) ==> exists k ::
              Apply(items, Sweep(items, due, build, key, freshId), apply, key)[i] == apply(build(items[i], freshId(k)))(items[i])
  {
    var us := Sweep(items, due, build, key, freshId);
    if due(items[i]) {
      DueIsAddressed(items, due, build, key, freshId, i);
    }
    if !Unaddressed(us, key(items[i])) {
      var k :| 0 <= k < |us| && us[k].id == key(items[i]);
      SweepDistinct(items, due, build, key, freshId);
      SweepAddressed(items, due, build, key, freshId, i, k);
      ApplyDistinct(items, us, apply, key, i, k);
      assert due(Filter(items, due)[k]);
    } else {
      ApplyUntouched(items, us, apply, key, i);
    }
  }
}

=== FILE: entities.dfy ===
/** The records of the application (the files under src/types), reduced to the fields the modelled logic
    reads or writes, and the `{ ...entity, ...updates }` merge of each. Dates are instants in
    milliseconds; a meeting's `date` is a day number and its times are "HH:MM" strings. */
module Entities {

  import opened Wrappers
  import opened StatusLogs
  import TS = TaskStatusConfig
  import PS = PlanStatusConfig

  type Id = string

  type TaskLog = StatusLog<TS.TaskStatus>
  type PlanLog = StatusLog<PS.PlanStatus>

  datatype Task = Task(
    id: Id,
    name: string,
    startDate: int,
    endDate: int,
    assigneeId: Id,
    actionPlanId: Id,
    status: TS.TaskStatus,
    statusLogs: seq<TaskLog>,
    active: bool,
    updatedAt: int)

  /** A `Partial<Task>` update: `None` leaves the field as it is. */
  datatype TaskPatch = TaskPatch(
    name: Option<string>,
    startDate: Option<int>,
    endDate: Option<int>,
    status: Option<TS.TaskStatus>,
    statusLogs: Option<seq<TaskLog>>,
    active: Option<bool>,
    updatedAt: Option<int>)

  function MergeTask(t: Task, p: TaskPatch): Task {
    t.(name := p.name.GetOr(t.name), startDate := p.startDate.GetOr(t.startDate),
       endDate := p.endDate.GetOr(t.endDate), status := p.status.GetOr(t.status),
       statusLogs := p.statusLogs.GetOr(t.statusLogs), active := p.active.GetOr(t.active),
       updatedAt := p.updatedAt.GetOr(t.updatedAt))
  }

  /** An action plan; `statusLogs` is optional because the plan type does not declare it. */
  datatype ActionPlan = ActionPlan(
    id: Id,
    name: string,
    startDate: int,
    endDate: int,
    coordinatorId: Id,
    teamIds: seq<Id>,
    status: PS.PlanStatus,
    statusLogs: Option<seq<PlanLog>>,
    active: bool,
    updatedAt: int)

  datatype PlanPatch = PlanPatch(
    name: Option<string>,
    startDate: Option<int>,
    endDate: Option<int>,
    coordinatorId: Option<Id>,
    teamIds: Option<seq<Id>>,
    status: Option<PS.PlanStatus>,
    statusLogs: Option<seq<PlanLog>>,
    active: Option<bool>,
    updatedAt: Option<int>)

  function MergePlan(a: ActionPlan, p: PlanPatch): ActionPlan {
    a.(name := p.name.GetOr(a.name), startDate := p.startDate.GetOr(a.startDate),
       endDate := p.endDate.GetOr(a.endDate), coordinatorId := p.coordinatorId.GetOr(a.coordinatorId),
       teamIds := p.teamIds.GetOr(a.teamIds), status := p.status.GetOr(a.status),
       statusLogs := if p.statusLogs.Some? then p.statusLogs else a.statusLogs,
       active := p.active.GetOr(a.active), updatedAt := p.updatedAt.GetOr(a.updatedAt))
  }

  datatype Team = Team(id: Id, name: string, members: seq<Id>, active: bool)

  datatype TeamPatch = TeamPatch(name: Option<string>, members: Option<seq<Id>>, active: Option<bool>)

  function MergeTeam(t: Team, p: TeamPatch): Team {
    t.(name := p.name.GetOr(t.name), members := p.members.GetOr(t.members), active := p.active.GetOr(t.active))
  }

  datatype AccessLevel = Admin | Manager | User

  datatype WorkKind = Presential | Remote

  datatype WorkSchedule = WorkSchedule(kind: WorkKind, days: seq<string>, startTime: string, endTime: string)

  datatype SchedulePatch = SchedulePatch(kind: Option<WorkKind>, days: Option<seq<string>>,
                                         startTime: Option<string>, endTime: Option<string>)

  function MergeSchedule(w: WorkSchedule, p: SchedulePatch): WorkSchedule {
    w.(kind := p.kind.GetOr(w.kind), days := p.days.GetOr(w.days),
       startTime := p.startTime.GetOr(w.startTime), endTime := p.endTime.GetOr(w.endTime))
  }

  datatype Collaborator = Collaborator(
    id: Id,
    name: string,
    password: string,
    active: bool,
    accessLevel: AccessLevel,
    workSchedule: seq<WorkSchedule>)

  datatype CollaboratorPatch = CollaboratorPatch(
    name: Option<string>,
    password: Option<string>,
    active: Option<bool>,
    accessLevel: Option<AccessLevel>,
    workSchedule: Option<seq<WorkSchedule>>)

  function MergeCollaborator(c: Collaborator, p: CollaboratorPatch): Collaborator {
    c.(name := p.name.GetOr(c.name), password := p.password.GetOr(c.password),
       active := p.active.GetOr(c.active), accessLevel := p.accessLevel.GetOr(c.accessLevel),
       workSchedule := p.workSchedule.GetOr(c.workSchedule))
  }

  datatype Company = Company(id: Id, name: string, cnpj: string, email: string, phone: string,
                             address: string, active: bool)

  datatype CompanyPatch = CompanyPatch(name: Option<string>, cnpj: Option<string>, email: Option<string>,
                                       phone: Option<string>, address: Option<string>, active: Option<bool>)

  function MergeCompany(c: Company, p: CompanyPatch): Company {
    c.(name := p.name.GetOr(c.name), cnpj := p.cnpj.GetOr(c.cnpj), email := p.email.GetOr(c.email),
       phone := p.phone.GetOr(c.phone), address := p.address.GetOr(c.address),
       active := p.active.GetOr(c.active))
  }

  datatype MeetingStatus = Scheduled | Rescheduled | MeetingInProgress | MeetingCompleted | MeetingCancelled

  datatype MeetingKind = InPerson | Online

  datatype Participants = Participants(collaboratorIds: seq<Id>, teamIds: seq<Id>, actionPlanIds: seq<Id>)

  datatype ReschedulingEntry = ReschedulingEntry(
    id: Id,
    previousDate: int,
    previousStartTime: string,
    previousEndTime: string,
    newDate: int,
    newStartTime: string,
    newEndTime: string,
    reason: string,
    changedBy: string,
    changedAt: int)

  /** A meeting; an absent `location` or `meetingLink` is the empty string. */
  datatype Meeting = Meeting(
    id: Id,
    title: string,
    date: int,
    startTime: string,
    endTime: string,
    kind: MeetingKind,
    location: string,
    meetingLink: string,
    participants: Participants,
    status: MeetingStatus,
    reschedulingHistory: seq<ReschedulingEntry>,
    updatedAt: int)

  datatype MeetingPatch = MeetingPatch(
    title: Option<string>,
    date: Option<int>,
    startTime: Option<string>,
    endTime: Option<string>,
    kind: Option<MeetingKind>,
    location: Option<string>,
    meetingLink: Option<string>,
    participants: Option<Participants>,
    status: Option<MeetingStatus>,
    reschedulingHistory: Option<seq<ReschedulingEntry>>,
    updatedAt: Option<int>)

  function MergeMeeting(m: Meeting, p: MeetingPatch): Meeting {
    m.(title := p.title.GetOr(m.title), date := p.date.GetOr(m.date),
       startTime := p.startTime.GetOr(m.startTime), endTime := p.endTime.GetOr(m.endTime),
       kind := p.kind.GetOr(m.kind),
       location := p.location.GetOr(m.location), meetingLink := p.meetingLink.GetOr(m.meetingLink),
       participants := p.participants.GetOr(m.participants), status := p.status.GetOr(m.status),
       reschedulingHistory := p.reschedulingHistory.GetOr(m.reschedulingHistory),
       updatedAt := p.updatedAt.GetOr(m.updatedAt))
  }

  function TaskId(t: Task): Id { t.id }
  function PlanId(p: ActionPlan): Id { p.id }
  function TeamId(t: Team): Id { t.id }
  function CollaboratorId(c: Collaborator): Id { c.id }
  function CompanyId(c: Company): Id { c.id }
  function MeetingId(m: Meeting): Id { m.id }
}

=== FILE: input_mask.dfy ===
/** The phone / CPF / CNPJ masks of src/components/common/InputMask.tsx. Every keystroke strips
    the non-digits and re-applies a fixed chain of single regular-expression replacements; each
    replacement is modelled by where its leftmost match lies and what it inserts there. */
module InputMask {

  datatype MaskKind = Phone | Cpf | Cnpj

  predicate IsDigit(c: char) {
    '0' <= c <= '9'
  }

  predicate AllDigits(w: string) {
    forall i :: 0 <= i < |w| ==> IsDigit(w[i])
  }

  predicate NoDigits(w: string) {
    forall i :: 0 <= i < |w| ==> !IsDigit(w[i])
  }

  /** `s.replace(/\D/g, '')`. */
  function Digits(s: string): (r: string)
    ensures AllDigits(r) && |r| <= |s|
  {
    if s == [] then [] else (if IsDigit(s[0]) then [s[0]] else []) + Digits(s[1..])
  }

  lemma {:induction false} DigitsAppend(a: string, b: string)
    ensures Digits(a + b) == Digits(a) + Digits(b)
    decreases |a|
  {
    if a != [] {
      assert (a + b)[0] == a[0];
      assert (a + b)[1..] == a[1..] + b;
      DigitsAppend(a[1..], b);
    } else {
      assert a + b == b;
    }
  }

  lemma {:induction false} DigitsOfDigits(s: string)
    requires AllDigits(s)
    ensures Digits(s) == s
    decreases |s|
  {
    if s != [] {
      DigitsOfDigits(s[1..]);
    }
  }

  lemma {:induction false} DigitsOfPunctuation(s: string)
    requires NoDigits(s)
    ensures Digits(s) == []
    decreases |s|
  {
    if s != [] {
      DigitsOfPunctuation(s[1..]);
    }
  }

  /** `s` with the punctuation `t` inserted at position `i`. */
  function Insert(s: string, i: nat, t: string): (r: string)
    requires i <= |s| && NoDigits(t)
    ensures Digits(r) == Digits(s)
    ensures |r| == |s| + |t|
  {
    DigitsAppend(s[..i] + t, s[i..]);
    DigitsAppend(s[..i], t);
    DigitsAppend(s[..i], s[i..]);
    DigitsOfPunctuation(t);
    assert s[..i] + s[i..] == s;
    s[..i] + t + s[i..]
  }

  /** The leftmost window of length `k` at or after `from` that satisfies `p`: where an unanchored
      regular expression of fixed length `k` first matches. */
  function Leftmost(s: string, k: nat, p: string -> bool, from: nat): (r: Option)
    ensures r.Some? ==> from <= r.at && r.at + k <= |s| && p(Window(s, r.at, k))
    ensures r.Some? ==> forall j :: from <= j < r.at ==> !p(Window(s, j, k))
    ensures r.None? ==> forall j :: from <= j && j + k <= |s| ==> !p(Window(s, j, k))
    decreases |s| - from
  {
    if from + k > |s| then None
    else if p(Window(s, from, k)) then Some(from)
    else Leftmost(s, k, p, from + 1)
  }

  /** The `k` characters of `s` from position `j`. */
  function Window(s: string, j: nat, k: nat): (w: string)
    requires j + k <= |s|
    ensures |w| == k && forall i :: 0 <= i < k ==> w[i] == s[j + i]
  {
    s[j..j + k]
  }

  datatype Option = None | Some(at: nat)

  /** A dot followed by four digits: the window of `/\.(\d{3})(\d)/`. */
  predicate DotDigits(w: string) {
    |w| == 5 && w[0] == '.' && AllDigits(w[1..])
  }

  /** `/^(\d{2})(\d)/g` replaced by `($1) $2`. */
  function AreaCode(s: string): (r: string)
    ensures Digits(r) == Digits(s)
  {
    if |s| >= 3 && AllDigits(s[..3]) then Insert(Insert(s, 2, ") "), 0, "(") else s
  }

  /** `/(\d)(\d{4})$/` replaced by `$1-$2`: the pattern can only match the last five characters. */
  function LineDash(s: string): (r: string)
    ensures Digits(r) == Digits(s)
  {
    if |s| >= 5 && AllDigits(s[|s| - 5..]) then Insert(s, |s| - 4, "-") else s
  }

  /** `/(\d{3})(\d)/` replaced by `$1.$2`: a dot after the first three of the leftmost four digits. */
  function GroupDot(s: string): (r: string)
    ensures Digits(r) == Digits(s)
  {
    match Leftmost(s, 4, AllDigits, 0)
    case None => s
    case Some(i) => Insert(s, i + 3, ".")
  }

  /** `/(\d{3})(\d{1,2})$/` replaced by `$1-$2`: the greedy two-digit tail is tried at the earlier
      position, so five trailing digits take the dash before the last two, four before the last one. */
  function CheckDash(s: string): (r: string)
    ensures Digits(r) == Digits(s)
  {
    if |s| >= 5 && AllDigits(s[|s| - 5..]) then Insert(s, |s| - 2, "-")
    else if |s| >= 4 && AllDigits(s[|s| - 4..]) then Insert(s, |s| - 1, "-")
    else s
  }

  /** `/^(\d{2})(\d)/` replaced by `$1.$2`. */
  function FirstDot(s: string): (r: string)
    ensures Digits(r) == Digits(s)
  {
    if |s| >= 3 && AllDigits(s[..3]) then Insert(s, 2, ".") else s
  }

  /** `/^(\d{2})\.(\d{3})(\d)/` replaced by `$1.$2.$3`. */
  function SecondDot(s: string): (r: string)
    ensures Digits(r) == Digits(s)
  {
    if |s| >= 7 && AllDigits(s[..2]) && s[2] == '.' && AllDigits(s[3..7]) then Insert(s, 6, ".") else s
  }

  /** `/\.(\d{3})(\d)/` replaced by `.$1/$2`. */
  function BranchSlash(s: string): (r: string)
    ensures Digits(r) == Digits(s)
  {
    match Leftmost(s, 5, DotDigits, 0)
    case None => s
    case Some(i) => Insert(s, i + 4, "/")
  }

  /** `/(\d{4})(\d)/` replaced by `$1-$2`. */
  function BranchDash(s: string): (r: string)
    ensures Digits(r) == Digits(s)
  {
    match Leftmost(s, 5, AllDigits, 0)
    case None => s
    case Some(i) => Insert(s, i + 4, "-")
  }

  /** The most digits a mask formats; longer input is left bare. */
  function Limit(kind: MaskKind): nat {
    if kind == Cnpj then 14 else 11
  }

  /** The chain for one mask, applied to the bare digits. */
  function Format(kind: MaskKind, d: string): (r: string)
    ensures Digits(r) == Digits(d)
    ensures |d| > Limit(kind) ==> r == d
  {
    match kind
    case Phone => if |d| <= 11 then LineDash(AreaCode(d)) else d
    case Cpf => if |d| <= 11 then CheckDash(GroupDot(GroupDot(d))) else d
    case Cnpj => if |d| <= 14 then BranchDash(BranchSlash(SecondDot(FirstDot(d)))) else d
  }

  /** `handleChange`: the value passed to `onChange` for the typed text `raw`. Formatting only
      inserts punctuation, so the digits of the result are exactly the digits typed. */
  function Mask(kind: MaskKind, raw: string): (r: string)
    ensures Digits(r) == Digits(raw)
    ensures |Digits(raw)| > Limit(kind) ==> r == Digits(raw)
  {
    DigitsOfDigits(Digits(raw));
    Format(kind, Digits(raw))
  }

  /** Masking an already masked value changes nothing. */
  lemma MaskIdempotent(kind: MaskKind, raw: string)
    ensures Mask(kind, Mask(kind, raw)) == Mask(kind, raw)
  {
  }

  /** `s` fits the placeholder `p` when it has the same length, a digit wherever `p` shows `0`,
      and the same character everywhere else. */
  predicate Fits(s: string, p: string) {
    |s| == |p| && forall i :: 0 <= i < |p| ==> if p[i] == '0' then IsDigit(s[i]) else s[i] == p[i]
  }

  /** Eleven phone digits become "(DD) DDDDD-DDDD", the form's phone placeholder. */
  lemma PhoneShape(d: string)
    requires AllDigits(d) && |d| == 11
    ensures Format(Phone, d) == "(" + d[..2] + ") " + d[2..7] + "-" + d[7..]
    ensures Fits(Format(Phone, d), "(00) 00000-0000")
  {
    var s1 := AreaCode(d);
    assert s1 == "(" + d[..2] + ") " + d[2..];
    assert AllDigits(s1[|s1| - 5..]) by {
      assert s1[|s1| - 5..] == d[6..];
    }
  }

  /** Eleven CPF digits become "DDD.DDD.DDD-DD". */
  lemma CpfShape(d: string)
    requires AllDigits(d) && |d| == 11
    ensures Format(Cpf, d) == d[..3] + "." + d[3..6] + "." + d[6..9] + "-" + d[9..]
  {
    var s1 := GroupDot(d);
    assert Leftmost(d, 4, AllDigits, 0) == Some(0) by {
      assert AllDigits(Window(d, 0, 4));
    }
    assert s1 == d[..3] + "." + d[3..];
    var s2 := GroupDot(s1);
    assert Leftmost(s1, 4, AllDigits, 0) == Some(4) by {
      assert s1[3] == '.';
      forall j | 0 <= j < 4 ensures !AllDigits(Window(s1, j, 4)) {
        assert Window(s1, j, 4)[3 - j] == '.';
      }
      assert AllDigits(Window(s1, 4, 4));
      LeftmostFrom(s1, 4, AllDigits, 4);
    }
    assert s2 == d[..3] + "." + d[3..6] + "." + d[6..];
    assert AllDigits(s2[|s2| - 5..]) by {
      assert s2[|s2| - 5..] == d[6..];
    }
  }

  /** A search that fails nowhere before `at` and succeeds at `at` finds `at`. */
  lemma LeftmostFrom(s: string, k: nat, p: string -> bool, at: nat)
    requires at + k <= |s| && p(Window(s, at, k))
    requires forall j :: 0 <= j < at ==> !p(Window(s, j, k))
    ensures Leftmost(s, k, p, 0) == Some(at)
  {
  }

  /** The first two CNPJ steps put the dots after the second and fifth digits. */
  lemma CnpjDots(d: string)
    requires AllDigits(d) && |d| == 14
    ensures SecondDot(FirstDot(d)) == d[..2] + "." + d[2..5] + "." + d[5..]
  {
    var s1 := FirstDot(d);
    assert s1 == d[..2] + "." + d[2..];
    assert s1[3..7] == d[2..6];
  }

  /** After the dots, only positions 2 and 6 hold non-digits. */
  lemma DottedChars(d: string)
    requires AllDigits(d) && |d| == 14
    ensures var s2 := d[..2] + "." + d[2..5] + "." + d[5..];
            |s2| == 16 && s2[2] == '.' && s2[6] == '.'
            && (forall i :: 0 <= i < 16 && i != 2 && i != 6 ==> IsDigit(s2[i]))
  {
    var s2 := d[..2] + "." + d[2..5] + "." + d[5..];
    forall i | 0 <= i < 16 && i != 2 && i != 6 ensures IsDigit(s2[i]) {
      if i < 2 { assert s2[i] == d[i]; }
      else if i < 6 { assert s2[i] == d[i - 1]; }
      else { assert s2[i] == d[i - 2]; }
    }
  }

  /** The slash pattern first matches at the second dot. */
  lemma CnpjSlashAt(d: string)
    requires AllDigits(d) && |d| == 14
    ensures Leftmost(d[..2] + "." + d[2..5] + "." + d[5..], 5, DotDigits, 0) == Some(6)
  {
    var s2 := d[..2] + "." + d[2..5] + "." + d[5..];
    DottedChars(d);
    forall j | 0 <= j < 6 ensures !DotDigits(Window(s2, j, 5)) {
      if j != 2 {
        assert Window(s2, j, 5)[0] == s2[j];
      } else {
        assert Window(s2, j, 5)[4] == s2[6];
      }
    }
    assert forall k :: 0 <= k < 4 ==> Window(s2, 6, 5)[1..][k] == s2[7 + k];
    LeftmostFrom(s2, 5, DotDigits, 6);
  }

  /** The third step puts the slash after the eighth digit. */
  lemma CnpjSlash(d: string)
    requires AllDigits(d) && |d| == 14
    ensures BranchSlash(d[..2] + "." + d[2..5] + "." + d[5..]) == d[..2] + "." + d[2..5] + "." + d[5..8] + "/" + d[8..]
  {
    var s2 := d[..2] + "." + d[2..5] + "." + d[5..];
    CnpjSlashAt(d);
    assert s2[..10] == d[..2] + "." + d[2..5] + "." + d[5..8];
    assert s2[10..] == d[8..];
  }

  /** The last step puts the dash after the twelfth digit. */
  lemma CnpjDash(d: string)
    requires AllDigits(d) && |d| == 14
    ensures BranchDash(d[..2] + "." + d[2..5] + "." + d[5..8] + "/" + d[8..])
            == d[..2] + "." + d[2..5] + "." + d[5..8] + "/" + d[8..12] + "-" + d[12..]
  {
    var s3 := d[..2] + "." + d[2..5] + "." + d[5..8] + "/" + d[8..];
    forall j | 0 <= j < 11 ensures !AllDigits(Window(s3, j, 5)) {
      var mark := if j < 3 then 2 else if j < 7 then 6 else 10;
      assert Window(s3, j, 5)[mark - j] == s3[mark];
    }
    assert AllDigits(Window(s3, 11, 5));
    LeftmostFrom(s3, 5, AllDigits, 11);
  }

  /** Fourteen CNPJ digits become "DD.DDD.DDD/DDDD-DD". */
  lemma CnpjShape(d: string)
    requires AllDigits(d) && |d| == 14
    ensures Format(Cnpj, d) == d[..2] + "." + d[2..5] + "." + d[5..8] + "/" + d[8..12] + "-" + d[12..]
  {
    CnpjDots(d);
    CnpjSlash(d);
    CnpjDash(d);
  }

  /** Fitting a pattern is compositional. */
  lemma FitsCat(a: string, p: string, b: string, q: string)
    requires Fits(a, p) && Fits(b, q)
    ensures Fits(a + b, p + q)
  {
    forall i | 0 <= i < |p + q| ensures if (p + q)[i] == '0' then IsDigit((a + b)[i]) else (a + b)[i] == (p + q)[i] {
      if i >= |p| {
        assert (p + q)[i] == q[i - |p|] && (a + b)[i] == b[i - |p|];
      }
    }
  }

  lemma FitsDigits(d: string, zeros: string)
    requires AllDigits(d) && |d| == |zeros| && forall i :: 0 <= i < |zeros| ==> zeros[i] == '0'
    ensures Fits(d, zeros)
  {
  }

  /** Fourteen digits punctuated as a CNPJ fit the form's placeholder. */
  lemma CnpjTextFits(a: string, b: string, c: string, e: string, f: string)
    requires AllDigits(a) && AllDigits(b) && AllDigits(c) && AllDigits(e) && AllDigits(f)
    requires |a| == 2 && |b| == 3 && |c| == 3 && |e| == 4 && |f| == 2
    ensures Fits(a + "." + b + "." + c + "/" + e + "-" + f, "00.000.000/0000-00")
  {
    FitsDigits(a, "00");
    FitsCat(a, "00", ".", ".");
    FitsDigits(b, "000");
    FitsCat(a + ".", "00.", b, "000");
    FitsCat(a + "." + b, "00.000", ".", ".");
    FitsDigits(c, "000");
    FitsCat(a + "." + b + ".", "00.000.", c, "000");
    FitsCat(a + "." + b + "." + c, "00.000.000", "/", "/");
    FitsDigits(e, "0000");
    FitsCat(a + "." + b + "." + c + "/", "00.000.000/", e, "0000");
    FitsCat(a + "." + b + "." + c + "/" + e, "00.000.000/0000", "-", "-");
    FitsDigits(f, "00");
    FitsCat(a + "." + b + "." + c + "/" + e + "-", "00.000.000/0000-", f, "00");
  }

  /** A complete CNPJ is shown in the form's placeholder shape. */
  lemma CnpjFits(d: string)
    requires AllDigits(d) && |d| == 14
    ensures Fits(Format(Cnpj, d), "00.000.000/0000-00")
  {
    CnpjShape(d);
    CnpjTextFits(d[..2], d[2..5], d[5..8], d[8..12], d[12..]);
  }
}

=== FILE: meeting_groups.dfy ===
/** The today / upcoming / past tabs of src/components/meetings/MeetingGroups.tsx. A meeting's
    `date` is a day number; `today` is the viewer's local day. */
module MeetingGroups {

  import opened Seqs
  import opened Sorting
  import opened Entities
  import Text

  datatype Group = Today | Upcoming | Past

  /** The tab a meeting belongs to, comparing calendar days. */
  function GroupOf(m: Meeting, today: int): (g: Group)
    ensures g == Today <==> m.date == today
    ensures g == Upcoming <==> m.date > today
    ensures g == Past <==> m.date < today
  {
    if m.date == today then Today else if m.date > today then Upcoming else Past
  }

  function InGroup(g: Group, today: int): Meeting -> bool {
    (m: Meeting) => GroupOf(m, today) == g
  }

  /** The sort order of every tab: by day, then by "HH:MM" start time. */
  predicate Earlier(a: Meeting, b: Meeting) {
    a.date < b.date || (a.date == b.date && Text.StrLe(a.startTime, b.startTime))
  }

  lemma EarlierIsPreorder()
    ensures TotalPreorder(Earlier)
  {
    forall a: Meeting, b: Meeting ensures Earlier(a, b) || Earlier(b, a) {
      Text.StrLeTotal(a.startTime, b.startTime);
    }
    forall a: Meeting, b: Meeting, c: Meeting | Earlier(a, b) && Earlier(b, c) ensures Earlier(a, c) {
      if a.date == b.date == c.date {
        Text.StrLeTrans(a.startTime, b.startTime, c.startTime);
      }
    }
  }

  /** One tab: the meetings of the group, sorted; meetings on the same day at the same start time
      keep the order they have in the input. */
  function Tab(meetings: seq<Meeting>, g: Group, today: int): (r: seq<Meeting>)
    ensures SortedBy(r, Earlier)
    ensures forall m :: multiset(r)[m] == if GroupOf(m, today) == g then multiset(meetings)[m] else 0
    ensures forall m :: m in r <==> m in meetings && GroupOf(m, today) == g
    ensures KeepsTies(r, Filter(meetings, InGroup(g, today)), Earlier)
  {
    EarlierIsPreorder();
    FilterCount(meetings, InGroup(g, today));
    SortMembers(Filter(meetings, InGroup(g, today)), Earlier);
    Sort(Filter(meetings, InGroup(g, today)), Earlier)
  }

  datatype Tabs = Tabs(today: seq<Meeting>, upcoming: seq<Meeting>, past: seq<Meeting>)

  /** The grouped and sorted meetings. */
  function Partition(meetings: seq<Meeting>, today: int): (t: Tabs)
    ensures SortedBy(t.today, Earlier) && SortedBy(t.upcoming, Earlier) && SortedBy(t.past, Earlier)
    ensures forall m :: m in t.today <==> m in meetings && m.date == today
    ensures forall m :: m in t.upcoming <==> m in meetings && m.date > today
    ensures forall m :: m in t.past <==> m in meetings && m.date < today
    ensures KeepsTies(t.today, Filter(meetings, InGroup(Today, today)), Earlier)
    ensures KeepsTies(t.upcoming, Filter(meetings, InGroup(Upcoming, today)), Earlier)
    ensures KeepsTies(t.past, Filter(meetings, InGroup(Past, today)), Earlier)
  {
    Tabs(Tab(meetings, Today, today), Tab(meetings, Upcoming, today), Tab(meetings, Past, today))
  }

  /** Every meeting lands in exactly one tab, as often as it occurs. */
  lemma PartitionIsExact(meetings: seq<Meeting>, today: int)
    ensures var t := Partition(meetings, today);
            multiset(t.today) + multiset(t.upcoming) + multiset(t.past) == multiset(meetings)
  {
    EarlierIsPreorder();
    FilterSplit3(meetings, InGroup(Today, today), InGroup(Upcoming, today), InGroup(Past, today));
    assert Tab(meetings, Today, today) == Sort(Filter(meetings, InGroup(Today, today)), Earlier);
    assert Tab(meetings, Upcoming, today) == Sort(Filter(meetings, InGroup(Upcoming, today)), Earlier);
    assert Tab(meetings, Past, today) == Sort(Filter(meetings, InGroup(Past, today)), Earlier);
  }

  /** The tab sizes add up to the number of meetings. */
  lemma PartitionSizes(meetings: seq<Meeting>, today: int)
    ensures var t := Partition(meetings, today);
            |t.today| + |t.upcoming| + |t.past| == |meetings|
  {
    var t := Partition(meetings, today);
    PartitionIsExact(meetings, today);
    assert |multiset(t.today) + multiset(t.upcoming) + multiset(t.past)| == |multiset(meetings)|;
  }

  const EmptyMessage := "Nenhuma reunião cadastrada. Clique em \"Agendar Reunião\" para começar."

  datatype View = Empty(message: string) | Tabbed(tabs: Tabs)

  /** What the component renders. */
  function Render(meetings: seq<Meeting>, today: int): (v: View)
    ensures v.Empty? <==> meetings == []
    ensures v.Empty? ==> v.message == EmptyMessage
    ensures v.Tabbed? ==> v.tabs == Partition(meetings, today)
  {
    if meetings == [] then Empty(EmptyMessage) else Tabbed(Partition(meetings, today))
  }

  const DayMs := 24 * 60 * 60 * 1000

  /** The local day of an instant for a time zone `offset` minutes east of Greenwich. */
  function LocalDay(ms: int, offset: int): int {
    (ms + offset * 60 * 1000) / DayMs
  }

  /** The component as written: `new Date(meeting.date)` reads a date-only string as midnight at
      Greenwich, and `setHours(0, 0, 0, 0)` then takes that instant's local day. */
  function GroupAsWritten(m: Meeting, today: int, offset: int): Group {
    var day := LocalDay(m.date * DayMs, offset);
    if day == today then Today else if day > today then Upcoming else Past
  }

  /** West of Greenwich (Brazil is three hours west) a meeting dated today is filed under past,
      and one dated tomorrow under today. */
  lemma GroupAsWrittenShiftsWest(m: Meeting, today: int, offset: int)
    requires -24 * 60 < offset < 0
    ensures m.date == today ==> GroupAsWritten(m, today, offset) == Past && GroupOf(m, today) == Today
    ensures m.date == today + 1 ==> GroupAsWritten(m, today, offset) == Today && GroupOf(m, today) == Upcoming
  {
    LocalDayWest(m.date, offset);
  }

  lemma LocalDayWest(day: int, offset: int)
    requires -24 * 60 < offset < 0
    ensures LocalDay(day * DayMs, offset) == day - 1
  {
    var ms := day * DayMs + offset * 60 * 1000;
    assert (day - 1) * DayMs <= ms < day * DayMs;
  }

  /** At Greenwich and east of it, the source's grouping agrees with the day comparison. */
  lemma GroupAsWrittenAgreesEast(m: Meeting, today: int, offset: int)
    requires 0 <= offset < 24 * 60
    ensures GroupAsWritten(m, today, offset) == GroupOf(m, today)
  {
    var ms := m.date * DayMs + offset * 60 * 1000;
    assert m.date * DayMs <= ms < (m.date + 1) * DayMs;
  }
}

=== FILE: meeting_service.dfy ===
/** The meeting service (src/services/meetingService.ts): the status table, the field validator
    and the guarded writes over an abstract document repository and its in-memory cache. */
module MeetingService {

  import opened Wrappers
  import opened Seqs
  import opened Verdicts
  import opened Entities
  import Text

  /** The rows of `validTransitions`. */
  function Transitions(s: MeetingStatus): (targets: seq<MeetingStatus>)
    ensures s !in targets
    ensures targets == [] <==> s == MeetingCompleted
  {
    match s
    case Scheduled => [Rescheduled, MeetingInProgress, MeetingCancelled]
    case Rescheduled => [MeetingInProgress, MeetingCancelled]
    case MeetingInProgress => [MeetingCompleted, MeetingCancelled]
    case MeetingCompleted => []
    case MeetingCancelled => [Scheduled]
  }

  const TransitionRejected := "Esta transição de status não é permitida"

  /** `validateStatusChange(currentStatus, newStatus)`; a current status `None` is one the table
      has no row for. */
  function ValidateStatusChange(current: Option<MeetingStatus>, target: MeetingStatus): (v: Verdict)
    ensures v.valid <==> current.Some? && target in Transitions(current.value)
    ensures !v.valid ==> v == Reject(TransitionRejected)
    ensures v.valid ==> v == Accept(None)
  {
    if current.None? || target !in Transitions(current.value) then Reject(TransitionRejected)
    else Accept(None)
  }

  /** A completed meeting never changes status, and no status moves to itself. */
  lemma CompletedIsTerminal(target: MeetingStatus, s: MeetingStatus)
    ensures !ValidateStatusChange(Some(MeetingCompleted), target).valid
    ensures !ValidateStatusChange(Some(s), s).valid
  {
  }

  /** Which statuses can reach `Rescheduled` in one step: only `Scheduled`. */
  lemma OnlyScheduledReschedules(s: MeetingStatus)
    ensures ValidateStatusChange(Some(s), Rescheduled).valid <==> s == Scheduled
  {
  }

  /** The fields `validateMeeting` inspects. `None` is a missing or empty value; a missing
      location or link is the empty string. */
  datatype Draft = Draft(
    title: Option<string>,
    date: Option<int>,
    startTime: string,
    endTime: string,
    kind: MeetingKind,
    location: string,
    meetingLink: string,
    participants: Option<Participants>,
    status: MeetingStatus,
    reschedulingHistory: seq<ReschedulingEntry>)

  const TitleRequired := "Título da reunião é obrigatório"
  const DateRequired := "Data da reunião é obrigatória"
  const TimesRequired := "Horários de início e término são obrigatórios"
  const EndBeforeStart := "Horário de término deve ser posterior ao horário de início"
  const LocationRequired := "Local é obrigatório para reuniões presenciais"
  const LinkRequired := "Link é obrigatório para reuniões online"
  const ParticipantsRequired := "Selecione pelo menos um participante, grupo ou ação/plano"

  predicate HasTitle(d: Draft) { d.title.Some? && !Text.IsBlank(d.title.value) }
  predicate HasTimes(d: Draft) { d.startTime != "" && d.endTime != "" }
  predicate HasPlace(d: Draft) {
    && (d.kind == InPerson ==> d.location != "")
    && (d.kind == Online ==> d.meetingLink != "")
  }
  predicate HasParticipants(d: Draft) {
    d.participants.Some? &&
    (|d.participants.value.collaboratorIds| > 0 || |d.participants.value.teamIds| > 0
     || |d.participants.value.actionPlanIds| > 0)
  }

  /** The first four checks pass: title, date, both times, and start before end. */
  predicate Timed(d: Draft) {
    HasTitle(d) && d.date.Some? && HasTimes(d) && Text.StrLt(d.startTime, d.endTime)
  }

  /** Every check `validateMeeting` makes passes. */
  predicate WellFormed(d: Draft) {
    Timed(d) && HasPlace(d) && HasParticipants(d)
  }

  /** `validateMeeting`: the first failing check, in source order, decides the message. */
  function ValidateMeeting(d: Draft): (v: Verdict)
    ensures v.valid <==> WellFormed(d)
    ensures v.valid ==> v == Accept(None)
    ensures !HasTitle(d) ==> v == Reject(TitleRequired)
    ensures HasTitle(d) && d.date.None? ==> v == Reject(DateRequired)
    ensures HasTitle(d) && d.date.Some? && !HasTimes(d) ==> v == Reject(TimesRequired)
    ensures HasTitle(d) && d.date.Some? && HasTimes(d) && !Text.StrLt(d.startTime, d.endTime)
            ==> v == Reject(EndBeforeStart)
    ensures Timed(d) && d.kind == InPerson && d.location == "" ==> v == Reject(LocationRequired)
    ensures Timed(d) && d.kind == Online && d.meetingLink == "" ==> v == Reject(LinkRequired)
    ensures Timed(d) && HasPlace(d) && !HasParticipants(d) ==> v == Reject(ParticipantsRequired)
  {
    if !HasTitle(d) then Reject(TitleRequired)
    else if d.date.None? then Reject(DateRequired)
    else if !HasTimes(d) then Reject(TimesRequired)
    else if Text.StrLe(d.endTime, d.startTime) then Reject(EndBeforeStart)
    else if d.kind == InPerson && d.location == "" then Reject(LocationRequired)
    else if d.kind == Online && d.meetingLink == "" then Reject(LinkRequired)
    else if !HasParticipants(d) then Reject(ParticipantsRequired)
    else Accept(None)
  }

  /** An end time equal to the start time is rejected: the comparison is `>=` on the strings. */
  lemma EqualTimesRejected(d: Draft)
    requires HasTitle(d) && d.date.Some? && HasTimes(d) && d.startTime == d.endTime
    ensures ValidateMeeting(d) == Reject(EndBeforeStart)
  {
    Text.StrLeRefl(d.startTime);
  }

  /** The stored meeting a valid draft becomes under id `id`. */
  function Stored(d: Draft, id: Id, now: int): (m: Meeting)
    requires WellFormed(d)
    ensures m.id == id && m.title == d.title.value && m.date == d.date.value
    ensures m.participants == d.participants.value && m.status == d.status
    ensures m.startTime == d.startTime && m.endTime == d.endTime && m.kind == d.kind
    ensures m.location == d.location && m.meetingLink == d.meetingLink
    ensures m.reschedulingHistory == d.reschedulingHistory && m.updatedAt == now
  {
    Meeting(id, d.title.value, d.date.value, d.startTime, d.endTime, d.kind, d.location,
            d.meetingLink, d.participants.value, d.status, d.reschedulingHistory, now)
  }

  datatype Cache = Cache(data: seq<Meeting>, timestamp: int)

  datatype Service = Service(repo: map<Id, Meeting>, cache: Option<Cache>)

  datatype Reply<T> = Ok(value: T) | Failure(message: string)

  datatype Step<T> = Step(reply: Reply<T>, next: Service)

  const NotFound := "Reunião não encontrada"
  const CompletedUndeletable := "Não é possível excluir uma reunião concluída"
  /** The repository's error for an update of a document that does not exist. */
  const NoDocument := "not-found"

  /** `CACHE_DURATION`: five minutes in milliseconds. */
  const CacheDuration: int := 5 * 60 * 1000

  /** The cache is served while younger than the cache duration. */
  predicate Fresh(c: Option<Cache>, now: int) {
    c.Some? && now - c.value.timestamp < CacheDuration
  }

  /** `getAllMeetings` at instant `now`; `listing` is the order in which the date-ordered query
      returns the stored documents. A fresh cache is served as it is; otherwise the documents are
      read, each under its document id, and cached with the instant of the read. */
  function GetAllMeetings(s: Service, now: int, listing: seq<Id>): (st: Step<seq<Meeting>>)
    requires forall k :: 0 <= k < |listing| ==> listing[k] in s.repo
    ensures Fresh(s.cache, now) ==> st == Step(Ok(s.cache.value.data), s)
    ensures !Fresh(s.cache, now) ==>
              && st.reply.Ok?
              && |st.reply.value| == |listing|
              && st.next == s.(cache := Some(Cache(st.reply.value, now)))
    ensures !Fresh(s.cache, now) ==> forall k :: 0 <= k < |listing| ==>
              st.reply.value[k] == s.repo[listing[k]].(id := listing[k])
  {
    if Fresh(s.cache, now) then Step(Ok(s.cache.value.data), s)
    else
      var meetings := seq(|listing|, k requires 0 <= k < |listing| => s.repo[listing[k]].(id := listing[k]));
      Step(Ok(meetings), s.(cache := Some(Cache(meetings, now))))
  }

  /** A fetch is served again, unchanged, by every later call within the cache duration, and read
      afresh once the duration has passed. */
  lemma MeetingCacheWindow(s: Service, now: int, later: int, listing: seq<Id>, relisting: seq<Id>)
    requires forall k :: 0 <= k < |listing| ==> listing[k] in s.repo
    requires !Fresh(s.cache, now)
    requires forall k :: 0 <= k < |relisting| ==> relisting[k] in s.repo
    ensures later - now < CacheDuration ==>
              GetAllMeetings(GetAllMeetings(s, now, listing).next, later, relisting)
              == GetAllMeetings(s, now, listing)
    ensures later - now >= CacheDuration ==>
              GetAllMeetings(GetAllMeetings(s, now, listing).next, later, relisting).next.cache.value.timestamp == later
  {
  }

  /** `createMeeting`: an invalid draft is refused with the validator's message and nothing is
      written; a valid one is stored under the fresh id and appended to a present cache. */
  function CreateMeeting(s: Service, d: Draft, newId: Id, now: int): (st: Step<Meeting>)
    requires newId !in s.repo
    ensures !WellFormed(d) ==> st == Step(Failure(ValidateMeeting(d).message.value), s)
    ensures WellFormed(d) ==>
              && st.reply.Ok? && st.reply.value.id == newId
              && st.reply.value == Stored(d, newId, now)
              && st.next.repo == s.repo[newId := st.reply.value]
              && (s.cache.Some? ==> st.next.cache == Some(s.cache.value.(data := s.cache.value.data + [st.reply.value])))
              && (s.cache.None? ==> st.next.cache.None?)
  {
    var v := ValidateMeeting(d);
    if !v.valid then Step(Failure(v.message.value), s)
    else
      var m := Stored(d, newId, now);
      var cache := if s.cache.Some? then Some(s.cache.value.(data := s.cache.value.data + [m])) else None;
      Step(Ok(m), Service(s.repo[newId := m], cache))
  }

  /** `getMeetingById`: the first cached meeting with the id (`find`), else the stored one. */
  function Lookup(s: Service, id: Id): (r: Option<Meeting>)
    ensures r.None? <==> id !in s.repo && (s.cache.None? || forall m :: m in s.cache.value.data ==> m.id != id)
    ensures r.Some? ==> (s.cache.Some? && r.value in s.cache.value.data && r.value.id == id)
                        || (id in s.repo && r.value == s.repo[id])
    ensures s.cache.Some? && (exists m :: m in s.cache.value.data && m.id == id) ==>
              r.Some? && r.value in s.cache.value.data && r.value.id == id
    ensures s.cache.Some? && (exists m :: m in s.cache.value.data && m.id == id) ==>
              exists i :: 0 <= i < |s.cache.value.data| && s.cache.value.data[i] == r.value
                          && forall j :: 0 <= j < i ==> s.cache.value.data[j].id != id
  {
    var cached := if s.cache.Some? then Find(s.cache.value.data, IsMeeting(id)) else None;
    if cached.Some? then cached
    else if id in s.repo then Some(s.repo[id])
    else None
  }

  function IsMeeting(id: Id): Meeting -> bool {
    (m: Meeting) => m.id == id
  }

  function IsNotMeeting(id: Id): Meeting -> bool {
    (m: Meeting) => m.id != id
  }

  /** `updateMeetingStatus`: refused when the meeting is unknown or the table rejects the move
      from the status the lookup reports; otherwise the stored and cached copies take the status. */
  function UpdateMeetingStatus(s: Service, id: Id, target: MeetingStatus, now: int): (st: Step<()>)
    ensures Lookup(s, id).None? ==> st == Step(Failure(NotFound), s)
    ensures Lookup(s, id).Some? && !ValidateStatusChange(Some(Lookup(s, id).value.status), target).valid
            ==> st == Step(Failure(TransitionRejected), s)
    ensures st.reply.Ok? <==>
              Lookup(s, id).Some? && id in s.repo && ValidateStatusChange(Some(Lookup(s, id).value.status), target).valid
    ensures st.reply.Failure? ==> st.next == s
    ensures st.reply.Ok? ==> st.next.repo == s.repo[id := s.repo[id].(status := target, updatedAt := now)]
    ensures st.reply.Ok? && s.cache.Some? ==>
              st.next.cache == Some(s.cache.value.(data := MapWhere(s.cache.value.data, MeetingId, id,
                                                                    (m: Meeting) => m.(status := target))))
  {
    match Lookup(s, id)
    case None => Step(Failure(NotFound), s)
    case Some(m) =>
      var v := ValidateStatusChange(Some(m.status), target);
      if !v.valid then Step(Failure(v.message.value), s)
      else if id !in s.repo then Step(Failure(NoDocument), s)
      else
        var cache := if s.cache.Some? then
                       Some(s.cache.value.(data := MapWhere(s.cache.value.data, MeetingId, id,
                                                           (m: Meeting) => m.(status := target))))
                     else None;
        Step(Ok(()), Service(s.repo[id := s.repo[id].(status := target, updatedAt := now)], cache))
  }

  /** A completed meeting keeps its status through every status update. */
  lemma CompletedMeetingStaysCompleted(s: Service, id: Id, target: MeetingStatus, now: int)
    requires s.cache.None? && id in s.repo && s.repo[id].status == MeetingCompleted
    ensures UpdateMeetingStatus(s, id, target, now) == Step(Failure(TransitionRejected), s)
  {
  }

  /** `deleteMeeting`: refused for an unknown or a completed meeting; otherwise the document and
      every cached copy go, the other cached meetings keeping their order. */
  function DeleteMeeting(s: Service, id: Id): (st: Step<()>)
    ensures Lookup(s, id).None? ==> st == Step(Failure(NotFound), s)
    ensures Lookup(s, id).Some? && Lookup(s, id).value.status == MeetingCompleted
            ==> st == Step(Failure(CompletedUndeletable), s)
    ensures st.reply.Ok? <==> Lookup(s, id).Some? && Lookup(s, id).value.status != MeetingCompleted
    ensures st.reply.Ok? ==> st.next.repo == s.repo - {id} && (st.next.cache.Some? <==> s.cache.Some?)
    ensures st.reply.Ok? && s.cache.Some? ==>
              forall m :: m in st.next.cache.value.data <==> m in s.cache.value.data && m.id != id
    ensures st.reply.Ok? && s.cache.Some? ==>
              st.next.cache.value.data == Filter(s.cache.value.data, IsNotMeeting(id))
  {
    match Lookup(s, id)
    case None => Step(Failure(NotFound), s)
    case Some(m) =>
      if m.status == MeetingCompleted then Step(Failure(CompletedUndeletable), s)
      else
        var cache := if s.cache.Some? then Some(s.cache.value.(data := Filter(s.cache.value.data, IsNotMeeting(id))))
                     else None;
        Step(Ok(()), Service(s.repo - {id}, cache))
  }

  /** `updateMeeting`: the stored copy takes the given fields and a fresh `updatedAt`; the cached
      copies take the given fields only. A missing document is an error of the repository. */
  function UpdateMeeting(s: Service, id: Id, patch: MeetingPatch, now: int): (st: Step<()>)
    ensures id !in s.repo ==> st == Step(Failure(NoDocument), s)
    ensures id in s.repo ==> st.reply.Ok? && (st.next.cache.Some? <==> s.cache.Some?)
    ensures id in s.repo ==> st.next.repo == s.repo[id := MergeMeeting(s.repo[id], patch).(updatedAt := now)]
    ensures id in s.repo && s.cache.Some? ==>
              && |st.next.cache.value.data| == |s.cache.value.data|
              && forall i :: 0 <= i < |s.cache.value.data| ==>
                   st.next.cache.value.data[i] == if s.cache.value.data[i].id == id
                                                  then MergeMeeting(s.cache.value.data[i], patch)
                                                  else s.cache.value.data[i]
  {
    if id !in s.repo then Step(Failure(NoDocument), s)
    else
      var cache := if s.cache.Some? then
                     Some(s.cache.value.(data := MapWhere(s.cache.value.data, MeetingId, id,
                                                         (m: Meeting) => MergeMeeting(m, patch))))
                   else None;
      Step(Ok(()), Service(s.repo[id := MergeMeeting(s.repo[id], patch).(updatedAt := now)], cache))
  }

  /** The edit form sends the meeting's kind along, so an edit can switch a meeting between
      presential and online; the stored document changes in its kind and `updatedAt` only. */
  lemma EditSwitchesKind(s: Service, id: Id, k: MeetingKind, now: int)
    requires id in s.repo
    ensures var p := MeetingPatch(None, None, None, None, Some(k), None, None, None, None, None, None);
            var d := UpdateMeeting(s, id, p, now).next.repo[id];
            d.kind == k && d.(kind := s.repo[id].kind, updatedAt := s.repo[id].updatedAt) == s.repo[id]
  {
  }

  /** `clearCache`. */
  function ClearCache(s: Service): (r: Service)
    ensures r.cache.None? && r.repo == s.repo
  {
    s.(cache := None)
  }
}

=== FILE: meeting_store.dfy ===
/** The client-side meeting store's reducers and queries (src/store/meetingStore.ts). */
module MeetingStore {

  import opened Seqs
  import opened Entities

  function IsNotMeeting(id: Id): Meeting -> bool {
    (m: Meeting) => m.id != id
  }

  /** `addMeeting`: append the meeting as given. */
  function AddMeeting(meetings: seq<Meeting>, m: Meeting): (r: seq<Meeting>)
    ensures |r| == |meetings| + 1 && r[..|meetings|] == meetings && r[|meetings|] == m
  {
    meetings + [m]
  }

  /** The store's rewrite of one meeting: the given fields, then the current instant. */
  function Stamped(patch: MeetingPatch, now: int): Meeting -> Meeting {
    (m: Meeting) => MergeMeeting(m, patch).(updatedAt := now)
  }

  /** `updateMeeting(id, updates)` at instant `now`: `updatedAt` is overwritten even when the
      update carries one of its own. */
  function UpdateMeeting(meetings: seq<Meeting>, id: Id, patch: MeetingPatch, now: int): (r: seq<Meeting>)
    ensures |r| == |meetings|
    ensures forall i :: 0 <= i < |meetings| && meetings[i].id != id ==> r[i] == meetings[i]
    ensures forall i :: 0 <= i < |meetings| && meetings[i].id == id ==>
              && r[i].updatedAt == now
              && r[i].id == id
              && r[i].title == patch.title.GetOr(meetings[i].title)
              && r[i].date == patch.date.GetOr(meetings[i].date)
              && r[i].startTime == patch.startTime.GetOr(meetings[i].startTime)
              && r[i].endTime == patch.endTime.GetOr(meetings[i].endTime)
              && r[i].kind == patch.kind.GetOr(meetings[i].kind)
              && r[i].location == patch.location.GetOr(meetings[i].location)
              && r[i].meetingLink == patch.meetingLink.GetOr(meetings[i].meetingLink)
              && r[i].status == patch.status.GetOr(meetings[i].status)
              && r[i].participants == patch.participants.GetOr(meetings[i].participants)
              && r[i].reschedulingHistory == patch.reschedulingHistory.GetOr(meetings[i].reschedulingHistory)
  {
    MapWhere(meetings, MeetingId, id, Stamped(patch, now))
  }

  /** `deleteMeeting`: drop every meeting with the id, keep the rest in order. */
  function DeleteMeeting(meetings: seq<Meeting>, id: Id): (r: seq<Meeting>)
    ensures forall m :: m in r <==> m in meetings && m.id != id
    ensures forall m :: multiset(r)[m] == if m.id != id then multiset(meetings)[m] else 0
    ensures Subsequence(r, meetings)
  {
    FilterCount(meetings, IsNotMeeting(id));
    FilterSubsequence(meetings, IsNotMeeting(id));
    Filter(meetings, IsNotMeeting(id))
  }

  lemma AddThenDelete(meetings: seq<Meeting>, m: Meeting)
    requires forall x :: x in meetings ==> x.id != m.id
    ensures DeleteMeeting(AddMeeting(meetings, m), m.id) == meetings
  {
    FilterAppend(meetings, [m], IsNotMeeting(m.id));
    FilterAll(meetings, IsNotMeeting(m.id));
  }

  function WithParticipant(id: Id): Meeting -> bool {
    (m: Meeting) => id in m.participants.collaboratorIds
  }

  function WithTeam(id: Id): Meeting -> bool {
    (m: Meeting) => id in m.participants.teamIds
  }

  function WithActionPlan(id: Id): Meeting -> bool {
    (m: Meeting) => id in m.participants.actionPlanIds
  }

  /** `getMeetingsByParticipant`: the meetings whose collaborators include the id, in order. */
  function MeetingsByParticipant(meetings: seq<Meeting>, id: Id): (r: seq<Meeting>)
    ensures forall m :: m in r <==> m in meetings && id in m.participants.collaboratorIds
    ensures forall m :: multiset(r)[m] == if id in m.participants.collaboratorIds then multiset(meetings)[m] else 0
    ensures Subsequence(r, meetings)
  {
    FilterCount(meetings, WithParticipant(id));
    FilterSubsequence(meetings, WithParticipant(id));
    Filter(meetings, WithParticipant(id))
  }

  /** `getMeetingsByTeam`: the meetings whose teams include the id, in order. */
  function MeetingsByTeam(meetings: seq<Meeting>, id: Id): (r: seq<Meeting>)
    ensures forall m :: m in r <==> m in meetings && id in m.participants.teamIds
    ensures forall m :: multiset(r)[m] == if id in m.participants.teamIds then multiset(meetings)[m] else 0
    ensures Subsequence(r, meetings)
  {
    FilterCount(meetings, WithTeam(id));
    FilterSubsequence(meetings, WithTeam(id));
    Filter(meetings, WithTeam(id))
  }

  /** `getMeetingsByActionPlan`: the meetings whose action plans include the id, in order. */
  function MeetingsByActionPlan(meetings: seq<Meeting>, id: Id): (r: seq<Meeting>)
    ensures forall m :: m in r <==> m in meetings && id in m.participants.actionPlanIds
    ensures forall m :: multiset(r)[m] == if id in m.participants.actionPlanIds then multiset(meetings)[m] else 0
    ensures Subsequence(r, meetings)
  {
    FilterCount(meetings, WithActionPlan(id));
    FilterSubsequence(meetings, WithActionPlan(id));
    Filter(meetings, WithActionPlan(id))
  }

  /** The queries keep the store's order: querying a concatenation concatenates the answers,
      and a single meeting is answered by itself or by nothing. */
  lemma QueriesKeepOrder(a: seq<Meeting>, b: seq<Meeting>, m: Meeting, id: Id)
    ensures MeetingsByParticipant(a + b, id) == MeetingsByParticipant(a, id) + MeetingsByParticipant(b, id)
    ensures MeetingsByTeam(a + b, id) == MeetingsByTeam(a, id) + MeetingsByTeam(b, id)
    ensures MeetingsByActionPlan(a + b, id) == MeetingsByActionPlan(a, id) + MeetingsByActionPlan(b, id)
    ensures MeetingsByParticipant([m], id) == if id in m.participants.collaboratorIds then [m] else []
    ensures MeetingsByTeam([m], id) == if id in m.participants.teamIds then [m] else []
    ensures MeetingsByActionPlan([m], id) == if id in m.participants.actionPlanIds then [m] else []
  {
    FilterAppend(a, b, WithParticipant(id));
    FilterAppend(a, b, WithTeam(id));
    FilterAppend(a, b, WithActionPlan(id));
    FilterOne(m, WithParticipant(id));
    FilterOne(m, WithTeam(id));
    FilterOne(m, WithActionPlan(id));
  }
}

=== FILE: meeting_utils.dfy ===
/** Rescheduling (src/utils/meetingUtils.ts) and the reschedule confirmation of
    src/components/meetings/ScheduledMeetingList.tsx, which records the entry and moves the meeting. */
module MeetingUtils {

  import opened Wrappers
  import opened Entities
  import MeetingService
  import MeetingStore

  /** `canRescheduleMeeting`: only a scheduled meeting may be rescheduled, which is exactly when
      the meeting table accepts the `rescheduled` status. */
  function CanReschedule(m: Meeting): (r: bool)
    ensures r <==> MeetingService.ValidateStatusChange(Some(m.status), Rescheduled).valid
  {
    m.status == Scheduled
  }

  /** Every meeting that may be rescheduled may take the `rescheduled` status, and no other may. */
  lemma RescheduleAgreesWithTable(m: Meeting)
    ensures CanReschedule(m) <==> MeetingService.ValidateStatusChange(Some(m.status), Rescheduled).valid
  {
  }

  /** `createReschedulingEntry(meeting, newDate, newStartTime, newEndTime, reason, userId)` with
      entry id `entryId` at instant `now`. */
  function CreateReschedulingEntry(m: Meeting, newDate: int, newStartTime: string, newEndTime: string,
                                   reason: string, userId: string, entryId: Id, now: int): (e: ReschedulingEntry)
    ensures e.previousDate == m.date && e.previousStartTime == m.startTime && e.previousEndTime == m.endTime
    ensures e.newDate == newDate && e.newStartTime == newStartTime && e.newEndTime == newEndTime
    ensures e.reason == reason && e.changedBy == userId
    ensures e.id == entryId && e.changedAt == now
  {
    ReschedulingEntry(entryId, m.date, m.startTime, m.endTime, newDate, newStartTime, newEndTime,
                      reason, userId, now)
  }

  /** `r` is `m` rescheduled: in the `rescheduled` status, with one more history entry that
      records where `m` was and where `r` is, attributed to `user`. */
  predicate Moved(m: Meeting, r: Meeting, user: string) {
    && r.status == Rescheduled
    && |r.reschedulingHistory| == |m.reschedulingHistory| + 1
    && r.reschedulingHistory[..|m.reschedulingHistory|] == m.reschedulingHistory
    && var e := r.reschedulingHistory[|m.reschedulingHistory|];
       && e.newDate == r.date && e.newStartTime == r.startTime && e.newEndTime == r.endTime
       && e.previousDate == m.date && e.previousStartTime == m.startTime && e.previousEndTime == m.endTime
       && e.changedBy == user
  }

  /** The update the reschedule confirmation sends: the new date and times, the `rescheduled`
      status and the history with the new entry, attributed to the user's name. Applied by the
      store, it moves the meeting and changes nothing but those fields and the stamp. */
  function RescheduleUpdate(m: Meeting, newDate: int, newStartTime: string, newEndTime: string,
                            reason: string, userName: string, entryId: Id, now: int): (p: MeetingPatch)
    ensures Moved(m, MeetingStore.Stamped(p, now)(m), userName)
    ensures var r := MeetingStore.Stamped(p, now)(m);
            r.date == newDate && r.startTime == newStartTime && r.endTime == newEndTime && r.updatedAt == now
            && r.(date := m.date, startTime := m.startTime, endTime := m.endTime, status := m.status,
                  reschedulingHistory := m.reschedulingHistory, updatedAt := m.updatedAt) == m
  {
    var entry := CreateReschedulingEntry(m, newDate, newStartTime, newEndTime, reason, userName, entryId, now);
    var p := MeetingPatch(None, Some(newDate), Some(newStartTime), Some(newEndTime), None, None, None, None,
                          Some(Rescheduled), Some(m.reschedulingHistory + [entry]), Some(now));
    assert MeetingStore.Stamped(p, now)(m) == MergeMeeting(m, p).(updatedAt := now);
    assert MergeMeeting(m, p).reschedulingHistory == m.reschedulingHistory + [entry];
    p
  }

  /** `handleRescheduleConfirm` with the signed-in user `user`: nothing is sent without a selected
      meeting or a user; otherwise the selected meeting's id and the update that moves it. */
  function Confirm(selected: Option<Meeting>, user: Option<Collaborator>, newDate: int, newStartTime: string,
                   newEndTime: string, reason: string, entryId: Id, now: int): (r: Option<(Id, MeetingPatch)>)
    ensures r.Some? <==> selected.Some? && user.Some?
    ensures r.Some? ==> r.value.0 == selected.value.id
    ensures r.Some? ==> Moved(selected.value, MeetingStore.Stamped(r.value.1, now)(selected.value), user.value.name)
  {
    if selected.None? || user.None? then None
    else
      Some((selected.value.id,
            RescheduleUpdate(selected.value, newDate, newStartTime, newEndTime, reason, user.value.name, entryId, now)))
  }

  /** The `user` the confirmation destructures from `useStore()`: the collaborator store declares
      no such field, so whatever it holds, the value is `undefined`. */
  function StoreUser(collaborators: seq<Collaborator>): Option<Collaborator> {
    None
  }

  /** The confirmation as written, which takes its user from the collaborator store. */
  function ConfirmAsWritten(selected: Option<Meeting>, collaborators: seq<Collaborator>, newDate: int,
                            newStartTime: string, newEndTime: string, reason: string, entryId: Id, now: int)
    : Option<(Id, MeetingPatch)>
  {
    Confirm(selected, StoreUser(collaborators), newDate, newStartTime, newEndTime, reason, entryId, now)
  }

  /** As written, confirming a reschedule never sends an update, although the same confirmation
      with a signed-in user moves the meeting. */
  lemma ConfirmAsWrittenNeverMoves(m: Meeting, collaborators: seq<Collaborator>, user: Collaborator, newDate: int,
                                   newStartTime: string, newEndTime: string, reason: string, entryId: Id, now: int)
    ensures ConfirmAsWritten(Some(m), collaborators, newDate, newStartTime, newEndTime, reason, entryId, now).None?
    ensures Confirm(Some(m), Some(user), newDate, newStartTime, newEndTime, reason, entryId, now).Some?
  {
  }
}

=== FILE: monitor_timer.dfy ===
/** The interval bookkeeping shared by both deadline monitors (src/services/TaskMonitoringService.ts
    and src/services/ActionPlanMonitoringService.ts). The browser's timer table is the set of armed
    interval handles; a handle of 0 is falsy and is never cleared. */
module MonitorTimer {

  import opened Wrappers

  /** `checkInterval`: five minutes in milliseconds. */
  const CheckInterval: nat := 5 * 60 * 1000

  datatype Timer = Timer(intervalId: Option<nat>, armed: set<nat>)

  const Idle := Timer(None, {})

  /** `if (this.intervalId)`: a remembered, non-zero handle. */
  predicate Live(t: Timer) {
    t.intervalId.Some? && t.intervalId.value != 0
  }

  /** `clearInterval(this.intervalId)` when the handle is truthy. */
  function ClearRemembered(t: Timer): set<nat> {
    if Live(t) then t.armed - {t.intervalId.value} else t.armed
  }

  /** No armed interval is lost: every armed handle is the remembered one, and it is truthy. */
  predicate Tracked(t: Timer) {
    forall h :: h in t.armed ==> h != 0 && t.intervalId == Some(h)
  }

  /** `startMonitoring`'s timer half: cancel the remembered interval, arm `handle` and remember it. */
  function Start(t: Timer, handle: nat): (r: Timer)
    ensures r.intervalId == Some(handle)
    ensures handle in r.armed
    ensures forall h :: h in r.armed && h != handle ==> h in t.armed && !(Live(t) && h == t.intervalId.value)
    ensures Tracked(t) && handle != 0 ==> Tracked(r) && r.armed == {handle}
  {
    Timer(Some(handle), ClearRemembered(t) + {handle})
  }

  /** `stopMonitoring`: cancel the remembered interval but keep remembering its handle. */
  function Stop(t: Timer): (r: Timer)
    ensures r.intervalId == t.intervalId
    ensures r.armed <= t.armed
    ensures Live(t) ==> t.intervalId.value !in r.armed
    ensures Tracked(t) ==> r.armed == {} && Tracked(r)
  {
    Timer(t.intervalId, ClearRemembered(t))
  }

  /** Restarting never leaves two intervals armed, from any tracked state. */
  lemma RestartArmsOne(t: Timer, a: nat, b: nat)
    requires Tracked(t) && a != 0 && b != 0
    ensures Start(Start(t, a), b).armed == {b}
    ensures Stop(Start(Stop(t), a)).armed == {}
  {
  }

  /** Stopping twice is the same as stopping once. */
  lemma StopIdempotent(t: Timer)
    ensures Stop(Stop(t)) == Stop(t)
  {
  }

  /** A handle of 0 survives a restart: the truthiness test forgets it. */
  lemma ZeroHandleLeaks(b: nat)
    requires b != 0
    ensures Start(Start(Idle, 0), b).armed == {0, b}
  {
  }
}

=== FILE: ongoing_actions.dfy ===
/** The dashboard's table of ongoing action plans (src/components/dashboard/OngoingActionsTable.tsx):
    which plans appear, in what order, and the progress figures and colours of each row. */
module OngoingActions {

  import opened Wrappers
  import opened Seqs
  import opened Sorting
  import opened Entities
  import PS = ParticipantSelector

  /** `{ total, completed, percentage }` of one plan. */
  datatype Progress = Progress(total: nat, completed: nat, percentage: nat)

  function OfPlan(planId: Id): Task -> bool {
    (t: Task) => t.actionPlanId == planId
  }

  function IsActiveTask(t: Task): bool {
    t.active
  }

  /** `pct` is `100 * c / t` rounded to the nearest integer, halves upwards. */
  predicate RoundsTo(c: nat, t: nat, pct: nat) {
    2 * t * pct <= 200 * c + t < 2 * t * (pct + 1)
  }

  /** `Math.round(100 * c / t)` for `0 <= c <= t`, `t > 0`. */
  function RoundedPercent(c: nat, t: nat): (pct: nat)
    requires 0 < t && c <= t
    ensures pct <= 100
    ensures RoundsTo(c, t, pct)
  {
    QuotientBounds(c, t);
    (200 * c + t) / (2 * t)
  }

  lemma QuotientBounds(c: nat, t: nat)
    requires 0 < t && c <= t
    ensures (200 * c + t) / (2 * t) <= 100
    ensures RoundsTo(c, t, (200 * c + t) / (2 * t))
  {
    var n := 200 * c + t;
    var d := 2 * t;
    var q := n / d;
    DivMod(n, d);
    Distribute(d, q);
    if q > 100 {
      MulMono(d, 101, q);
      assert false;
    }
  }

  lemma DivMod(n: int, d: int)
    requires d > 0
    ensures n == d * (n / d) + n % d && 0 <= n % d < d
  {
  }

  lemma Distribute(d: int, q: int)
    ensures d * (q + 1) == d * q + d
  {
  }

  lemma MulMono(d: nat, a: int, b: int)
    requires a <= b
    ensures d * a <= d * b
  {
  }

  /** `calculateProgress(actionPlanId)`: the plan's tasks, how many of them are active, and the
      rounded share. "Completed" counts active tasks, whatever their status. */
  function CalculateProgress(tasks: seq<Task>, planId: Id): (p: Progress)
    ensures p.total == 0 <==> forall t :: t in tasks ==> t.actionPlanId != planId
    ensures p.total == 0 ==> p == Progress(0, 0, 0)
    ensures p.completed <= p.total && p.percentage <= 100
    ensures p.completed == 0 <==> forall t :: t in tasks && t.actionPlanId == planId ==> !t.active
    ensures p.total > 0 ==> (p.completed == p.total <==> forall t :: t in tasks && t.actionPlanId == planId ==> t.active)
    ensures p.total > 0 ==> RoundsTo(p.completed, p.total, p.percentage)
  {
    var own := Filter(tasks, OfPlan(planId));
    var done := Filter(own, IsActiveTask);
    FilterLength(tasks, OfPlan(planId));
    FilterLength(own, IsActiveTask);
    if |own| == 0 then Progress(0, 0, 0)
    else Progress(|own|, |done|, RoundedPercent(|done|, |own|))
  }

  /** Counting by appending one task: a task of another plan changes nothing, a task of the plan adds
      one to the total and, when active, one to the completed count. */
  lemma ProgressOfAppend(tasks: seq<Task>, t: Task, planId: Id)
    ensures CalculateProgress(tasks + [t], planId).total
            == CalculateProgress(tasks, planId).total + (if t.actionPlanId == planId then 1 else 0)
    ensures CalculateProgress(tasks + [t], planId).completed
            == CalculateProgress(tasks, planId).completed + (if t.actionPlanId == planId && t.active then 1 else 0)
  {
    var own := Filter(tasks, OfPlan(planId));
    FilterSnoc(tasks, t, OfPlan(planId));
    if t.actionPlanId == planId {
      FilterSnoc(own, t, IsActiveTask);
    }
  }

  datatype Colour = Green | Yellow | Red

  /** The progress bar's colour: green from 70, yellow from 30, red below. */
  function Bar(percentage: nat): (c: Colour)
    ensures c == Green <==> percentage >= 70
    ensures c == Yellow <==> 30 <= percentage < 70
    ensures c == Red <==> percentage < 30
  {
    if percentage >= 70 then Green else if percentage >= 30 then Yellow else Red
  }

  function Warmth(c: Colour): nat {
    match c
    case Red => 0
    case Yellow => 1
    case Green => 2
  }

  /** More progress never shows a worse colour. */
  lemma BarMonotone(p: nat, q: nat)
    requires p <= q
    ensures Warmth(Bar(p)) <= Warmth(Bar(q))
  {
  }

  /** Every task done rounds to exactly 100 per cent. */
  lemma AllDoneRoundsToHundred(t: nat, pct: nat)
    requires 0 < t && pct <= 100 && RoundsTo(t, t, pct)
    ensures pct == 100
  {
    if pct < 100 {
      MulMono(2 * t, pct + 1, 100);
      assert false;
    }
  }

  /** A plan without tasks shows red; a plan whose tasks are all active shows green. */
  lemma BarOfExtremes(tasks: seq<Task>, planId: Id)
    ensures (forall t :: t in tasks ==> t.actionPlanId != planId) ==> Bar(CalculateProgress(tasks, planId).percentage) == Red
    ensures (exists t :: t in tasks && t.actionPlanId == planId) && (forall t :: t in tasks && t.actionPlanId == planId ==> t.active)
            ==> Bar(CalculateProgress(tasks, planId).percentage) == Green
  {
    var pr := CalculateProgress(tasks, planId);
    if pr.total > 0 && pr.completed == pr.total {
      AllDoneRoundsToHundred(pr.total, pr.percentage);
    }
  }

  /** Delivery order: by end date. */
  predicate ByEnd(a: ActionPlan, b: ActionPlan) {
    a.endDate <= b.endDate
  }

  lemma ByEndIsPreorder()
    ensures TotalPreorder(ByEnd)
  {
  }

  function IsActivePlan(p: ActionPlan): bool {
    p.active
  }

  /** `ongoingActions`: the active plans, ascending by end date; plans ending on the same date keep
      their input order. */
  function OngoingPlans(plans: seq<ActionPlan>): (r: seq<ActionPlan>)
    ensures SortedBy(r, ByEnd)
    ensures forall p :: multiset(r)[p] == if p.active then multiset(plans)[p] else 0
    ensures forall p :: p in r <==> p in plans && p.active
    ensures KeepsTies(r, Filter(plans, IsActivePlan), ByEnd)
  {
    ByEndIsPreorder();
    FilterCount(plans, IsActivePlan);
    SortMembers(Filter(plans, IsActivePlan), ByEnd);
    Sort(Filter(plans, IsActivePlan), ByEnd)
  }

  function TeamActive(t: Team): bool {
    t.active
  }

  /** `a`'s id first appears in `teams` before `b`'s. */
  function FirstSeenBefore(teams: seq<Team>): (Team, Team) -> bool {
    (a: Team, b: Team) => PS.FirstIndex(teams, TeamId, a.id) < PS.FirstIndex(teams, TeamId, b.id)
  }

  /** `uniqueTeams`: the first team of each id, kept when active, in the order the ids first
      appear. */
  function UniqueTeams(teams: seq<Team>): (r: seq<Team>)
    ensures KeysDistinct(r, TeamId)
    ensures forall t :: t in r <==> t in teams && t.active && PS.FirstOfKey(teams, t, TeamId)
    ensures forall i, j :: 0 <= i < j < |r| ==>
              PS.FirstIndex(teams, TeamId, r[i].id) < PS.FirstIndex(teams, TeamId, r[j].id)
  {
    var d := PS.DedupBy(teams, TeamId);
    forall t | t in Filter(d, TeamActive) ensures PS.FirstOfKey(teams, t, TeamId) {
      var j :| 0 <= j < |d| && d[j] == t;
      PS.DedupKeepsFirst(teams, TeamId, j);
    }
    forall t | t in teams && t.active && PS.FirstOfKey(teams, t, TeamId) ensures t in Filter(d, TeamActive) {
      PS.DedupKeepsEveryFirst(teams, TeamId, t);
    }
    FilterKeysDistinct(d, TeamActive, TeamId);
    PS.DedupInOrder(teams, TeamId);
    FilterKeepsOrder(d, TeamActive, FirstSeenBefore(teams));
    Filter(d, TeamActive)
  }

  function InPlan(plan: ActionPlan): Team -> bool {
    (t: Team) => t.id in plan.teamIds
  }

  function TeamName(t: Team): string {
    t.name
  }

  function Names(teams: seq<Team>): (r: seq<string>)
    ensures |r| == |teams| && forall i :: 0 <= i < |teams| ==> r[i] == teams[i].name
  {
    seq(|teams|, i requires 0 <= i < |teams| => teams[i].name)
  }

  const Undefined := "Não definido"

  function IsCoordinator(plan: ActionPlan): Collaborator -> bool {
    (c: Collaborator) => c.id == plan.coordinatorId
  }

  /** The name of the first collaborator with the coordinator's id, or "Não definido" when nobody
      has the id. */
  function CoordinatorName(collaborators: seq<Collaborator>, plan: ActionPlan): (name: string)
    ensures (forall c :: c in collaborators ==> c.id != plan.coordinatorId) ==> name == Undefined
    ensures (exists c :: c in collaborators && c.id == plan.coordinatorId) ==>
              exists i :: 0 <= i < |collaborators| && collaborators[i].id == plan.coordinatorId
                          && collaborators[i].name == name
                          && forall j :: 0 <= j < i ==> collaborators[j].id != plan.coordinatorId
  {
    var found := Find(collaborators, IsCoordinator(plan));
    if found.Some? then found.value.name else Undefined
  }

  /** One rendered row. */
  datatype Row = Row(plan: ActionPlan, teams: seq<Team>, teamNames: seq<string>, coordinator: string, delayed: bool,
                     progress: Progress)

  /** `actionTeams`: the plan's teams among the unique active ones, in the order their ids first
      appear in `teams`. */
  function PlanTeams(teams: seq<Team>, plan: ActionPlan): (r: seq<Team>)
    ensures forall t :: t in r <==> t in teams && t.active && PS.FirstOfKey(teams, t, TeamId) && t.id in plan.teamIds
    ensures forall i, j :: 0 <= i < j < |r| ==>
              PS.FirstIndex(teams, TeamId, r[i].id) < PS.FirstIndex(teams, TeamId, r[j].id)
  {
    FilterKeepsOrder(UniqueTeams(teams), InPlan(plan), FirstSeenBefore(teams));
    Filter(UniqueTeams(teams), InPlan(plan))
  }

  /** A row is delayed once the clock has passed its end date. Its teams are the plan's teams
      among the unique active ones, in the order their ids first appear, and the group cell lists
      their names. */
  function RowOf(plan: ActionPlan, tasks: seq<Task>, teams: seq<Team>, collaborators: seq<Collaborator>, now: int)
    : (row: Row)
    ensures row.plan == plan
    ensures row.delayed <==> now > plan.endDate
    ensures row.progress == CalculateProgress(tasks, plan.id)
    ensures row.coordinator == CoordinatorName(collaborators, plan)
    ensures row.teams == PlanTeams(teams, plan)
    ensures row.teamNames == Names(row.teams)
  {
    var shown := PlanTeams(teams, plan);
    Row(plan, shown, Names(shown), CoordinatorName(collaborators, plan), now > plan.endDate, CalculateProgress(tasks, plan.id))
  }

  /** The table body: one row per ongoing plan, in delivery order. */
  function Rows(plans: seq<ActionPlan>, tasks: seq<Task>, teams: seq<Team>, collaborators: seq<Collaborator>, now: int)
    : (rows: seq<Row>)
    ensures |rows| == |OngoingPlans(plans)|
    ensures forall i :: 0 <= i < |rows| ==> rows[i] == RowOf(OngoingPlans(plans)[i], tasks, teams, collaborators, now)
    ensures forall i, j :: 0 <= i < j < |rows| ==> rows[i].plan.endDate <= rows[j].plan.endDate
  {
    var ps := OngoingPlans(plans);
    seq(|ps|, i requires 0 <= i < |ps| => RowOf(ps[i], tasks, teams, collaborators, now))
  }

  const EmptyMessage := "Nenhuma ação em andamento no momento."

  datatype View = Empty(message: string) | Table(rows: seq<Row>)

  /** The rendered table, or the empty message when no plan is active. */
  function Render(plans: seq<ActionPlan>, tasks: seq<Task>, teams: seq<Team>, collaborators: seq<Collaborator>, now: int)
    : (v: View)
    ensures v.Empty? <==> forall p :: p in plans ==> !p.active
    ensures v.Empty? ==> v.message == EmptyMessage
    ensures v.Table? ==> v.rows == Rows(plans, tasks, teams, collaborators, now) && |v.rows| > 0
  {
    var ps := OngoingPlans(plans);
    if |ps| == 0 then
      Empty(EmptyMessage)
    else
      assert ps[0] in ps;
      Table(Rows(plans, tasks, teams, collaborators, now))
  }
}

=== FILE: participant_selector.dfy ===
/** The participant picker of src/components/meetings/ParticipantSelector.tsx: the lists of active
    collaborators and teams it offers, and the selection changes it emits. */
module ParticipantSelector {

  import opened Wrappers
  import opened Seqs
  import opened Sorting
  import opened Entities
  import Text

  /** The `selected` value: the two lists it declares, plus the action-plan ids a meeting's
      participants carry along when the caller passes them in. */
  datatype Selection = Selection(collaboratorIds: seq<Id>, teamIds: seq<Id>, actionPlanIds: Option<seq<Id>>)

  function IsNot(id: Id): Id -> bool {
    (x: Id) => x != id
  }

  /** `handleTeamMemberToggle`: drop every occurrence of a selected member, append an unselected
      one; the other fields are spread through unchanged. */
  function ToggleMember(selected: Selection, memberId: Id): (r: Selection)
    ensures r.teamIds == selected.teamIds && r.actionPlanIds == selected.actionPlanIds
    ensures memberId in selected.collaboratorIds ==>
              && memberId !in r.collaboratorIds
              && |r.collaboratorIds| < |selected.collaboratorIds|
              && (forall x :: x != memberId ==> (x in r.collaboratorIds <==> x in selected.collaboratorIds))
              && (forall x :: multiset(r.collaboratorIds)[x]
                             == if x != memberId then multiset(selected.collaboratorIds)[x] else 0)
              && Subsequence(r.collaboratorIds, selected.collaboratorIds)
    ensures memberId !in selected.collaboratorIds ==> r.collaboratorIds == selected.collaboratorIds + [memberId]
  {
    if memberId in selected.collaboratorIds then
      FilterShrinks(selected.collaboratorIds, IsNot(memberId), memberId);
      FilterCount(selected.collaboratorIds, IsNot(memberId));
      FilterSubsequence(selected.collaboratorIds, IsNot(memberId));
      selected.(collaboratorIds := Filter(selected.collaboratorIds, IsNot(memberId)))
    else
      selected.(collaboratorIds := selected.collaboratorIds + [memberId])
  }

  /** Toggling an unselected member twice restores the selection. */
  lemma ToggleMemberTwice(selected: Selection, memberId: Id)
    requires memberId !in selected.collaboratorIds
    ensures ToggleMember(ToggleMember(selected, memberId), memberId) == selected
  {
    FilterAppend(selected.collaboratorIds, [memberId], IsNot(memberId));
    FilterAll(selected.collaboratorIds, IsNot(memberId));
    assert [memberId][..0] == [];
  }

  function Ident(x: Id): Id { x }

  /** `tail` holds distinct ids, none of them in `ids`, in the order in which they first appear
      in `members`. */
  predicate NewInOrder(tail: seq<Id>, ids: seq<Id>, members: seq<Id>) {
    && (forall x :: x in tail ==> x !in ids)
    && NoDup(tail)
    && forall i, j :: 0 <= i < j < |tail| ==> FirstIndex(members, Ident, tail[i]) < FirstIndex(members, Ident, tail[j])
  }

  /** `members.forEach(m => { if (!ids.includes(m)) ids.push(m) })`: the ids are kept, and the
      members not among them are pushed once each, in the order the loop meets them. */
  function AppendMissing(ids: seq<Id>, members: seq<Id>): (r: seq<Id>)
    ensures |r| >= |ids| && r[..|ids|] == ids
    ensures forall x :: x in r <==> x in ids || x in members
    ensures NewInOrder(r[|ids|..], ids, members)
    ensures NoDup(ids) ==> NoDup(r)
    decreases |members|
  {
    if members == [] then ids
    else
      var next := if members[0] in ids then ids else ids + [members[0]];
      var r := AppendMissing(next, members[1..]);
      assert r[..|ids|] == next[..|ids|];
      assert forall x :: x in members <==> x == members[0] || x in members[1..];
      NewInOrderStep(ids, members, next, r);
      r
  }

  /** An id pushed later in the loop is neither the head of `members` nor first seen there. */
  lemma LaterIndex(members: seq<Id>, next: seq<Id>, later: seq<Id>)
    requires |members| > 0 && members[0] in next
    requires forall x :: x in later ==> x !in next
    ensures forall x :: x in later ==> FirstIndex(members, Ident, x) == 1 + FirstIndex(members[1..], Ident, x)
  {
  }

  /** One turn of the loop: pushing the head of `members` when it is new, in front of the ids the
      rest of the loop pushes, keeps the pushed ids in first-appearance order. */
  lemma NewInOrderStep(ids: seq<Id>, members: seq<Id>, next: seq<Id>, r: seq<Id>)
    requires |members| > 0
    requires next == if members[0] in ids then ids else ids + [members[0]]
    requires |r| >= |next| && r[..|next|] == next
    requires NewInOrder(r[|next|..], next, members[1..])
    ensures NewInOrder(r[|ids|..], ids, members)
  {
    var later := r[|next|..];
    LaterIndex(members, next, later);
    if members[0] !in ids {
      assert r[|ids|] == next[|ids|] == members[0];
      assert r[|ids|..] == [members[0]] + later;
      PushFront(ids, members, later);
    }
  }

  /** The case of `NewInOrderStep` where the head of `members` is pushed. */
  lemma PushFront(ids: seq<Id>, members: seq<Id>, later: seq<Id>)
    requires |members| > 0 && members[0] !in ids
    requires NewInOrder(later, ids + [members[0]], members[1..])
    requires forall x :: x in later ==> FirstIndex(members, Ident, x) == 1 + FirstIndex(members[1..], Ident, x)
    ensures NewInOrder([members[0]] + later, ids, members)
  {
    var tail := [members[0]] + later;
    assert FirstIndex(members, Ident, members[0]) == 0;
    forall x | x in tail ensures x !in ids {
      if x != members[0] { assert x in later; }
    }
    forall i, j | 0 <= i < j < |tail| ensures tail[i] != tail[j] {
      assert tail[j] == later[j - 1] && later[j - 1] in later;
      if i > 0 {
        assert tail[i] == later[i - 1];
      }
    }
    forall i, j | 0 <= i < j < |tail|
      ensures FirstIndex(members, Ident, tail[i]) < FirstIndex(members, Ident, tail[j])
    {
      var b := later[j - 1];
      assert tail[j] == b && b in later;
      if i > 0 {
        var a := later[i - 1];
        assert tail[i] == a && a in later;
        assert FirstIndex(members[1..], Ident, a) < FirstIndex(members[1..], Ident, b);
      }
    }
  }


  function NotAmong(members: seq<Id>): Id -> bool {
    (x: Id) => x !in members
  }

  function IsTeam(id: Id): Team -> bool {
    (t: Team) => t.id == id
  }

  /** `handleTeamToggle(teamId)`: nothing is emitted for an unknown team; a selected team is
      removed together with all its members, an unselected one is appended together with the
      members not yet chosen. Only the two lists are emitted. */
  function ToggleTeam(selected: Selection, teams: seq<Team>, teamId: Id): (r: Option<Selection>)
    ensures r.None? <==> forall t :: t in teams ==> t.id != teamId
    ensures r.Some? ==> r.value.actionPlanIds.None?
    ensures r.Some? && teamId in selected.teamIds ==>
              && (forall x :: x in r.value.teamIds <==> x in selected.teamIds && x != teamId)
              && (forall x :: x in r.value.collaboratorIds <==>
                    x in selected.collaboratorIds && x !in Find(teams, IsTeam(teamId)).value.members)
              && (forall x :: multiset(r.value.teamIds)[x] == if x != teamId then multiset(selected.teamIds)[x] else 0)
              && (forall x :: multiset(r.value.collaboratorIds)[x]
                             == if x !in Find(teams, IsTeam(teamId)).value.members
                                then multiset(selected.collaboratorIds)[x] else 0)
              && Subsequence(r.value.teamIds, selected.teamIds)
              && Subsequence(r.value.collaboratorIds, selected.collaboratorIds)
    ensures r.Some? && teamId !in selected.teamIds ==>
              && r.value.teamIds == selected.teamIds + [teamId]
              && |r.value.collaboratorIds| >= |selected.collaboratorIds|
              && r.value.collaboratorIds[..|selected.collaboratorIds|] == selected.collaboratorIds
              && (forall x :: x in r.value.collaboratorIds <==>
                    x in selected.collaboratorIds || x in Find(teams, IsTeam(teamId)).value.members)
              && NewInOrder(r.value.collaboratorIds[|selected.collaboratorIds|..], selected.collaboratorIds,
                            Find(teams, IsTeam(teamId)).value.members)
              && (NoDup(selected.collaboratorIds) ==> NoDup(r.value.collaboratorIds))
  {
    match Find(teams, IsTeam(teamId))
    case None => None
    case Some(team) =>
      if teamId in selected.teamIds then
        FilterCount(selected.teamIds, IsNot(teamId));
        FilterCount(selected.collaboratorIds, NotAmong(team.members));
        FilterSubsequence(selected.teamIds, IsNot(teamId));
        FilterSubsequence(selected.collaboratorIds, NotAmong(team.members));
        Some(Selection(Filter(selected.collaboratorIds, NotAmong(team.members)),
                       Filter(selected.teamIds, IsNot(teamId)), None))
      else
        Some(Selection(AppendMissing(selected.collaboratorIds, team.members), selected.teamIds + [teamId], None))
  }

  /** Deselecting a team also drops a member who had been chosen on their own. */
  lemma DeselectDropsIndividualPicks(selected: Selection, teams: seq<Team>, teamId: Id, member: Id)
    requires teamId in selected.teamIds
    requires Find(teams, IsTeam(teamId)).Some? && member in Find(teams, IsTeam(teamId)).value.members
    requires member in selected.collaboratorIds
    ensures member !in ToggleTeam(selected, teams, teamId).value.collaboratorIds
  {
  }

  /** Filtering out a team's members undoes appending the missing ones. */
  lemma {:induction false} FilterAppendMissing(ids: seq<Id>, ms: seq<Id>, all: seq<Id>)
    requires forall x :: x in ms ==> x in all
    ensures Filter(AppendMissing(ids, ms), NotAmong(all)) == Filter(ids, NotAmong(all))
    decreases |ms|
  {
    if ms != [] {
      var next := if ms[0] in ids then ids else ids + [ms[0]];
      FilterAppendMissing(next, ms[1..], all);
      if ms[0] !in ids {
        FilterAppend(ids, [ms[0]], NotAmong(all));
        assert [ms[0]][..0] == [];
      }
    }
  }

  /** Selecting and then deselecting a team whose members were not chosen restores the two lists. */
  lemma SelectThenDeselect(selected: Selection, teams: seq<Team>, teamId: Id)
    requires teamId !in selected.teamIds
    requires Find(teams, IsTeam(teamId)).Some?
    requires forall x :: x in Find(teams, IsTeam(teamId)).value.members ==> x !in selected.collaboratorIds
    ensures ToggleTeam(ToggleTeam(selected, teams, teamId).value, teams, teamId)
            == Some(selected.(actionPlanIds := None))
  {
    var team := Find(teams, IsTeam(teamId)).value;
    FilterAppendMissing(selected.collaboratorIds, team.members, team.members);
    FilterAll(selected.collaboratorIds, NotAmong(team.members));
    FilterAppend(selected.teamIds, [teamId], IsNot(teamId));
    FilterAll(selected.teamIds, IsNot(teamId));
    assert [teamId][..0] == [];
  }

  /** Some entry of `d` has key `k`. */
  predicate HasKey<T>(d: seq<T>, key: T -> Id, k: Id) {
    exists j :: 0 <= j < |d| && key(d[j]) == k
  }

  /** `xs.reduce(...)` keeping the first entry of each key. */
  function DedupBy<T(==)>(s: seq<T>, key: T -> Id): (r: seq<T>)
    ensures KeysDistinct(r, key)
    ensures forall x :: x in r ==> x in s
    decreases |s|
  {
    if s == [] then []
    else
      var d := DedupBy(s[..|s| - 1], key);
      if HasKey(d, key, key(s[|s| - 1])) then d
      else
        assert forall x :: x in d ==> x in s by {
          assert forall x :: x in s[..|s| - 1] ==> x in s;
        }
        d + [s[|s| - 1]]
  }

  /** Every key of the input survives deduplication. */
  lemma {:induction false} DedupCovers<T>(s: seq<T>, key: T -> Id, i: nat)
    requires i < |s|
    ensures HasKey(DedupBy(s, key), key, key(s[i]))
    decreases |s|
  {
    var d := DedupBy(s[..|s| - 1], key);
    if i < |s| - 1 {
      DedupCovers(s[..|s| - 1], key, i);
      var j :| 0 <= j < |d| && key(d[j]) == key(s[..|s| - 1][i]);
      if !HasKey(d, key, key(s[|s| - 1])) {
        assert (d + [s[|s| - 1]])[j] == d[j];
      }
    } else if !HasKey(d, key, key(s[|s| - 1])) {
      assert (d + [s[|s| - 1]])[|d|] == s[i];
    }
  }

  /** The position of the first entry with key `k`, or `|s|` when no entry has it. */
  function FirstIndex<T>(s: seq<T>, key: T -> Id, k: Id): (i: nat)
    ensures i <= |s|
    ensures i < |s| ==> key(s[i]) == k
    ensures forall j :: 0 <= j < i ==> key(s[j]) != k
    decreases |s|
  {
    if s == [] then 0 else if key(s[0]) == k then 0 else 1 + FirstIndex(s[1..], key, k)
  }

  /** Deduplication lists the keys in the order of their first appearance in the input. */
  lemma {:induction false} DedupInOrder<T>(s: seq<T>, key: T -> Id)
    ensures forall i, j :: 0 <= i < j < |DedupBy(s, key)| ==>
              FirstIndex(s, key, key(DedupBy(s, key)[i])) < FirstIndex(s, key, key(DedupBy(s, key)[j]))
    decreases |s|
  {
    if s != [] {
      var init := s[..|s| - 1];
      var last := s[|s| - 1];
      var d := DedupBy(init, key);
      DedupInOrder(init, key);
      forall x | x in d ensures FirstIndex(s, key, key(x)) == FirstIndex(init, key, key(x)) < |init| {
        var m :| 0 <= m < |init| && init[m] == x;
        var f := FirstIndex(init, key, key(x));
        assert f <= m;
        assert s[f] == init[f];
        forall j | 0 <= j < f ensures key(s[j]) != key(x) {
          assert s[j] == init[j];
        }
      }
      if HasKey(d, key, key(last)) {
        forall i, j | 0 <= i < j < |d|
          ensures FirstIndex(s, key, key(d[i])) < FirstIndex(s, key, key(d[j]))
        {
          assert d[i] in d && d[j] in d;
        }
      } else {
        forall k | 0 <= k < |init| ensures key(s[k]) != key(last) {
          assert s[k] == init[k];
          DedupCovers(init, key, k);
        }
        assert FirstIndex(s, key, key(last)) == |init|;
        var r := d + [last];
        assert DedupBy(s, key) == r;
        forall i, j | 0 <= i < j < |r|
          ensures FirstIndex(s, key, key(r[i])) < FirstIndex(s, key, key(r[j]))
        {
          assert r[i] == d[i] && d[i] in d;
          if j < |d| {
            assert r[j] == d[j] && d[j] in d;
          } else {
            assert r[j] == last;
          }
        }
      }
    }
  }

  /** `x` occurs in `s`, and no earlier entry has its key. */
  predicate FirstOfKey<T(==)>(s: seq<T>, x: T, key: T -> Id) {
    exists i :: 0 <= i < |s| && s[i] == x && forall k :: 0 <= k < i ==> key(s[k]) != key(x)
  }

  /** Deduplication keeps the first entry of each key. */
  lemma {:induction false} DedupKeepsFirst<T>(s: seq<T>, key: T -> Id, j: nat)
    requires j < |DedupBy(s, key)|
    ensures FirstOfKey(s, DedupBy(s, key)[j], key)
    decreases |s|
  {
    var init := s[..|s| - 1];
    var last := s[|s| - 1];
    var d := DedupBy(init, key);
    if j < |d| {
      DedupKeepsFirst(init, key, j);
      var i :| 0 <= i < |init| && init[i] == d[j] && forall k :: 0 <= k < i ==> key(init[k]) != key(d[j]);
      assert s[i] == d[j];
      assert forall k :: 0 <= k < i ==> s[k] == init[k];
      assert DedupBy(s, key)[j] == d[j] by {
        if !HasKey(d, key, key(last)) {
          assert (d + [last])[j] == d[j];
        }
      }
    } else {
      assert DedupBy(s, key) == d + [last];
      forall k | 0 <= k < |s| - 1 ensures key(s[k]) != key(last) {
        assert s[k] == init[k];
        DedupCovers(init, key, k);
      }
      assert s[|s| - 1] == last;
    }
  }

  /** The first entry of each key is the one deduplication keeps. */
  lemma DedupKeepsEveryFirst<T>(s: seq<T>, key: T -> Id, x: T)
    requires FirstOfKey(s, x, key)
    ensures x in DedupBy(s, key)
  {
    var d := DedupBy(s, key);
    var a :| 0 <= a < |s| && s[a] == x && forall k :: 0 <= k < a ==> key(s[k]) != key(x);
    DedupCovers(s, key, a);
    var j :| 0 <= j < |d| && key(d[j]) == key(x);
    DedupKeepsFirst(s, key, j);
    var b :| 0 <= b < |s| && s[b] == d[j] && forall k :: 0 <= k < b ==> key(s[k]) != key(d[j]);
    assert a == b;
  }

  /** `a.name.localeCompare(b.name)` as a comparator. */
  function ByName<T>(name: T -> string): (T, T) -> bool {
    (a: T, b: T) => Text.StrLe(name(a), name(b))
  }

  lemma ByNameIsPreorder<T(!new)>(name: T -> string)
    ensures TotalPreorder(ByName(name))
  {
    forall a: T, b: T ensures ByName(name)(a, b) || ByName(name)(b, a) {
      Text.StrLeTotal(name(a), name(b));
    }
    forall a: T, b: T, c: T | ByName(name)(a, b) && ByName(name)(b, c) ensures ByName(name)(a, c) {
      Text.StrLeTrans(name(a), name(b), name(c));
    }
  }

  /** Entries of `r` that share a name come in the order in which their ids first appear in `s`. */
  predicate EqualNamesInFirstOrder<T>(r: seq<T>, s: seq<T>, key: T -> Id, name: T -> string) {
    forall i, j :: 0 <= i < j < |r| && name(r[i]) == name(r[j]) ==>
      FirstIndex(s, key, key(r[i])) < FirstIndex(s, key, key(r[j]))
  }

  /** Sorting the deduplicated list by name keeps namesakes in first-appearance order: the sort is
      stable and deduplication lists ids in that order. */
  lemma SortedDedupTies<T(!new)>(s: seq<T>, key: T -> Id, name: T -> string)
    requires TotalPreorder(ByName(name))
    ensures EqualNamesInFirstOrder(Sort(DedupBy(s, key), ByName(name)), s, key, name)
  {
    var d := DedupBy(s, key);
    var r := Sort(d, ByName(name));
    var before := (a: T, b: T) => FirstIndex(s, key, key(a)) < FirstIndex(s, key, key(b));
    DedupInOrder(s, key);
    forall i, j | 0 <= i < j < |r| && name(r[i]) == name(r[j])
      ensures FirstIndex(s, key, key(r[i])) < FirstIndex(s, key, key(r[j]))
    {
      Text.StrLeRefl(name(r[i]));
      TiesInInputOrder(r, d, ByName(name), before, i, j);
    }
  }

  /** The picker's list: the active entries, the first of each id, sorted by name; namesakes keep
      the order in which they first appear. */
  function ActiveList<T(!new,==)>(s: seq<T>, active: T -> bool, key: T -> Id, name: T -> string): (r: seq<T>)
    ensures SortedBy(r, ByName(name))
    ensures forall x :: x in r ==> x in s && active(x)
    ensures KeysDistinct(r, key)
    ensures EqualNamesInFirstOrder(r, Filter(s, active), key, name)
  {
    var d := DedupBy(Filter(s, active), key);
    ByNameIsPreorder(name);
    SortMembers(d, ByName(name));
    SortKeysDistinct(d, key, ByName(name));
    SortedDedupTies(Filter(s, active), key, name);
    Sort(d, ByName(name))
  }

  /** Every active id is offered, by the first active entry that has it. */
  lemma ActiveListComplete<T(!new)>(s: seq<T>, active: T -> bool, key: T -> Id, name: T -> string, x: T)
    requires x in s && active(x)
    ensures exists y :: y in ActiveList(s, active, key, name) && key(y) == key(x)
    ensures forall y :: y in ActiveList(s, active, key, name) ==> FirstOfKey(Filter(s, active), y, key)
  {
    var kept := Filter(s, active);
    var d := DedupBy(kept, key);
    ByNameIsPreorder(name);
    SortMembers(d, ByName(name));
    var i :| 0 <= i < |kept| && kept[i] == x;
    DedupCovers(kept, key, i);
    var j :| 0 <= j < |d| && key(d[j]) == key(kept[i]);
    assert d[j] in ActiveList(s, active, key, name);
    forall y | y in ActiveList(s, active, key, name) ensures FirstOfKey(kept, y, key) {
      var k :| 0 <= k < |d| && d[k] == y;
      DedupKeepsFirst(kept, key, k);
    }
  }

  /** Sorting a list with distinct keys keeps them distinct. */
  lemma SortKeysDistinct<T(!new)>(s: seq<T>, key: T -> Id, le: (T, T) -> bool)
    requires TotalPreorder(le)
    requires KeysDistinct(s, key)
    ensures KeysDistinct(Sort(s, le), key)
  {
    var r := Sort(s, le);
    forall i, j | 0 <= i < j < |r| ensures key(r[i]) != key(r[j]) {
      if key(r[i]) == key(r[j]) {
        assert r[i] in multiset(s) && r[j] in multiset(s);
        var a :| 0 <= a < |s| && s[a] == r[i];
        var b :| 0 <= b < |s| && s[b] == r[j];
        if a == b {
          MultisetTwice(r, i, j);
          assert multiset(s)[s[a]] >= 2;
          KeysDistinctOnce(s, key, a);
        }
      }
    }
  }

  /** Two positions holding the same entry count it twice. */
  lemma MultisetTwice<T>(s: seq<T>, i: nat, j: nat)
    requires i < j < |s| && s[i] == s[j]
    ensures multiset(s)[s[i]] >= 2
  {
    assert s == s[..i] + [s[i]] + s[i + 1..j] + [s[j]] + s[j + 1..];
  }

  /** With distinct keys, every entry occurs once. */
  lemma {:induction false} KeysDistinctOnce<T>(s: seq<T>, key: T -> Id, a: nat)
    requires KeysDistinct(s, key) && a < |s|
    ensures multiset(s)[s[a]] == 1
    decreases |s|
  {
    var x := s[a];
    assert s == s[..a] + [x] + s[a + 1..];
    assert forall k :: 0 <= k < |s| && k != a ==> key(s[k]) != key(x);
    assert x !in s[..a] && x !in s[a + 1..];
  }

  function Active(c: Collaborator): bool { c.active }
  function CollaboratorName(c: Collaborator): string { c.name }
  function TeamActive(t: Team): bool { t.active }
  function TeamName(t: Team): string { t.name }

  /** `activeCollaborators`. */
  function ActiveCollaborators(collaborators: seq<Collaborator>): (r: seq<Collaborator>)
    ensures forall c :: c in r ==> c in collaborators && c.active
    ensures KeysDistinct(r, CollaboratorId)
    ensures SortedBy(r, ByName(CollaboratorName))
    ensures EqualNamesInFirstOrder(r, Filter(collaborators, Active), CollaboratorId, CollaboratorName)
  {
    ActiveList(collaborators, Active, CollaboratorId, CollaboratorName)
  }

  /** `activeTeams`. */
  function ActiveTeams(teams: seq<Team>): (r: seq<Team>)
    ensures forall t :: t in r ==> t in teams && t.active
    ensures KeysDistinct(r, TeamId)
    ensures SortedBy(r, ByName(TeamName))
    ensures EqualNamesInFirstOrder(r, Filter(teams, TeamActive), TeamId, TeamName)
  {
    ActiveList(teams, TeamActive, TeamId, TeamName)
  }
}

=== FILE: plan_monitor.dfy ===
/** The action plan deadline monitor (src/services/ActionPlanMonitoringService.ts): the same check
    as the task monitor, over plans, through the plan store's `updateActionPlan`; a plan without a
    log starts one. */
module PlanMonitor {

  import opened Wrappers
  import opened Seqs
  import opened StatusLogs
  import opened Entities
  import opened DeadlineSweep
  import PS = PlanStatusConfig
  import ActionPlanStore
  import MonitorTimer

  /** The condition of the check: past the end date and neither completed nor already delayed. */
  predicate Overdue(a: ActionPlan, now: int) {
    now > a.endDate && a.status != PS.Completed && a.status != PS.Delayed
  }

  function OverdueAt(now: int): ActionPlan -> bool {
    (a: ActionPlan) => Overdue(a, now)
  }

  /** The plan's log, an absent one read as empty (`plan.statusLogs || []`). */
  function Logs(a: ActionPlan): seq<PlanLog> {
    a.statusLogs.GetOr([])
  }

  /** The automatic entry recorded for an overdue plan; like the task entry, it names the plan
      in its `taskId` field. */
  function DelayLog(a: ActionPlan, logId: Id, now: int): (log: PlanLog)
    ensures log.taskId == a.id && log.fromStatus == a.status && log.toStatus == PS.Delayed
    ensures log.automatic && log.systemNotes == Some(DeadlineExceededNote)
    ensures log.justification.None? && log.userId.None? && log.userName.None?
  {
    StatusLog(logId, a.id, a.status, PS.Delayed, None, At(now), true, Some(DeadlineExceededNote), None, None)
  }

  /** The update sent for an overdue plan: once merged into the plan, it is delayed, its log
      (started if absent) has one more entry leaving its old status, and nothing else but the
      time stamp changes. */
  function DelayPatch(a: ActionPlan, logId: Id, now: int): (p: PlanPatch)
    ensures MergePlan(a, p) == a.(status := PS.Delayed, statusLogs := Some(Logs(a) + [DelayLog(a, logId, now)]), updatedAt := now)
    ensures forall other: ActionPlan :: MergePlan(other, p).status == PS.Delayed && MergePlan(other, p).endDate == other.endDate
  {
    PlanPatch(None, None, None, None, None, Some(PS.Delayed), Some(Logs(a) + [DelayLog(a, logId, now)]), None, Some(now))
  }

  function Build(now: int): (ActionPlan, Id) -> PlanPatch {
    (a: ActionPlan, logId: Id) => DelayPatch(a, logId, now)
  }

  function StoreUpdate(): PlanPatch -> ActionPlan -> ActionPlan {
    (p: PlanPatch) => ActionPlanStore.Merged(p)
  }

  /** `checkActionPlans`: the updates of one check over the snapshot `plans`: one per overdue plan,
      in snapshot order, the k-th built with the k-th fresh log id. */
  function CheckActionPlans(plans: seq<ActionPlan>, now: int, freshId: nat -> Id): (us: seq<Update<PlanPatch>>)
    ensures |us| == |Filter(plans, OverdueAt(now))|
    ensures forall k :: 0 <= k < |us| ==>
              us[k] == Update(Filter(plans, OverdueAt(now))[k].id, DelayPatch(Filter(plans, OverdueAt(now))[k], freshId(k), now))
  {
    Sweep(plans, OverdueAt(now), Build(now), PlanId, freshId)
  }

  /** The updates handed to the store's `updateActionPlan` one after another. */
  function ApplyUpdates(plans: seq<ActionPlan>, us: seq<Update<PlanPatch>>): seq<ActionPlan> {
    Apply(plans, us, StoreUpdate(), PlanId)
  }

  /** Applying a batch is the store's `updateActionPlan` for the first update, then the rest. */
  lemma ApplyIsStoreUpdate(plans: seq<ActionPlan>, u: Update<PlanPatch>, rest: seq<Update<PlanPatch>>)
    ensures ApplyUpdates(plans, [u] + rest) == ApplyUpdates(ActionPlanStore.UpdateActionPlan(plans, u.id, u.patch), rest)
  {
    assert ([u] + rest)[1..] == rest;
  }

  /** Every update of a check names an overdue plan of the snapshot. */
  lemma CheckActionPlansSound(plans: seq<ActionPlan>, now: int, freshId: nat -> Id, k: nat)
    requires k < |CheckActionPlans(plans, now, freshId)|
    ensures exists i :: 0 <= i < |plans| && Overdue(plans[i], now) && CheckActionPlans(plans, now, freshId)[k].id == plans[i].id
  {
    SweepSound(plans, OverdueAt(now), Build(now), PlanId, freshId, k);
    var i :| 0 <= i < |plans| && OverdueAt(now)(plans[i]) && CheckActionPlans(plans, now, freshId)[k].id == PlanId(plans[i]);
    assert Overdue(plans[i], now);
  }

  /** Every overdue plan of the snapshot gets the delay update built from it. */
  lemma CheckActionPlansComplete(plans: seq<ActionPlan>, now: int, freshId: nat -> Id, i: nat)
    requires i < |plans| && Overdue(plans[i], now)
    ensures exists k :: 0 <= k < |CheckActionPlans(plans, now, freshId)|
              && CheckActionPlans(plans, now, freshId)[k] == Update(plans[i].id, DelayPatch(plans[i], freshId(k), now))
  {
    SweepComplete(plans, OverdueAt(now), Build(now), PlanId, freshId, i);
    var k :| 0 <= k < |CheckActionPlans(plans, now, freshId)|
             && CheckActionPlans(plans, now, freshId)[k] == Update(plans[i].id, Build(now)(plans[i], freshId(k)));
    assert Build(now)(plans[i], freshId(k)) == DelayPatch(plans[i], freshId(k), now);
  }

  lemma StoreUpdateCures(now: int)
    ensures KeepsKey(StoreUpdate(), PlanId)
    ensures Cures(Build(now), StoreUpdate(), OverdueAt(now))
  {
    forall d: ActionPlan, x: Id, e: ActionPlan ensures !OverdueAt(now)(StoreUpdate()(Build(now)(d, x))(e)) {
      assert MergePlan(e, DelayPatch(d, x, now)).status == PS.Delayed;
    }
  }

  /** A second check right after the first finds nothing to do. */
  lemma CheckActionPlansIdempotent(plans: seq<ActionPlan>, now: int, freshId: nat -> Id, laterIds: nat -> Id)
    ensures CheckActionPlans(ApplyUpdates(plans, CheckActionPlans(plans, now, freshId)), now, laterIds) == []
  {
    StoreUpdateCures(now);
    SweepIdempotent(plans, OverdueAt(now), Build(now), PlanId, freshId, StoreUpdate(), laterIds);
  }

  /** With distinct plan ids, a check leaves every plan that is not overdue as it was, and turns
      every overdue one into a delayed plan whose log (started if absent) gains exactly one
      automatic entry leaving the status it had. */
  lemma CheckActionPlansEffect(plans: seq<ActionPlan>, now: int, freshId: nat -> Id, i: nat)
    requires KeysDistinct(plans, PlanId)
    requires i < |plans|
    ensures !Overdue(plans[i], now) ==> ApplyUpdates(plans, CheckActionPlans(plans, now, freshId))[i] == plans[i]
    ensures Overdue(plans[i], now) ==> exists k ::
              ApplyUpdates(plans, CheckActionPlans(plans, now, freshId))[i]
              == plans[i].(status := PS.Delayed, statusLogs := Some(Logs(plans[i]) + [DelayLog(plans[i], freshId(k), now)]), updatedAt := now)
  {
    StoreUpdateCures(now);
    SweepEffect(plans, OverdueAt(now), Build(now), PlanId, freshId, StoreUpdate(), i);
    if Overdue(plans[i], now) {
      var k :| ApplyUpdates(plans, CheckActionPlans(plans, now, freshId))[i]
               == StoreUpdate()(Build(now)(plans[i], freshId(k)))(plans[i]);
      assert StoreUpdate()(Build(now)(plans[i], freshId(k)))(plans[i]) == MergePlan(plans[i], DelayPatch(plans[i], freshId(k), now));
    }
  }

  /** With distinct plan ids, a gap-free history stays gap-free through a check. */
  lemma CheckActionPlansKeepsHistoryChained(plans: seq<ActionPlan>, now: int, freshId: nat -> Id, i: nat)
    requires KeysDistinct(plans, PlanId)
    requires i < |plans| && Chained(Logs(plans[i]), plans[i].status)
    ensures Chained(Logs(ApplyUpdates(plans, CheckActionPlans(plans, now, freshId))[i]),
                    ApplyUpdates(plans, CheckActionPlans(plans, now, freshId))[i].status)
  {
    CheckActionPlansEffect(plans, now, freshId, i);
    if Overdue(plans[i], now) {
      var k :| ApplyUpdates(plans, CheckActionPlans(plans, now, freshId))[i]
               == plans[i].(status := PS.Delayed, statusLogs := Some(Logs(plans[i]) + [DelayLog(plans[i], freshId(k), now)]), updatedAt := now);
      ChainedAppend(Logs(plans[i]), plans[i].status, DelayLog(plans[i], freshId(k), now));
    }
  }

  /** The monitor writes transitions the table forbids: an overdue cancelled plan is delayed,
      although the cancelled row only leads back to not started. */
  lemma MonitorBypassesTable(a: ActionPlan, now: int, freshId: nat -> Id)
    requires a.status == PS.Cancelled && now > a.endDate
    ensures CheckActionPlans([a], now, freshId) == [Update(a.id, DelayPatch(a, freshId(0), now))]
    ensures PS.Delayed !in PS.Transitions(a.status)
    ensures !PS.ValidateStatusChange(a.status, PS.Delayed, a.startDate, a.endDate, now).valid
  {
    assert [a][..0] == [];
  }

  /** The state `startMonitoring` leaves behind: the timer, and the updates of the immediate check. */
  datatype Started = Started(timer: MonitorTimer.Timer, updates: seq<Update<PlanPatch>>)

  /** `startMonitoring`: cancel the previous interval, check once at once, arm the next interval. */
  function StartMonitoring(timer: MonitorTimer.Timer, plans: seq<ActionPlan>, now: int, freshId: nat -> Id, handle: nat): (s: Started)
    ensures s.updates == CheckActionPlans(plans, now, freshId)
    ensures s.timer.intervalId == Some(handle)
    ensures MonitorTimer.Tracked(timer) && handle != 0 ==> s.timer.armed == {handle}
  {
    Started(MonitorTimer.Start(timer, handle), CheckActionPlans(plans, now, freshId))
  }
}

=== FILE: plan_status_config.dfy ===
/** The Action Plan status rules: labels, the transition table and the interactive validator
    (src/utils/actionPlanStatusConfig.ts). */
module PlanStatusConfig {

  import opened Wrappers
  import opened Verdicts

  /** The plan statuses, including `rescheduled`, which the label, colour and transition
      tables carry although no transition leads to it. */
  datatype PlanStatus = NotStarted | InProgress | Completed | Delayed | Cancelled | Rescheduled

  function Name(s: PlanStatus): string {
    match s
    case NotStarted => "not_started"
    case InProgress => "in_progress"
    case Completed => "completed"
    case Delayed => "delayed"
    case Cancelled => "cancelled"
    case Rescheduled => "rescheduled"
  }

  function Parse(raw: string): (r: Option<PlanStatus>)
    ensures r.Some? ==> Name(r.value) == raw
  {
    if raw == "not_started" then Some(NotStarted)
    else if raw == "in_progress" then Some(InProgress)
    else if raw == "completed" then Some(Completed)
    else if raw == "delayed" then Some(Delayed)
    else if raw == "cancelled" then Some(Cancelled)
    else if raw == "rescheduled" then Some(Rescheduled)
    else None
  }

  lemma ParseName(s: PlanStatus)
    ensures Parse(Name(s)) == Some(s)
  {
  }

  /** The status a display label stands for. */
  function LabelStatus(shown: string): Option<PlanStatus> {
    if shown == "Não Iniciado" then Some(NotStarted)
    else if shown == "Em Andamento" then Some(InProgress)
    else if shown == "Concluído" then Some(Completed)
    else if shown == "Atrasado" then Some(Delayed)
    else if shown == "Cancelado" then Some(Cancelled)
    else if shown == "Remarcado" then Some(Rescheduled)
    else None
  }

  /** The Portuguese display label (`statusLabels`): no two statuses share one. */
  function Label(s: PlanStatus): (r: string)
    ensures LabelStatus(r) == Some(s)
  {
    match s
    case NotStarted => "Não Iniciado"
    case InProgress => "Em Andamento"
    case Completed => "Concluído"
    case Delayed => "Atrasado"
    case Cancelled => "Cancelado"
    case Rescheduled => "Remarcado"
  }

  /** The rows of `statusTransitions`, in the order the table lists them. */
  function Transitions(s: PlanStatus): (targets: seq<PlanStatus>)
    ensures s !in targets
    ensures Rescheduled !in targets
    ensures targets != []
    ensures NotStarted in targets <==> s == Cancelled
  {
    match s
    case NotStarted => [InProgress, Cancelled]
    case InProgress => [Completed, Delayed, Cancelled]
    case Completed => [InProgress]
    case Delayed => [Completed, Cancelled]
    case Cancelled => [NotStarted]
    case Rescheduled => [Completed, Delayed, Cancelled]
  }

  /** `getAvailableStatuses`: the table row of a stored status, `[]` when it has none. */
  function AvailableStatuses(raw: string): (r: seq<PlanStatus>)
    ensures Parse(raw).None? ==> r == []
    ensures Parse(raw).Some? ==> r == Transitions(Parse(raw).value)
  {
    match Parse(raw)
    case Some(s) => Transitions(s)
    case None => []
  }

  const BeforeStartMessage := "Não é possível alterar o status antes da data de início prevista"
  const NotPermittedMessage := "Esta transição de status não é permitida"
  const LateCompletionMessage := "Ação/Plano concluído após o prazo"
  const TooEarlyToDelayMessage := "Só é possível marcar como atrasada após a data de término"
  const NoRevertMessage := "Não é possível voltar para não iniciado depois de começar"

  /** The declarative reading of the rules: when a change is accepted. */
  predicate Acceptable(current: PlanStatus, target: PlanStatus, start: int, end: int, now: int) {
    && (now < start ==> target == Cancelled)
    && target in Transitions(current)
    && (target == Delayed ==> now > end)
    && (target == NotStarted ==> current == Cancelled)
  }

  /** `validateStatusChange(current, target, start, end)` evaluated at instant `now`. */
  function ValidateStatusChange(current: PlanStatus, target: PlanStatus, start: int, end: int, now: int): (v: Verdict)
    ensures now < start && target != Cancelled ==> v == Reject(BeforeStartMessage)
    ensures v.valid <==> Acceptable(current, target, start, end, now)
    ensures v.valid && v.message.Some? <==> v.valid && target == Completed && now > end
    ensures v.valid && v.message.Some? ==> v.message.value == LateCompletionMessage
    ensures !v.valid ==> v.message.Some?
    ensures !(now < start && target != Cancelled) && target !in Transitions(current) ==> v == Reject(NotPermittedMessage)
    ensures !(now < start && target != Cancelled) && target in Transitions(current) && target == Delayed && now <= end ==>
              v == Reject(TooEarlyToDelayMessage)
    ensures !v.valid ==> v.message.value in {BeforeStartMessage, NotPermittedMessage, TooEarlyToDelayMessage}
    ensures v.automatic.None?
  {
    if now < start && target != Cancelled then Reject(BeforeStartMessage)
    else if target !in Transitions(current) then Reject(NotPermittedMessage)
    else match target
      case Completed => if now > end then Accept(Some(LateCompletionMessage)) else Accept(None)
      case Delayed => if now <= end then Reject(TooEarlyToDelayMessage) else Accept(None)
      case NotStarted => if current != Cancelled then Reject(NoRevertMessage) else Accept(None)
      case _ => Accept(None)
  }

  /** The validator with its `not_started` case removed. */
  function ValidateWithoutRevertGuard(current: PlanStatus, target: PlanStatus, start: int, end: int, now: int): Verdict {
    if now < start && target != Cancelled then Reject(BeforeStartMessage)
    else if target !in Transitions(current) then Reject(NotPermittedMessage)
    else match target
      case Completed => if now > end then Accept(Some(LateCompletionMessage)) else Accept(None)
      case Delayed => if now <= end then Reject(TooEarlyToDelayMessage) else Accept(None)
      case _ => Accept(None)
  }

  /** The `not_started` guard never decides anything: `cancelled` is the only row listing it. */
  lemma RevertGuardSubsumed(current: PlanStatus, target: PlanStatus, start: int, end: int, now: int)
    ensures ValidateStatusChange(current, target, start, end, now)
         == ValidateWithoutRevertGuard(current, target, start, end, now)
  {
  }

  /** `rescheduled` is never an accepted target, from any status at any time. */
  lemma RescheduledUnreachable(current: PlanStatus, start: int, end: int, now: int)
    ensures !ValidateStatusChange(current, Rescheduled, start, end, now).valid
  {
  }

  /** No status is terminal: once the start date has passed, every status has an accepted way out
      (`completed` reopens to `in_progress`, `cancelled` reactivates to `not_started`). */
  lemma NoTerminalStatus(current: PlanStatus, start: int, end: int, now: int)
    requires start <= now
    ensures exists target :: ValidateStatusChange(current, target, start, end, now).valid
  {
    var target := match current
      case NotStarted => InProgress
      case InProgress => Cancelled
      case Completed => InProgress
      case Delayed => Cancelled
      case Cancelled => NotStarted
      case Rescheduled => Cancelled;
    assert ValidateStatusChange(current, target, start, end, now).valid;
  }

  /** Re-selecting the current status is always rejected. */
  lemma NoSelfTransition(s: PlanStatus, start: int, end: int, now: int)
    ensures !ValidateStatusChange(s, s, start, end, now).valid
  {
  }
}

=== FILE: seqs.dfy ===
/** Order-preserving list operations shared by the stores and services:
    `Array.prototype.filter`, and `map` that rewrites only the entries with a given key. */
module Seqs {

  /** `s.filter(p)`: the entries satisfying `p`, in their original order. */
  function Filter<T(!new)>(s: seq<T>, p: T -> bool): (r: seq<T>)
    ensures |r| <= |s|
    ensures forall x :: x in r <==> x in s && p(x)
  {
    if s == [] then []
    else
      var rest := Filter(s[..|s| - 1], p);
      assert s == s[..|s| - 1] + [s[|s| - 1]];
      if p(s[|s| - 1]) then rest + [s[|s| - 1]] else rest
  }

  /** `r` is `s` with some entries left out: the entries of `r` occur in `s` in the same order. */
  predicate Subsequence<T(==)>(r: seq<T>, s: seq<T>)
    decreases |s|
  {
    if r == [] then true
    else if s == [] then false
    else (r[|r| - 1] == s[|s| - 1] && Subsequence(r[..|r| - 1], s[..|s| - 1])) || Subsequence(r, s[..|s| - 1])
  }

  /** Filtering leaves out entries and reorders none. */
  lemma {:induction false} FilterSubsequence<T(!new)>(s: seq<T>, p: T -> bool)
    ensures Subsequence(Filter(s, p), s)
    decreases |s|
  {
    if s != [] {
      var init := s[..|s| - 1];
      FilterSubsequence(init, p);
      if p(s[|s| - 1]) {
        var r := Filter(s, p);
        assert r[..|r| - 1] == Filter(init, p);
      }
    }
  }

  /** Two kept entries keep their relative order: the earlier one of `s` is also the earlier
      one of the filtered list. */
  lemma {:induction false} FilterPair<T(!new)>(s: seq<T>, p: T -> bool, i: nat, j: nat)
    requires i < j < |s| && p(s[i]) && p(s[j])
    ensures exists a, b :: 0 <= a < b < |Filter(s, p)| && Filter(s, p)[a] == s[i] && Filter(s, p)[b] == s[j]
    decreases |s|
  {
    var init := s[..|s| - 1];
    var rest := Filter(init, p);
    if j < |s| - 1 {
      FilterPair(init, p, i, j);
      var a, b :| 0 <= a < b < |rest| && rest[a] == init[i] && rest[b] == init[j];
      assert Filter(s, p)[a] == s[i] && Filter(s, p)[b] == s[j];
    } else {
      assert init[i] in rest;
      var a :| 0 <= a < |rest| && rest[a] == init[i];
      assert Filter(s, p) == rest + [s[j]];
      assert Filter(s, p)[a] == s[i] && Filter(s, p)[|rest|] == s[j];
    }
  }

  /** Each kept entry keeps its multiplicity; each dropped one disappears. */
  lemma {:induction false} FilterCount<T(!new)>(s: seq<T>, p: T -> bool)
    ensures forall x :: multiset(Filter(s, p))[x] == if p(x) then multiset(s)[x] else 0
    decreases |s|
  {
    if s != [] {
      assert s == s[..|s| - 1] + [s[|s| - 1]];
      FilterCount(s[..|s| - 1], p);
    }
  }

  /** Three filters whose predicates sort every entry exactly one way keep, together, every entry
      exactly as often as it occurs. */
  lemma FilterSplit3<T(!new)>(s: seq<T>, p: T -> bool, q: T -> bool, r: T -> bool)
    requires forall x :: (p(x) && !q(x) && !r(x)) || (!p(x) && q(x) && !r(x)) || (!p(x) && !q(x) && r(x))
    ensures multiset(Filter(s, p)) + multiset(Filter(s, q)) + multiset(Filter(s, r)) == multiset(s)
  {
    FilterCount(s, p);
    FilterCount(s, q);
    FilterCount(s, r);
    var sum := multiset(Filter(s, p)) + multiset(Filter(s, q)) + multiset(Filter(s, r));
    forall x ensures sum[x] == multiset(s)[x] {
      if p(x) {
      } else if q(x) {
      } else {
      }
    }
  }

  /** Filtering a one-entry list. */
  lemma FilterOne<T(!new)>(x: T, q: T -> bool)
    ensures Filter([x], q) == if q(x) then [x] else []
  {
    assert [x][..0] == [];
  }

  /** Filtering distributes over concatenation, so the kept entries keep their relative order. */
  lemma {:induction false} FilterAppend<T(!new)>(a: seq<T>, b: seq<T>, p: T -> bool)
    ensures Filter(a + b, p) == Filter(a, p) + Filter(b, p)
    decreases |b|
  {
    if b == [] {
      assert a + b == a;
    } else {
      var b' := b[..|b| - 1];
      assert (a + b)[..|a + b| - 1] == a + b';
      assert (a + b)[|a + b| - 1] == b[|b| - 1];
      FilterAppend(a, b', p);
    }
  }

  /** A filter that keeps everything is the identity. */
  lemma {:induction false} FilterAll<T(!new)>(s: seq<T>, p: T -> bool)
    requires forall x :: x in s ==> p(x)
    ensures Filter(s, p) == s
    decreases |s|
  {
    if s != [] {
      assert s == s[..|s| - 1] + [s[|s| - 1]];
      FilterAll(s[..|s| - 1], p);
    }
  }

  /** A filter that keeps nothing is empty. */
  lemma FilterNone<T(!new)>(s: seq<T>, p: T -> bool)
    requires forall x :: x in s ==> !p(x)
    ensures Filter(s, p) == []
  {
    if Filter(s, p) != [] {
      assert Filter(s, p)[0] in Filter(s, p);
    }
  }

  /** A filter that drops some entry shortens the list. */
  lemma {:induction false} FilterShrinks<T(!new)>(s: seq<T>, p: T -> bool, x: T)
    requires x in s && !p(x)
    ensures |Filter(s, p)| < |s|
    decreases |s|
  {
    var init := s[..|s| - 1];
    assert s == init + [s[|s| - 1]];
    if s[|s| - 1] != x {
      FilterShrinks(init, p, x);
    }
  }

  /** Filtering a list grown by one entry. */
  lemma FilterSnoc<T(!new)>(s: seq<T>, x: T, p: T -> bool)
    ensures Filter(s + [x], p) == if p(x) then Filter(s, p) + [x] else Filter(s, p)
  {
    assert (s + [x])[..|s + [x]| - 1] == s;
  }

  /** Filtering three blocks of which only the middle one passes keeps exactly that block. */
  lemma FilterMiddle<T(!new)>(a: seq<T>, b: seq<T>, c: seq<T>, p: T -> bool)
    requires forall x :: x in a ==> !p(x)
    requires forall x :: x in b ==> p(x)
    requires forall x :: x in c ==> !p(x)
    ensures Filter(a + b + c, p) == b
  {
    FilterNone(a, p);
    FilterAll(b, p);
    FilterNone(c, p);
    FilterAppend(a, b, p);
    assert Filter(a + b, p) == b;
    FilterAppend(a + b, c, p);
    assert b + [] == b;
  }

  /** Filtering three blocks of which only the first one passes keeps exactly that block. */
  lemma FilterFirst<T(!new)>(a: seq<T>, b: seq<T>, c: seq<T>, p: T -> bool)
    requires forall x :: x in a ==> p(x)
    requires forall x :: x in b ==> !p(x)
    requires forall x :: x in c ==> !p(x)
    ensures Filter(a + b + c, p) == a
  {
    FilterAll(a, p);
    FilterNone(b, p);
    FilterNone(c, p);
    FilterAppend(a, b, p);
    assert Filter(a + b, p) == a;
    FilterAppend(a + b, c, p);
    assert a + [] == a;
  }

  /** Filtering three blocks of which only the last one passes keeps exactly that block. */
  lemma FilterLast<T(!new)>(a: seq<T>, b: seq<T>, c: seq<T>, p: T -> bool)
    requires forall x :: x in a ==> !p(x)
    requires forall x :: x in b ==> !p(x)
    requires forall x :: x in c ==> p(x)
    ensures Filter(a + b + c, p) == c
  {
    FilterNone(a, p);
    FilterNone(b, p);
    FilterAll(c, p);
    FilterAppend(a, b, p);
    assert Filter(a + b, p) == [];
    FilterAppend(a + b, c, p);
    assert [] + c == c;
  }

  /** The filter is empty exactly when nothing passes, and keeps the whole list exactly when
      everything passes. */
  lemma FilterLength<T(!new)>(s: seq<T>, p: T -> bool)
    ensures |Filter(s, p)| == 0 <==> forall x :: x in s ==> !p(x)
    ensures |Filter(s, p)| == |s| <==> forall x :: x in s ==> p(x)
  {
    if |Filter(s, p)| == 0 {
      assert Filter(s, p) == [];
    } else {
      assert Filter(s, p)[0] in Filter(s, p);
    }
    if forall x :: x in s ==> p(x) {
      FilterAll(s, p);
    } else {
      var x :| x in s && !p(x);
      FilterShrinks(s, p, x);
    }
  }

  /** `s.map(x => key(x) === id ? f(x) : x)`: rewrite exactly the entries whose key is `id`. */
  function MapWhere<T>(s: seq<T>, key: T -> string, id: string, f: T -> T): (r: seq<T>)
    ensures |r| == |s|
    ensures forall i :: 0 <= i < |s| ==> r[i] == if key(s[i]) == id then f(s[i]) else s[i]
  {
    if s == [] then []
    else [if key(s[0]) == id then f(s[0]) else s[0]] + MapWhere(s[1..], key, id, f)
  }

  /** Rewriting with a key-preserving involution twice restores the list. */
  lemma MapWhereTwice<T(!new)>(s: seq<T>, key: T -> string, id: string, f: T -> T)
    requires forall x :: key(f(x)) == key(x) && f(f(x)) == x
    ensures MapWhere(MapWhere(s, key, id, f), key, id, f) == s
  {
  }

  /** The first entry satisfying `p`, if any (`Array.prototype.find`). */
  function Find<T(!new)>(s: seq<T>, p: T -> bool): (r: Option<T>)
    ensures r.Some? <==> exists x :: x in s && p(x)
    ensures r.Some? ==> r.value in s && p(r.value)
    ensures forall i :: 0 <= i < |s| && p(s[i]) ==> r.Some?
    ensures r.Some? ==> exists i :: 0 <= i < |s| && s[i] == r.value && forall j :: 0 <= j < i ==> !p(s[j])
  {
    if s == [] then None
    else if p(s[0]) then Some(s[0])
    else
      var r := Find(s[1..], p);
      assert r.Some? ==> exists i :: 0 <= i < |s| && s[i] == r.value && forall j :: 0 <= j < i ==> !p(s[j]) by {
        if r.Some? {
          var i :| 0 <= i < |s[1..]| && s[1..][i] == r.value && forall j :: 0 <= j < i ==> !p(s[1..][j]);
          assert s[i + 1] == r.value;
          forall j | 0 <= j < i + 1 ensures !p(s[j]) {
            if j > 0 { assert s[j] == s[1..][j - 1]; }
          }
        }
      }
      assert (exists x :: x in s && p(x)) ==> exists x :: x in s[1..] && p(x) by {
        if exists x :: x in s && p(x) {
          var x :| x in s && p(x);
          assert x != s[0];
          assert x in s[1..];
        }
      }
      r
  }

  /** Filtering keeps the relative order of the kept entries: a relation that holds between every
      earlier and later entry of `s` holds between every earlier and later entry of the result. */
  lemma {:induction false} FilterKeepsOrder<T(!new)>(s: seq<T>, p: T -> bool, before: (T, T) -> bool)
    requires forall i, j :: 0 <= i < j < |s| ==> before(s[i], s[j])
    ensures forall i, j :: 0 <= i < j < |Filter(s, p)| ==> before(Filter(s, p)[i], Filter(s, p)[j])
    decreases |s|
  {
    if s != [] {
      var init := s[..|s| - 1];
      var last := s[|s| - 1];
      FilterKeepsOrder(init, p, before);
      var rest := Filter(init, p);
      if p(last) {
        var r := Filter(s, p);
        assert r == rest + [last];
        forall i, j | 0 <= i < j < |r| ensures before(r[i], r[j]) {
          if j < |rest| {
            assert r[i] == rest[i] && r[j] == rest[j];
          } else {
            assert rest[i] in init;
            var k :| 0 <= k < |init| && init[k] == rest[i];
            assert s[k] == r[i] && s[|s| - 1] == r[j];
          }
        }
      }
    }
  }

  /** No entry occurs twice. */
  predicate NoDup<T(==)>(s: seq<T>) {
    forall i, j :: 0 <= i < j < |s| ==> s[i] != s[j]
  }

  /** The entries are pairwise distinct under `key`. */
  predicate KeysDistinct<T>(s: seq<T>, key: T -> string) {
    forall i, j :: 0 <= i < j < |s| ==> key(s[i]) != key(s[j])
  }

  /** In a list with distinct keys, the key determines the position. */
  lemma KeyDetermines<T>(s: seq<T>, key: T -> string, i: nat, j: nat)
    requires KeysDistinct(s, key)
    requires i < |s| && j < |s| && key(s[i]) == key(s[j])
    ensures i == j
  {
  }

  /** Filtering a list whose keys are distinct leaves them distinct. */
  lemma {:induction false} FilterKeysDistinct<T(!new)>(s: seq<T>, p: T -> bool, key: T -> string)
    requires KeysDistinct(s, key)
    ensures KeysDistinct(Filter(s, p), key)
    decreases |s|
  {
    if s != [] {
      var init := s[..|s| - 1];
      var last := s[|s| - 1];
      FilterKeysDistinct(init, p, key);
      var rest := Filter(init, p);
      if p(last) {
        forall i | 0 <= i < |rest| ensures key(rest[i]) != key(last) {
          assert rest[i] in init;
          var j :| 0 <= j < |init| && init[j] == rest[i];
          assert s[j] == rest[i];
        }
      }
    }
  }

  import opened Wrappers
}

=== FILE: sorting.dfy ===
/** A stable insertion sort over a caller-supplied comparison, standing in for
    `Array.prototype.sort` with a comparator. The comparison must be a total preorder,
    which every comparator of the application is (each is proved so where it is defined). */
module Sorting {

  import opened Seqs

  /** `le` is total and transitive: a comparator that `sort` can honour. */
  ghost predicate TotalPreorder<T(!new)>(le: (T, T) -> bool) {
    && (forall a, b :: le(a, b) || le(b, a))
    && (forall a, b, c :: le(a, b) && le(b, c) ==> le(a, c))
  }

  /** Every earlier entry is `le` every later one. */
  predicate SortedBy<T>(s: seq<T>, le: (T, T) -> bool) {
    forall i, j :: 0 <= i < j < |s| ==> le(s[i], s[j])
  }

  /** Insert `x` before the first entry strictly after it (after all its equals). */
  function Insert<T>(x: T, s: seq<T>, le: (T, T) -> bool): (r: seq<T>)
    ensures multiset(r) == multiset(s) + multiset{x}
    ensures |r| == |s| + 1
  {
    if s == [] then [x]
    else if !le(s[0], x) then [x] + s
    else
      assert s == [s[0]] + s[1..];
      [s[0]] + Insert(x, s[1..], le)
  }

  lemma SortedTail<T>(s: seq<T>, le: (T, T) -> bool)
    requires |s| > 0 && SortedBy(s, le)
    ensures SortedBy(s[1..], le)
  {
    forall i, j | 0 <= i < j < |s[1..]| ensures le(s[1..][i], s[1..][j]) {
      assert s[1..][i] == s[i + 1] && s[1..][j] == s[j + 1];
    }
  }

  /** Insertion keeps a sorted list sorted. */
  lemma {:induction false} InsertSorted<T(!new)>(x: T, s: seq<T>, le: (T, T) -> bool)
    requires TotalPreorder(le)
    requires SortedBy(s, le)
    ensures SortedBy(Insert(x, s, le), le)
    decreases |s|
  {
    var r := Insert(x, s, le);
    if s == [] {
    } else if !le(s[0], x) {
      assert le(x, s[0]);
      forall i, j | 0 <= i < j < |r| ensures le(r[i], r[j]) {
        if i == 0 {
          assert r[j] == s[j - 1];
          if j > 1 { assert le(s[0], s[j - 1]); }
        } else {
          assert r[i] == s[i - 1] && r[j] == s[j - 1];
        }
      }
    } else {
      var rest := Insert(x, s[1..], le);
      SortedTail(s, le);
      InsertSorted(x, s[1..], le);
      assert r == [s[0]] + rest;
      forall y | y in rest ensures le(s[0], y) {
        assert y in multiset(rest);
        if y != x {
          assert y in multiset(s[1..]);
          var k :| 0 <= k < |s[1..]| && s[1..][k] == y;
          assert s[k + 1] == y;
        }
      }
      forall i, j | 0 <= i < j < |r| ensures le(r[i], r[j]) {
        if i == 0 {
          assert r[j] == rest[j - 1];
          assert rest[j - 1] in rest;
        } else {
          assert r[i] == rest[i - 1] && r[j] == rest[j - 1];
        }
      }
    }
  }

  /** The entries `le` ranks level with `x`. */
  function Tied<T>(le: (T, T) -> bool, x: T): T -> bool {
    (y: T) => le(x, y) && le(y, x)
  }

  /** Entries that `le` ranks level appear in `r` in the order they have in `s`. */
  ghost predicate KeepsTies<T(!new)>(r: seq<T>, s: seq<T>, le: (T, T) -> bool) {
    forall x :: Filter(r, Tied(le, x)) == Filter(s, Tied(le, x))
  }

  /** A sorted list whose head must not precede `x` holds nothing that may precede `x`. */
  lemma NoneBefore<T(!new)>(x: T, s: seq<T>, le: (T, T) -> bool, q: T -> bool)
    requires TotalPreorder(le)
    requires SortedBy(s, le) && |s| > 0 && !le(s[0], x)
    requires forall y :: y in s && q(y) ==> le(y, x)
    ensures Filter(s, q) == []
  {
    forall y | y in s ensures !q(y) {
      var k :| 0 <= k < |s| && s[k] == y;
      if k > 0 { assert le(s[0], s[k]); }
    }
    FilterNone(s, q);
  }

  /** Filtering distributes over putting one entry in front. */
  lemma FilterCons<T(!new)>(x: T, s: seq<T>, q: T -> bool)
    ensures Filter([x] + s, q) == if q(x) then [x] + Filter(s, q) else Filter(s, q)
  {
    FilterOne(x, q);
    FilterAppend([x], s, q);
  }

  /** Putting the same head in front of two lists whose filters differ by a last `x` keeps
      that difference. */
  lemma FilterPastHead<T(!new)>(h: T, a: seq<T>, b: seq<T>, x: T, q: T -> bool)
    requires Filter(a, q) == if q(x) then Filter(b, q) + [x] else Filter(b, q)
    ensures Filter([h] + a, q) == if q(x) then Filter([h] + b, q) + [x] else Filter([h] + b, q)
  {
    FilterCons(h, a, q);
    FilterCons(h, b, q);
    if q(h) && q(x) {
      assert [h] + (Filter(b, q) + [x]) == ([h] + Filter(b, q)) + [x];
    }
  }

  /** Insertion places `x` after every entry of `s` it may follow, so among the entries `q`
      selects, `x` (when selected) comes last and the others keep their order. */
  lemma {:induction false} InsertFilter<T(!new)>(x: T, s: seq<T>, le: (T, T) -> bool, q: T -> bool)
    requires TotalPreorder(le)
    requires SortedBy(s, le)
    requires q(x) ==> forall y :: y in s && q(y) ==> le(y, x)
    ensures Filter(Insert(x, s, le), q) == if q(x) then Filter(s, q) + [x] else Filter(s, q)
    decreases |s|
  {
    if s == [] {
      FilterOne(x, q);
    } else if !le(s[0], x) {
      FilterCons(x, s, q);
      if q(x) {
        NoneBefore(x, s, le, q);
      }
    } else {
      InsertFilterStep(x, s, le, q);
    }
  }

  lemma InsertPastHead<T(!new)>(x: T, s: seq<T>, le: (T, T) -> bool)
    requires |s| > 0 && le(s[0], x)
    ensures Insert(x, s, le) == [s[0]] + Insert(x, s[1..], le)
    ensures s == [s[0]] + s[1..]
  {
  }

  /** The step of `InsertFilter` where `x` goes past the head of `s`. */
  lemma {:induction false} InsertFilterStep<T(!new)>(x: T, s: seq<T>, le: (T, T) -> bool, q: T -> bool)
    requires TotalPreorder(le)
    requires SortedBy(s, le) && |s| > 0 && le(s[0], x)
    requires q(x) ==> forall y :: y in s && q(y) ==> le(y, x)
    ensures Filter(Insert(x, s, le), q) == if q(x) then Filter(s, q) + [x] else Filter(s, q)
    decreases |s|, 0
  {
    var tail := s[1..];
    SortedTail(s, le);
    assert forall y :: y in tail ==> y in s;
    InsertFilter(x, tail, le, q);
    var ins := Insert(x, tail, le);
    InsertPastHead(x, s, le);
    FilterPastHead(s[0], ins, tail, x, q);
  }

  /** Inserting the last entry into the stable sort of the others is a stable sort of all. */
  lemma InsertKeepsTies<T(!new)>(prefix: seq<T>, last: T, sorted: seq<T>, le: (T, T) -> bool)
    requires TotalPreorder(le)
    requires SortedBy(sorted, le)
    requires multiset(sorted) == multiset(prefix)
    requires KeepsTies(sorted, prefix, le)
    ensures KeepsTies(Insert(last, sorted, le), prefix + [last], le)
  {
    forall x ensures Filter(Insert(last, sorted, le), Tied(le, x)) == Filter(prefix + [last], Tied(le, x)) {
      var q := Tied(le, x);
      InsertFilter(last, sorted, le, q);
      FilterSnoc(prefix, last, q);
    }
  }

  /** Sort `s` by `le`: a sorted permutation of the input in which entries `le` ranks level
      keep their input order, as the stable `Array.prototype.sort` keeps them. */
  function Sort<T(!new)>(s: seq<T>, le: (T, T) -> bool): (r: seq<T>)
    requires TotalPreorder(le)
    ensures SortedBy(r, le)
    ensures multiset(r) == multiset(s)
    ensures |r| == |s|
    ensures KeepsTies(r, s, le)
  {
    if s == [] then []
    else
      assert s == s[..|s| - 1] + [s[|s| - 1]];
      var prefix := Sort(s[..|s| - 1], le);
      InsertSorted(s[|s| - 1], prefix, le);
      InsertKeepsTies(s[..|s| - 1], s[|s| - 1], prefix, le);
      Insert(s[|s| - 1], prefix, le)
  }

  /** In a stable sort, two entries ranked level appear in the result in an order the input
      already had: any relation `before` that holds along `s` holds between them. */
  lemma TiesInInputOrder<T(!new)>(r: seq<T>, s: seq<T>, le: (T, T) -> bool, before: (T, T) -> bool, i: nat, j: nat)
    requires TotalPreorder(le)
    requires KeepsTies(r, s, le)
    requires forall a, b :: 0 <= a < b < |s| ==> before(s[a], s[b])
    requires i < j < |r| && le(r[i], r[j]) && le(r[j], r[i])
    ensures before(r[i], r[j])
  {
    var q := Tied(le, r[i]);
    assert le(r[i], r[i]);
    FilterPair(r, q, i, j);
    FilterKeepsOrder(s, q, before);
    assert Filter(r, q) == Filter(s, q);
  }

  /** Sorting keeps exactly the entries it was given. */
  lemma SortMembers<T(!new)>(s: seq<T>, le: (T, T) -> bool)
    requires TotalPreorder(le)
    ensures forall x :: x in Sort(s, le) <==> x in s
  {
    var r := Sort(s, le);
    forall x ensures x in r <==> x in s {
      assert x in r <==> x in multiset(r);
      assert x in s <==> x in multiset(s);
    }
  }
}

=== FILE: status_history.dfy ===
/** The generic status-history hook (src/hooks/useStatusHistory.ts): building an entry for a
    trackable entity and formatting it as one line of text. */
module StatusHistory {

  import opened Wrappers

  datatype EntityKind = TaskEntity | PlanEntity

  /** An entry of src/types/StatusHistory.ts; statuses are raw strings there. */
  datatype HistoryEntry = HistoryEntry(
    id: string,
    entityId: string,
    entityType: EntityKind,
    fromStatus: string,
    toStatus: string,
    timestamp: int,
    automatic: bool,
    message: Option<string>,
    systemNotes: Option<string>,
    userId: Option<string>)

  datatype Trackable = Trackable(id: string, status: string, statusHistory: seq<HistoryEntry>)

  /** The optional `options` bag; `None` stands for a missing key. */
  datatype HistoryOptions = HistoryOptions(
    automatic: Option<bool>,
    message: Option<string>,
    systemNotes: Option<string>,
    userId: Option<string>)

  const NoOptions := HistoryOptions(None, None, None, None)

  /** `addHistoryEntry(entity, newStatus, options)` with entry id `newId`, at instant `now`. */
  function AddHistoryEntry(entity: Trackable, newStatus: string, options: HistoryOptions, newId: string, now: int)
    : (e: HistoryEntry)
    ensures e.id == newId && e.timestamp == now
    ensures e.entityId == entity.id && e.fromStatus == entity.status && e.toStatus == newStatus
    ensures e.entityType == TaskEntity
    ensures e.automatic <==> options.automatic == Some(true)
    ensures e.message == options.message && e.systemNotes == options.systemNotes && e.userId == options.userId
  {
    HistoryEntry(newId, entity.id, TaskEntity, entity.status, newStatus, now,
                 options.automatic.GetOr(false), options.message, options.systemNotes, options.userId)
  }

  /** Without options the entry is manual and carries no message, notes or user. */
  lemma AddHistoryEntryDefaults(entity: Trackable, newStatus: string, newId: string, now: int)
    ensures !AddHistoryEntry(entity, newStatus, NoOptions, newId, now).automatic
    ensures AddHistoryEntry(entity, newStatus, NoOptions, newId, now).message.None?
    ensures AddHistoryEntry(entity, newStatus, NoOptions, newId, now).userId.None?
  {
  }

  const AutomaticTag := " [Automático]"
  const Arrow := " → "

  /** The head of a formatted line: the locale-formatted date, the statuses and the arrow. */
  function Head(date: string, e: HistoryEntry): string {
    date + " - " + e.fromStatus + Arrow + e.toStatus
  }

  /** `formatHistoryEntry(entry)`, where `date` is the locale rendering of the entry's instant. */
  function FormatHistoryEntry(e: HistoryEntry, date: string): (r: string)
    ensures |r| >= |Head(date, e)| && r[..|Head(date, e)|] == Head(date, e)
    ensures |r| == |Head(date, e)| + (if e.automatic then |AutomaticTag| else 0)
                   + (if Truthy(e.message) then 2 + |e.message.value| else 0)
    ensures e.automatic ==> r[|Head(date, e)|..][..|AutomaticTag|] == AutomaticTag
    ensures Truthy(e.message) ==> r[|r| - |e.message.value|..] == e.message.value
  {
    var line := Head(date, e);
    var line := if e.automatic then line + AutomaticTag else line;
    if Truthy(e.message) then line + ": " + e.message.value else line
  }

  /** The tag and the message can be read back from a formatted line once its head is known:
      the tag is present iff the entry is automatic, a message follows iff it is non-empty, and
      it is recovered exactly. */
  lemma FormatHistoryEntryDecodes(e: HistoryEntry, date: string)
    ensures var r := FormatHistoryEntry(e, date); var h := |Head(date, e)|;
            e.automatic <==> (|r| >= h + |AutomaticTag| && r[h..h + |AutomaticTag|] == AutomaticTag)
    ensures var r := FormatHistoryEntry(e, date); var h := |Head(date, e)| + (if e.automatic then |AutomaticTag| else 0);
            && (Truthy(e.message) <==> |r| > h)
            && (Truthy(e.message) ==> r[h..h + 2] == ": " && r[h + 2..] == e.message.value)
  {
    var r := FormatHistoryEntry(e, date);
    var h := |Head(date, e)|;
    if !e.automatic && Truthy(e.message) {
      assert r[h] == ':';
      assert AutomaticTag[0] == ' ';
    }
  }
}

=== FILE: status_logs.dfy ===
/** The audit-log entry embedded in tasks and action plans (src/types/StatusLog.ts),
    generic over the owning entity's status enumeration. */
module StatusLogs {

  import opened Wrappers

  /** A stored timestamp: an instant in milliseconds, or a value that does not parse as a date. */
  datatype Instant = At(ms: int) | Unparseable

  datatype StatusLog<S> = StatusLog(
    id: string,
    taskId: string,
    fromStatus: S,
    toStatus: S,
    justification: Option<string>,
    timestamp: Instant,
    automatic: bool,
    systemNotes: Option<string>,
    userId: Option<string>,
    userName: Option<string>)

  /** The note the log constructors attach to automatic entries. */
  const SystemChangeNote := "[Alteração automática pelo sistema]"

  /** The note the deadline monitors attach to the entries they append. */
  const DeadlineExceededNote := "Status alterado automaticamente - Prazo excedido"

  /** The log tells the status history without gaps: each entry starts where the previous
      one ended, and the last one ends at the entity's current status. */
  predicate Chained<S(==)>(logs: seq<StatusLog<S>>, status: S) {
    && (forall k :: 0 <= k < |logs| - 1 ==> logs[k].toStatus == logs[k + 1].fromStatus)
    && (|logs| > 0 ==> logs[|logs| - 1].toStatus == status)
  }

  /** Appending an entry that starts at the current status keeps the history chained,
      and the entity moves to the entry's target. */
  lemma ChainedAppend<S>(logs: seq<StatusLog<S>>, status: S, entry: StatusLog<S>)
    requires Chained(logs, status)
    requires entry.fromStatus == status
    ensures Chained(logs + [entry], entry.toStatus)
  {
  }
}

=== FILE: status_tracking.dfy ===
/** `trackStatusChange` (src/hooks/useStatusTracking.ts): builds a log entry for a change of any entity. */
module StatusTracking {

  import opened Wrappers
  import opened StatusLogs

  /** The log for a change of `entityId` from `fromStatus` to `toStatus`, with a fresh id and the
      current instant. `automatic` is false unless the caller says otherwise. */
  function TrackStatusChange<S>(entityId: string, fromStatus: S, toStatus: S, justification: Option<string>,
                                freshId: string, now: int, automatic: bool := false): (log: StatusLog<S>)
    ensures log.taskId == entityId && log.id == freshId && log.timestamp == At(now)
    ensures log.fromStatus == fromStatus && log.toStatus == toStatus
    ensures log.justification == justification
    ensures log.automatic == automatic
    ensures log.systemNotes.Some? <==> automatic
    ensures log.systemNotes.Some? ==> log.systemNotes.value == SystemChangeNote
    ensures log.userId.None? && log.userName.None?
  {
    StatusLog(freshId, entityId, fromStatus, toStatus, justification, At(now), automatic,
              if automatic then Some(SystemChangeNote) else None, None, None)
  }

  /** Without an explicit flag the entry is a manual one and carries no system note. */
  lemma ManualByDefault<S>(entityId: string, fromStatus: S, toStatus: S, justification: Option<string>, freshId: string, now: int)
    ensures !TrackStatusChange(entityId, fromStatus, toStatus, justification, freshId, now).automatic
    ensures TrackStatusChange(entityId, fromStatus, toStatus, justification, freshId, now).systemNotes.None?
  {
  }
}

=== FILE: task_history_view.dfy ===
/** The pooled status history of src/components/tasks/TaskStatusHistory.tsx: every task's log
    entries tagged with the task's name, newest first, and the fields each card shows. */
module TaskHistoryView {

  import opened Wrappers
  import opened StatusLogs
  import opened Entities
  import opened Sorting
  import TS = TaskStatusConfig

  /** A log entry together with the name of the task that owns it. */
  datatype Pooled = Pooled(log: TaskLog, taskName: string)

  function Tagged(t: Task): (r: seq<Pooled>)
    ensures |r| == |t.statusLogs|
    ensures forall k :: 0 <= k < |r| ==> r[k] == Pooled(t.statusLogs[k], t.name)
  {
    seq(|t.statusLogs|, k requires 0 <= k < |t.statusLogs| => Pooled(t.statusLogs[k], t.name))
  }

  /** `tasks.flatMap(task => task.statusLogs.map(log => ({ ...log, taskName: task.name })))`. */
  function Pool(tasks: seq<Task>): (r: seq<Pooled>)
    ensures |r| == LogCount(tasks)
  {
    if tasks == [] then [] else Tagged(tasks[0]) + Pool(tasks[1..])
  }

  /** The number of log entries over all tasks. */
  function LogCount(tasks: seq<Task>): nat {
    if tasks == [] then 0 else |tasks[0].statusLogs| + LogCount(tasks[1..])
  }

  /** Pooling distributes over concatenation of task lists. */
  lemma {:induction false} PoolAppend(a: seq<Task>, b: seq<Task>)
    ensures Pool(a + b) == Pool(a) + Pool(b)
    decreases |a|
  {
    if a == [] {
      assert a + b == b;
    } else {
      assert (a + b)[1..] == a[1..] + b;
      PoolAppend(a[1..], b);
    }
  }

  /** An entry is pooled iff some task holds its log entry, and it carries that task's name. */
  lemma {:induction false} PoolMembers(tasks: seq<Task>, p: Pooled)
    ensures p in Pool(tasks) <==>
            exists i, k :: 0 <= i < |tasks| && 0 <= k < |tasks[i].statusLogs|
                           && tasks[i].statusLogs[k] == p.log && tasks[i].name == p.taskName
    decreases |tasks|
  {
    if tasks != [] {
      PoolMembers(tasks[1..], p);
      if p in Pool(tasks) {
        if p in Tagged(tasks[0]) {
          var k :| 0 <= k < |Tagged(tasks[0])| && Tagged(tasks[0])[k] == p;
          assert tasks[0].statusLogs[k] == p.log;
        } else {
          var i, k :| 0 <= i < |tasks[1..]| && 0 <= k < |tasks[1..][i].statusLogs|
                      && tasks[1..][i].statusLogs[k] == p.log && tasks[1..][i].name == p.taskName;
          assert tasks[i + 1] == tasks[1..][i];
        }
      } else {
        forall i, k | 0 <= i < |tasks| && 0 <= k < |tasks[i].statusLogs|
          ensures tasks[i].statusLogs[k] != p.log || tasks[i].name != p.taskName
        {
          if i == 0 {
            assert Tagged(tasks[0])[k] in Pool(tasks);
          } else {
            assert tasks[i] == tasks[1..][i - 1];
          }
        }
      }
    }
  }

  /** The sort key: the instant of a parseable timestamp; an unparseable one sorts after every date. */
  predicate NewerOrSame(a: Pooled, b: Pooled) {
    match (a.log.timestamp, b.log.timestamp)
    case (At(x), At(y)) => x >= y
    case (At(_), Unparseable) => true
    case (Unparseable, At(_)) => false
    case (Unparseable, Unparseable) => true
  }

  lemma NewerOrSameIsPreorder()
    ensures TotalPreorder(NewerOrSame)
  {
  }

  /** The pooled entries, newest first; entries with the same timestamp keep their pool order. */
  function History(tasks: seq<Task>): (r: seq<Pooled>)
    ensures multiset(r) == multiset(Pool(tasks))
    ensures forall i, j :: 0 <= i < j < |r| && r[i].log.timestamp.At? && r[j].log.timestamp.At? ==>
              r[i].log.timestamp.ms >= r[j].log.timestamp.ms
    ensures KeepsTies(r, Pool(tasks), NewerOrSame)
  {
    NewerOrSameIsPreorder();
    var r := Sort(Pool(tasks), NewerOrSame);
    assert forall i, j :: 0 <= i < j < |r| ==> NewerOrSame(r[i], r[j]);
    r
  }

  const EmptyMessage := "Nenhuma alteração de status registrada."
  const InvalidDate := "Data inválida"
  const AutomaticBadge := "Automático"

  /** The date shown on a card: the locale rendering of an instant, or the invalid-date text. */
  datatype DateText = Formatted(ms: int) | Text(text: string)

  /** The fields a card shows; optional lines are `Some` iff the entry's field is non-empty. */
  datatype Card = Card(
    id: string,
    taskName: string,
    date: DateText,
    fromLabel: string,
    toLabel: string,
    badge: Option<string>,
    justification: Option<string>,
    systemNotes: Option<string>,
    changedBy: Option<string>)

  function Shown(s: Option<string>): (r: Option<string>)
    ensures r.Some? <==> Truthy(s)
    ensures r.Some? ==> r == s
  {
    if Truthy(s) then s else None
  }

  function RenderCard(p: Pooled): (c: Card)
    ensures c.id == p.log.id && c.taskName == p.taskName
    ensures c.date == (if p.log.timestamp.At? then Formatted(p.log.timestamp.ms) else Text(InvalidDate))
    ensures c.fromLabel == TS.Label(p.log.fromStatus) && c.toLabel == TS.Label(p.log.toStatus)
    ensures c.badge.Some? <==> p.log.automatic
    ensures c.justification.Some? <==> Truthy(p.log.justification)
    ensures c.systemNotes.Some? <==> Truthy(p.log.systemNotes)
    ensures c.changedBy.Some? <==> Truthy(p.log.userName)
    ensures c.badge == if p.log.automatic then Some(AutomaticBadge) else None
    ensures c.justification.Some? ==> c.justification == p.log.justification
    ensures c.systemNotes.Some? ==> c.systemNotes == p.log.systemNotes
    ensures c.changedBy.Some? ==> c.changedBy == p.log.userName
  {
    Card(p.log.id, p.taskName,
         if p.log.timestamp.At? then Formatted(p.log.timestamp.ms) else Text(InvalidDate),
         TS.Label(p.log.fromStatus), TS.Label(p.log.toStatus),
         if p.log.automatic then Some(AutomaticBadge) else None,
         Shown(p.log.justification), Shown(p.log.systemNotes), Shown(p.log.userName))
  }

  datatype View = Empty(message: string) | Cards(cards: seq<Card>)

  /** What the component renders for `tasks`. */
  function Render(tasks: seq<Task>): (v: View)
    ensures v.Empty? <==> LogCount(tasks) == 0
    ensures v.Empty? ==> v.message == EmptyMessage
    ensures v.Cards? ==> |v.cards| == LogCount(tasks)
    ensures v.Cards? ==> forall i :: 0 <= i < |v.cards| ==> v.cards[i] == RenderCard(History(tasks)[i])
  {
    var h := History(tasks);
    assert |h| == |multiset(h)| == |multiset(Pool(tasks))| == |Pool(tasks)|;
    if h == [] then Empty(EmptyMessage)
    else Cards(seq(|h|, i requires 0 <= i < |h| => RenderCard(h[i])))
  }

  /** A task without log entries adds nothing to the view. */
  lemma SilentTaskAddsNothing(tasks: seq<Task>, t: Task)
    requires t.statusLogs == []
    ensures Pool(tasks + [t]) == Pool(tasks)
  {
    PoolAppend(tasks, [t]);
    assert [t][1..] == [];
  }
}

=== FILE: task_monitor.dfy ===
/** The task deadline monitor (src/services/TaskMonitoringService.ts): each check takes a snapshot
    of the tasks and sends every overdue, unfinished one to `delayed` through the store's
    `updateTask`, appending an automatic log entry. */
module TaskMonitor {

  import opened Wrappers
  import opened Seqs
  import opened StatusLogs
  import opened Entities
  import opened DeadlineSweep
  import TS = TaskStatusConfig
  import TaskStore
  import MonitorTimer

  /** The condition of the check: past the end date and neither completed nor already delayed. */
  predicate Overdue(t: Task, now: int) {
    now > t.endDate && t.status != TS.Completed && t.status != TS.Delayed
  }

  function OverdueAt(now: int): Task -> bool {
    (t: Task) => Overdue(t, now)
  }

  /** The automatic entry recorded for an overdue task. */
  function DelayLog(t: Task, logId: Id, now: int): (log: TaskLog)
    ensures log.taskId == t.id && log.fromStatus == t.status && log.toStatus == TS.Delayed
    ensures log.automatic && log.systemNotes == Some(DeadlineExceededNote)
    ensures log.justification.None? && log.userId.None? && log.userName.None?
  {
    StatusLog(logId, t.id, t.status, TS.Delayed, None, At(now), true, Some(DeadlineExceededNote), None, None)
  }

  /** The update sent for an overdue task: once merged into the task, it is delayed, its log has
      one more entry leaving its old status, and nothing else but the time stamp changes. */
  function DelayPatch(t: Task, logId: Id, now: int): (p: TaskPatch)
    ensures MergeTask(t, p) == t.(status := TS.Delayed, statusLogs := t.statusLogs + [DelayLog(t, logId, now)], updatedAt := now)
    ensures forall other: Task :: MergeTask(other, p).status == TS.Delayed && MergeTask(other, p).endDate == other.endDate
  {
    TaskPatch(None, None, None, Some(TS.Delayed), Some(t.statusLogs + [DelayLog(t, logId, now)]), None, Some(now))
  }

  function Build(now: int): (Task, Id) -> TaskPatch {
    (t: Task, logId: Id) => DelayPatch(t, logId, now)
  }

  function StoreUpdate(now: int): TaskPatch -> Task -> Task {
    (p: TaskPatch) => TaskStore.Stamped(p, now)
  }

  /** `checkTasks`: the updates of one check over the snapshot `tasks`: one per overdue task, in
      snapshot order, the k-th built with the k-th fresh log id. */
  function CheckTasks(tasks: seq<Task>, now: int, freshId: nat -> Id): (us: seq<Update<TaskPatch>>)
    ensures |us| == |Filter(tasks, OverdueAt(now))|
    ensures forall k :: 0 <= k < |us| ==>
              us[k] == Update(Filter(tasks, OverdueAt(now))[k].id, DelayPatch(Filter(tasks, OverdueAt(now))[k], freshId(k), now))
  {
    Sweep(tasks, OverdueAt(now), Build(now), TaskId, freshId)
  }

  /** The updates handed to the store's `updateTask` one after another. */
  function ApplyUpdates(tasks: seq<Task>, us: seq<Update<TaskPatch>>, now: int): seq<Task> {
    Apply(tasks, us, StoreUpdate(now), TaskId)
  }

  /** Applying a batch is the store's `updateTask` for the first update, then the rest. */
  lemma ApplyIsStoreUpdate(tasks: seq<Task>, u: Update<TaskPatch>, rest: seq<Update<TaskPatch>>, now: int)
    ensures ApplyUpdates(tasks, [u] + rest, now) == ApplyUpdates(TaskStore.UpdateTask(tasks, u.id, u.patch, now), rest, now)
  {
    assert ([u] + rest)[1..] == rest;
  }

  /** Every update of a check names an overdue task of the snapshot. */
  lemma CheckTasksSound(tasks: seq<Task>, now: int, freshId: nat -> Id, k: nat)
    requires k < |CheckTasks(tasks, now, freshId)|
    ensures exists i :: 0 <= i < |tasks| && Overdue(tasks[i], now) && CheckTasks(tasks, now, freshId)[k].id == tasks[i].id
  {
    SweepSound(tasks, OverdueAt(now), Build(now), TaskId, freshId, k);
    var i :| 0 <= i < |tasks| && OverdueAt(now)(tasks[i]) && CheckTasks(tasks, now, freshId)[k].id == TaskId(tasks[i]);
    assert Overdue(tasks[i], now);
  }

  /** Every overdue task of the snapshot gets the delay update built from it. */
  lemma CheckTasksComplete(tasks: seq<Task>, now: int, freshId: nat -> Id, i: nat)
    requires i < |tasks| && Overdue(tasks[i], now)
    ensures exists k :: 0 <= k < |CheckTasks(tasks, now, freshId)|
              && CheckTasks(tasks, now, freshId)[k] == Update(tasks[i].id, DelayPatch(tasks[i], freshId(k), now))
  {
    SweepComplete(tasks, OverdueAt(now), Build(now), TaskId, freshId, i);
    var k :| 0 <= k < |CheckTasks(tasks, now, freshId)|
             && CheckTasks(tasks, now, freshId)[k] == Update(tasks[i].id, Build(now)(tasks[i], freshId(k)));
    assert Build(now)(tasks[i], freshId(k)) == DelayPatch(tasks[i], freshId(k), now);
  }

  lemma StoreUpdateCures(now: int)
    ensures KeepsKey(StoreUpdate(now), TaskId)
    ensures Cures(Build(now), StoreUpdate(now), OverdueAt(now))
  {
    forall d: Task, x: Id, e: Task ensures !OverdueAt(now)(StoreUpdate(now)(Build(now)(d, x))(e)) {
      assert MergeTask(e, DelayPatch(d, x, now)).status == TS.Delayed;
    }
  }

  /** A second check right after the first finds nothing to do. */
  lemma CheckTasksIdempotent(tasks: seq<Task>, now: int, freshId: nat -> Id, laterIds: nat -> Id)
    ensures CheckTasks(ApplyUpdates(tasks, CheckTasks(tasks, now, freshId), now), now, laterIds) == []
  {
    StoreUpdateCures(now);
    SweepIdempotent(tasks, OverdueAt(now), Build(now), TaskId, freshId, StoreUpdate(now), laterIds);
  }

  /** With distinct task ids, a check leaves every task that is not overdue as it was, and turns
      every overdue one into a delayed task whose log gains exactly one automatic entry leaving
      the status it had. */
  lemma CheckTasksEffect(tasks: seq<Task>, now: int, freshId: nat -> Id, i: nat)
    requires KeysDistinct(tasks, TaskId)
    requires i < |tasks|
    ensures !Overdue(tasks[i], now) ==> ApplyUpdates(tasks, CheckTasks(tasks, now, freshId), now)[i] == tasks[i]
    ensures Overdue(tasks[i], now) ==> exists k ::
              ApplyUpdates(tasks, CheckTasks(tasks, now, freshId), now)[i]
              == tasks[i].(status := TS.Delayed, statusLogs := tasks[i].statusLogs + [DelayLog(tasks[i], freshId(k), now)], updatedAt := now)
  {
    StoreUpdateCures(now);
    SweepEffect(tasks, OverdueAt(now), Build(now), TaskId, freshId, StoreUpdate(now), i);
    if Overdue(tasks[i], now) {
      var k :| ApplyUpdates(tasks, CheckTasks(tasks, now, freshId), now)[i]
               == StoreUpdate(now)(Build(now)(tasks[i], freshId(k)))(tasks[i]);
      assert StoreUpdate(now)(Build(now)(tasks[i], freshId(k)))(tasks[i])
             == MergeTask(tasks[i], DelayPatch(tasks[i], freshId(k), now)).(updatedAt := now);
    }
  }

  /** With distinct task ids, a gap-free history stays gap-free through a check. */
  lemma CheckTasksKeepsHistoryChained(tasks: seq<Task>, now: int, freshId: nat -> Id, i: nat)
    requires KeysDistinct(tasks, TaskId)
    requires i < |tasks| && Chained(tasks[i].statusLogs, tasks[i].status)
    ensures Chained(ApplyUpdates(tasks, CheckTasks(tasks, now, freshId), now)[i].statusLogs,
                    ApplyUpdates(tasks, CheckTasks(tasks, now, freshId), now)[i].status)
  {
    CheckTasksEffect(tasks, now, freshId, i);
    if Overdue(tasks[i], now) {
      var k :| ApplyUpdates(tasks, CheckTasks(tasks, now, freshId), now)[i]
               == tasks[i].(status := TS.Delayed, statusLogs := tasks[i].statusLogs + [DelayLog(tasks[i], freshId(k), now)], updatedAt := now);
      ChainedAppend(tasks[i].statusLogs, tasks[i].status, DelayLog(tasks[i], freshId(k), now));
    }
  }

  /** The monitor writes transitions the table forbids: an overdue task that never started is
      delayed, although `delayed` is not in its row. */
  lemma MonitorBypassesTable(t: Task, now: int, freshId: nat -> Id)
    requires t.status == TS.NotStarted && now > t.endDate
    ensures CheckTasks([t], now, freshId) == [Update(t.id, DelayPatch(t, freshId(0), now))]
    ensures TS.Delayed !in TS.Transitions(t.status)
    ensures !TS.ValidateStatusChange(t.status, TS.Delayed, t.startDate, t.endDate, now).valid
  {
    assert [t][..0] == [];
  }

  /** The state `startMonitoring` leaves behind: the timer, and the updates of the immediate check. */
  datatype Started = Started(timer: MonitorTimer.Timer, updates: seq<Update<TaskPatch>>)

  /** `startMonitoring`: cancel the previous interval, check once at once, arm the next interval. */
  function StartMonitoring(timer: MonitorTimer.Timer, tasks: seq<Task>, now: int, freshId: nat -> Id, handle: nat): (s: Started)
    ensures s.updates == CheckTasks(tasks, now, freshId)
    ensures s.timer.intervalId == Some(handle)
    ensures MonitorTimer.Tracked(timer) && handle != 0 ==> s.timer.armed == {handle}
  {
    Started(MonitorTimer.Start(timer, handle), CheckTasks(tasks, now, freshId))
  }
}

=== FILE: task_service.dfy ===
/** The task service (src/services/taskService.ts) over an abstract document repository, its
    in-memory cache and a counter of `taskStatusChanged` notifications. */
module TaskService {

  import opened Wrappers
  import opened Seqs
  import opened StatusLogs
  import opened Entities
  import TS = TaskStatusConfig

  /** `CACHE_DURATION`: five minutes in milliseconds. */
  const CacheDuration: int := 5 * 60 * 1000

  const NotFoundMessage := "Task not found"

  /** A stored task document: its status and log may be missing. */
  datatype TaskDoc = TaskDoc(
    name: string,
    startDate: int,
    endDate: int,
    assigneeId: Id,
    actionPlanId: Id,
    status: Option<TS.TaskStatus>,
    statusLogs: Option<seq<TaskLog>>,
    active: bool,
    updatedAt: int)

  datatype Cache = Cache(data: seq<Task>, timestamp: int)

  /** The repository, the cache, and how many status-change notifications were sent. */
  datatype Service = Service(repo: map<Id, TaskDoc>, cache: Option<Cache>, events: nat)

  datatype Reply<T> = Ok(value: T) | Failure(message: string)

  datatype Step<T> = Step(reply: Reply<T>, next: Service)

  /** `{ id, ...data, status: data.status || 'not_started', statusLogs: data.statusLogs || [] }`. */
  function Normalize(id: Id, d: TaskDoc): (t: Task)
    ensures t.id == id
    ensures d.status.Some? ==> t.status == d.status.value
    ensures d.status.None? ==> t.status == TS.NotStarted
    ensures d.statusLogs.Some? ==> t.statusLogs == d.statusLogs.value
    ensures d.statusLogs.None? ==> t.statusLogs == []
    ensures t.name == d.name && t.startDate == d.startDate && t.endDate == d.endDate
    ensures t.assigneeId == d.assigneeId && t.actionPlanId == d.actionPlanId
    ensures t.active == d.active && t.updatedAt == d.updatedAt
  {
    Task(id, d.name, d.startDate, d.endDate, d.assigneeId, d.actionPlanId,
         d.status.GetOr(TS.NotStarted), d.statusLogs.GetOr([]), d.active, d.updatedAt)
  }

  /** The cache is served while younger than the cache duration. */
  predicate Fresh(c: Option<Cache>, now: int) {
    c.Some? && now - c.value.timestamp < CacheDuration
  }

  /** `getAllTasks` at instant `now`; `listing` is the order in which the repository returns its
      documents. */
  function GetAllTasks(s: Service, now: int, listing: seq<Id>): (st: Step<seq<Task>>)
    requires forall k :: 0 <= k < |listing| ==> listing[k] in s.repo
    ensures Fresh(s.cache, now) ==> st == Step(Ok(s.cache.value.data), s)
    ensures !Fresh(s.cache, now) ==>
              && st.reply.Ok?
              && |st.reply.value| == |listing|
              && st.next == s.(cache := Some(Cache(st.reply.value, now)))
    ensures !Fresh(s.cache, now) ==> forall k :: 0 <= k < |listing| ==>
              && st.reply.value[k].id == listing[k]
              && st.reply.value[k].status == s.repo[listing[k]].status.GetOr(TS.NotStarted)
              && st.reply.value[k].statusLogs == s.repo[listing[k]].statusLogs.GetOr([])
              && st.reply.value[k].name == s.repo[listing[k]].name
              && st.reply.value[k].startDate == s.repo[listing[k]].startDate
              && st.reply.value[k].endDate == s.repo[listing[k]].endDate
              && st.reply.value[k].assigneeId == s.repo[listing[k]].assigneeId
              && st.reply.value[k].actionPlanId == s.repo[listing[k]].actionPlanId
              && st.reply.value[k].active == s.repo[listing[k]].active
              && st.reply.value[k].updatedAt == s.repo[listing[k]].updatedAt
  {
    if Fresh(s.cache, now) then Step(Ok(s.cache.value.data), s)
    else
      var tasks := seq(|listing|, k requires 0 <= k < |listing| => Normalize(listing[k], s.repo[listing[k]]));
      Step(Ok(tasks), s.(cache := Some(Cache(tasks, now))))
  }

  /** A fetch is served from the cache, unchanged, by every later call within the cache duration,
      and fetched again once the duration has passed. */
  lemma CacheServesWithinWindow(s: Service, now: int, later: int, listing: seq<Id>, relisting: seq<Id>)
    requires forall k :: 0 <= k < |listing| ==> listing[k] in s.repo
    requires !Fresh(s.cache, now)
    requires forall k :: 0 <= k < |relisting| ==> relisting[k] in s.repo
    ensures later - now < CacheDuration ==>
              GetAllTasks(GetAllTasks(s, now, listing).next, later, relisting)
              == Step(GetAllTasks(s, now, listing).reply, GetAllTasks(s, now, listing).next)
    ensures later - now >= CacheDuration ==>
              GetAllTasks(GetAllTasks(s, now, listing).next, later, relisting).next.cache.value.timestamp == later
  {
  }

  /** The input of `createTask`: a task without id, whose status and log may be missing. */
  datatype NewTask = NewTask(
    name: string,
    startDate: int,
    endDate: int,
    assigneeId: Id,
    actionPlanId: Id,
    status: Option<TS.TaskStatus>,
    statusLogs: Option<seq<TaskLog>>,
    active: bool)

  /** `createTask`: store the document under the repository's fresh id `newId`, with status and
      log defaulted and `active` forced on, and append the new task to a present cache. */
  function CreateTask(s: Service, input: NewTask, newId: Id, now: int): (st: Step<Task>)
    requires newId !in s.repo
    ensures st.reply.Ok?
    ensures st.reply.value.id == newId && st.reply.value.active
    ensures st.reply.value.status == input.status.GetOr(TS.NotStarted)
    ensures st.reply.value.statusLogs == input.statusLogs.GetOr([])
    ensures st.reply.value.name == input.name && st.reply.value.endDate == input.endDate
    ensures st.reply.value.startDate == input.startDate && st.reply.value.assigneeId == input.assigneeId
    ensures st.reply.value.actionPlanId == input.actionPlanId && st.reply.value.updatedAt == now
    ensures newId in st.next.repo && Normalize(newId, st.next.repo[newId]) == st.reply.value
    ensures forall id :: id != newId ==> (id in st.next.repo <==> id in s.repo)
    ensures forall id :: id in s.repo ==> st.next.repo[id] == s.repo[id]
    ensures st.next.cache.Some? <==> s.cache.Some?
    ensures s.cache.Some? ==> st.next.cache.value == s.cache.value.(data := s.cache.value.data + [st.reply.value])
    ensures st.next.events == s.events
  {
    var doc := TaskDoc(input.name, input.startDate, input.endDate, input.assigneeId, input.actionPlanId,
                       Some(input.status.GetOr(TS.NotStarted)), Some(input.statusLogs.GetOr([])), true, now);
    var task := Normalize(newId, doc);
    var cache := if s.cache.Some? then Some(s.cache.value.(data := s.cache.value.data + [task])) else None;
    Step(Ok(task), Service(s.repo[newId := doc], cache, s.events))
  }

  /** The cached task after a successful status write. */
  function Rewritten(t: Task, newStatus: TS.TaskStatus, logs: seq<TaskLog>, now: int): Task {
    t.(status := newStatus, statusLogs := logs, updatedAt := now)
  }

  /** `updateTaskStatus(taskId, newStatus, statusLog)`: fails on a missing document without any
      write or notification; otherwise appends the log to the stored one, stores the status, rewrites
      the cached entries with that id and notifies once. No transition rule is consulted. */
  function UpdateTaskStatus(s: Service, taskId: Id, newStatus: TS.TaskStatus, log: TaskLog, now: int): (st: Step<()>)
    ensures taskId !in s.repo ==> st == Step(Failure(NotFoundMessage), s)
    ensures taskId in s.repo ==>
              && st.reply.Ok?
              && st.next.repo == s.repo[taskId := s.repo[taskId].(status := Some(newStatus),
                                       statusLogs := Some(s.repo[taskId].statusLogs.GetOr([]) + [log]), updatedAt := now)]
              && (st.next.cache.Some? <==> s.cache.Some?)
    ensures taskId in s.repo && s.cache.Some? ==>
              && |st.next.cache.value.data| == |s.cache.value.data|
              && st.next.cache.value.timestamp == s.cache.value.timestamp
              && forall i :: 0 <= i < |s.cache.value.data| ==>
                   st.next.cache.value.data[i]
                   == if s.cache.value.data[i].id == taskId
                      then Rewritten(s.cache.value.data[i], newStatus, s.repo[taskId].statusLogs.GetOr([]) + [log], now)
                      else s.cache.value.data[i]
    ensures st.next.events == s.events + (if taskId in s.repo then 1 else 0)
  {
    if taskId !in s.repo then Step(Failure(NotFoundMessage), s)
    else
      var d := s.repo[taskId];
      var logs := d.statusLogs.GetOr([]) + [log];
      var repo := s.repo[taskId := d.(status := Some(newStatus), statusLogs := Some(logs), updatedAt := now)];
      var cache := if s.cache.Some? then
                     Some(s.cache.value.(data := MapWhere(s.cache.value.data, TaskId, taskId,
                                                         (t: Task) => Rewritten(t, newStatus, logs, now))))
                   else None;
      Step(Ok(()), Service(repo, cache, s.events + 1))
  }

  /** The write path performs no validation: a completed task is reopened although the table
      rejects the move at every instant. */
  lemma UpdateTaskStatusSkipsValidation(s: Service, taskId: Id, log: TaskLog, now: int)
    requires taskId in s.repo && s.repo[taskId].status == Some(TS.Completed)
    ensures UpdateTaskStatus(s, taskId, TS.NotStarted, log, now).reply.Ok?
    ensures UpdateTaskStatus(s, taskId, TS.NotStarted, log, now).next.repo[taskId].status == Some(TS.NotStarted)
    ensures forall start, end :: !TS.ValidateStatusChange(TS.Completed, TS.NotStarted, start, end, now).valid
  {
  }

  /** The stored history stays gap-free only if the caller's entry starts at the stored status:
      the service itself does not check it. */
  lemma UpdateTaskStatusKeepsHistoryChained(s: Service, taskId: Id, newStatus: TS.TaskStatus, log: TaskLog, now: int)
    requires taskId in s.repo
    requires Chained(Normalize(taskId, s.repo[taskId]).statusLogs, Normalize(taskId, s.repo[taskId]).status)
    requires log.fromStatus == Normalize(taskId, s.repo[taskId]).status && log.toStatus == newStatus
    ensures Chained(Normalize(taskId, UpdateTaskStatus(s, taskId, newStatus, log, now).next.repo[taskId]).statusLogs, newStatus)
  {
    var t := Normalize(taskId, s.repo[taskId]);
    ChainedAppend(t.statusLogs, t.status, log);
  }

  function IsNotTask(id: Id): Task -> bool {
    (t: Task) => t.id != id
  }

  /** `deleteTask`: remove the document and every cached task with the id; the rest of the cache
      keeps its order. */
  function DeleteTask(s: Service, id: Id): (st: Step<()>)
    ensures st.reply.Ok?
    ensures st.next.repo == s.repo - {id}
    ensures st.next.cache.Some? <==> s.cache.Some?
    ensures s.cache.Some? ==> forall t :: t in st.next.cache.value.data <==> t in s.cache.value.data && t.id != id
    ensures s.cache.Some? ==> st.next.cache.value.data == Filter(s.cache.value.data, IsNotTask(id))
    ensures st.next.events == s.events
  {
    var cache := if s.cache.Some? then Some(s.cache.value.(data := Filter(s.cache.value.data, IsNotTask(id)))) else None;
    Step(Ok(()), Service(s.repo - {id}, cache, s.events))
  }

  /** Deleting a freshly created task restores the repository and the cache. */
  lemma CreateThenDelete(s: Service, input: NewTask, newId: Id, now: int)
    requires newId !in s.repo
    requires s.cache.Some? ==> forall t :: t in s.cache.value.data ==> t.id != newId
    ensures DeleteTask(CreateTask(s, input, newId, now).next, newId).next == s
  {
    var created := CreateTask(s, input, newId, now);
    if s.cache.Some? {
      FilterAppend(s.cache.value.data, [created.reply.value], IsNotTask(newId));
      FilterAll(s.cache.value.data, IsNotTask(newId));
    }
    assert created.next.repo - {newId} == s.repo;
  }

  /** `clearCache`. */
  function ClearCache(s: Service): (r: Service)
    ensures r.cache.None? && r.repo == s.repo && r.events == s.events
  {
    s.(cache := None)
  }
}

=== FILE: task_status_config.dfy ===
/** The Task status rules: labels, the transition table and the interactive validator
    (src/utils/taskStatusConfig.ts). */
module TaskStatusConfig {

  import opened Wrappers
  import opened Verdicts

  datatype TaskStatus = NotStarted | InProgress | InReview | Blocked | Completed | Delayed

  /** The value stored in documents and logs. */
  function Name(s: TaskStatus): string {
    match s
    case NotStarted => "not_started"
    case InProgress => "in_progress"
    case InReview => "in_review"
    case Blocked => "blocked"
    case Completed => "completed"
    case Delayed => "delayed"
  }

  /** Reads a stored status value; anything outside the enumeration is `None`. */
  function Parse(raw: string): (r: Option<TaskStatus>)
    ensures r.Some? ==> Name(r.value) == raw
  {
    if raw == "not_started" then Some(NotStarted)
    else if raw == "in_progress" then Some(InProgress)
    else if raw == "in_review" then Some(InReview)
    else if raw == "blocked" then Some(Blocked)
    else if raw == "completed" then Some(Completed)
    else if raw == "delayed" then Some(Delayed)
    else None
  }

  /** Every status is stored under a name that reads back as itself. */
  lemma ParseName(s: TaskStatus)
    ensures Parse(Name(s)) == Some(s)
  {
  }

  /** The status a display label stands for. */
  function LabelStatus(shown: string): Option<TaskStatus> {
    if shown == "Não Iniciado" then Some(NotStarted)
    else if shown == "Em Andamento" then Some(InProgress)
    else if shown == "Em Revisão" then Some(InReview)
    else if shown == "Bloqueado" then Some(Blocked)
    else if shown == "Concluído" then Some(Completed)
    else if shown == "Atrasado" then Some(Delayed)
    else None
  }

  /** The Portuguese display label (`statusLabels`): no two statuses share one. */
  function Label(s: TaskStatus): (r: string)
    ensures LabelStatus(r) == Some(s)
  {
    match s
    case NotStarted => "Não Iniciado"
    case InProgress => "Em Andamento"
    case InReview => "Em Revisão"
    case Blocked => "Bloqueado"
    case Completed => "Concluído"
    case Delayed => "Atrasado"
  }

  /** The rows of `statusTransitions`, in the order the table lists them. */
  function Transitions(s: TaskStatus): (targets: seq<TaskStatus>)
    ensures s !in targets
    ensures NotStarted in targets <==> s == Blocked
    ensures targets == [] <==> s == Completed
  {
    match s
    case NotStarted => [InProgress, Blocked]
    case InProgress => [InReview, Blocked, Completed, Delayed]
    case InReview => [Completed, InProgress, Blocked]
    case Blocked => [InProgress, NotStarted]
    case Completed => []
    case Delayed => [Completed, InProgress, Blocked]
  }

  /** `getAvailableStatuses`: the table row of a stored status, `[]` when it has none. */
  function AvailableStatuses(raw: string): (r: seq<TaskStatus>)
    ensures Parse(raw).None? ==> r == []
    ensures Parse(raw).Some? ==> r == Transitions(Parse(raw).value)
  {
    match Parse(raw)
    case Some(s) => Transitions(s)
    case None => []
  }

  const BeforeStartMessage := "Não é possível alterar o status antes da data de início prevista"
  const NotPermittedMessage := "Esta transição de status não é permitida"
  const LateCompletionMessage := "Tarefa concluída após o prazo"
  const TooEarlyToDelayMessage := "Só é possível marcar como atrasada após a data de término"
  const NoRevertMessage := "Não é possível voltar para não iniciado depois de começar"

  /** The declarative reading of the rules: when a change is accepted. */
  predicate Acceptable(current: TaskStatus, target: TaskStatus, start: int, end: int, now: int) {
    && (now < start ==> target == Blocked)
    && target in Transitions(current)
    && (target == Delayed ==> now > end)
    && (target == NotStarted ==> current == Blocked)
  }

  /** `validateStatusChange(current, target, start, end)` evaluated at instant `now`. */
  function ValidateStatusChange(current: TaskStatus, target: TaskStatus, start: int, end: int, now: int): (v: Verdict)
    ensures now < start && target != Blocked ==> v == Reject(BeforeStartMessage)
    ensures v.valid <==> Acceptable(current, target, start, end, now)
    ensures v.valid && v.message.Some? <==> v.valid && target == Completed && now > end
    ensures v.valid && v.message.Some? ==> v.message.value == LateCompletionMessage
    ensures !v.valid ==> v.message.Some?
    ensures !(now < start && target != Blocked) && target !in Transitions(current) ==> v == Reject(NotPermittedMessage)
    ensures !(now < start && target != Blocked) && target in Transitions(current) && target == Delayed && now <= end ==>
              v == Reject(TooEarlyToDelayMessage)
    ensures !v.valid ==> v.message.value in {BeforeStartMessage, NotPermittedMessage, TooEarlyToDelayMessage}
    ensures v.automatic.None?
  {
    if now < start && target != Blocked then Reject(BeforeStartMessage)
    else if target !in Transitions(current) then Reject(NotPermittedMessage)
    else match target
      case Completed => if now > end then Accept(Some(LateCompletionMessage)) else Accept(None)
      case Delayed => if now <= end then Reject(TooEarlyToDelayMessage) else Accept(None)
      case NotStarted => if current != Blocked then Reject(NoRevertMessage) else Accept(None)
      case _ => Accept(None)
  }

  /** The validator with its `not_started` case removed. */
  function ValidateWithoutRevertGuard(current: TaskStatus, target: TaskStatus, start: int, end: int, now: int): Verdict {
    if now < start && target != Blocked then Reject(BeforeStartMessage)
    else if target !in Transitions(current) then Reject(NotPermittedMessage)
    else match target
      case Completed => if now > end then Accept(Some(LateCompletionMessage)) else Accept(None)
      case Delayed => if now <= end then Reject(TooEarlyToDelayMessage) else Accept(None)
      case _ => Accept(None)
  }

  /** The `not_started` guard never decides anything: `blocked` is the only row that lists
      `not_started`, so the table check has already rejected every other origin. */
  lemma RevertGuardSubsumed(current: TaskStatus, target: TaskStatus, start: int, end: int, now: int)
    ensures ValidateStatusChange(current, target, start, end, now)
         == ValidateWithoutRevertGuard(current, target, start, end, now)
  {
  }

  /** `completed` is terminal: every change out of it is rejected. */
  lemma CompletedIsTerminal(target: TaskStatus, start: int, end: int, now: int)
    ensures !ValidateStatusChange(Completed, target, start, end, now).valid
  {
  }

  /** Re-selecting the current status is always rejected. */
  lemma NoSelfTransition(s: TaskStatus, start: int, end: int, now: int)
    ensures !ValidateStatusChange(s, s, start, end, now).valid
  {
  }

  /** Before the start date the only acceptable target is `blocked`, whatever the table says. */
  lemma OnlyBlockedBeforeStart(current: TaskStatus, target: TaskStatus, start: int, end: int, now: int)
    requires now < start
    ensures ValidateStatusChange(current, target, start, end, now).valid ==> target == Blocked
  {
  }
}

=== FILE: task_status_manager.dfy ===
/** The older, looser task validator and log constructor (src/utils/taskStatusManager.ts). */
module TaskStatusManager {

  import opened Wrappers
  import opened Verdicts
  import opened StatusLogs
  import opened Entities
  import TS = TaskStatusConfig

  const EarlyStartMessage := "Não é possível iniciar uma tarefa antes da data de início prevista"
  const AutoDelayMessage := "Tarefa marcada como atrasada automaticamente"

  /** `validateStatusChange(task, target)` at instant `now`. It never consults the transition table. */
  function ValidateStatusChange(task: Task, target: TS.TaskStatus, now: int): (v: Verdict)
    ensures !v.valid <==> target == TS.InProgress && now < task.startDate
    ensures !v.valid ==> v.message == Some(EarlyStartMessage) && v.automatic.None?
    ensures v.valid && task.status == TS.InProgress && now > task.endDate
            ==> v.automatic == Some(true) && v.message == Some(AutoDelayMessage)
    ensures v.valid && !(task.status == TS.InProgress && now > task.endDate) ==> v == Accept(None)
  {
    if target == TS.InProgress && now < task.startDate then Reject(EarlyStartMessage)
    else if task.status == TS.InProgress && now > task.endDate then
      Verdict(true, Some(AutoDelayMessage), Some(true))
    else Accept(None)
  }

  /** The table is never consulted: reopening a completed task is accepted here although the
      interactive validator rejects it at every instant. */
  lemma IgnoresTransitionTable(task: Task, now: int)
    requires task.status == TS.Completed
    ensures ValidateStatusChange(task, TS.NotStarted, now).valid
    ensures !TS.ValidateStatusChange(task.status, TS.NotStarted, task.startDate, task.endDate, now).valid
  {
  }

  /** `createStatusLog(task, newStatus, automatic = false)` with a fresh id and the current instant. */
  function CreateStatusLog(task: Task, newStatus: TS.TaskStatus, freshId: Id, now: int, automatic: bool := false): (log: TaskLog)
    ensures log.taskId == task.id && log.fromStatus == task.status && log.toStatus == newStatus
    ensures log.automatic == automatic
    ensures log.systemNotes.Some? <==> automatic
    ensures automatic ==> log.systemNotes == Some(SystemChangeNote)
    ensures log.justification.None? && log.userId.None? && log.userName.None?
    ensures log.id == freshId && log.timestamp == At(now)
  {
    StatusLog(freshId, task.id, task.status, newStatus, None, At(now), automatic,
              if automatic then Some(SystemChangeNote) else None, None, None)
  }

  /** The log of a change made through this constructor continues the task's history. */
  lemma CreatedLogContinuesHistory(task: Task, newStatus: TS.TaskStatus, freshId: Id, now: int, automatic: bool)
    requires Chained(task.statusLogs, task.status)
    ensures Chained(task.statusLogs + [CreateStatusLog(task, newStatus, freshId, now, automatic)], newStatus)
  {
    ChainedAppend(task.statusLogs, task.status, CreateStatusLog(task, newStatus, freshId, now, automatic));
  }
}

=== FILE: task_store.dfy ===
/** The client-side task store's reducers (src/store/taskStore.ts), as state-to-state functions
    over the task list. */
module TaskStore {

  import opened Wrappers
  import opened Seqs
  import opened StatusLogs
  import opened Entities
  import TS = TaskStatusConfig

  /** `addTask`: append the task with its log reset to empty. */
  function AddTask(tasks: seq<Task>, task: Task): (r: seq<Task>)
    ensures |r| == |tasks| + 1 && r[..|tasks|] == tasks
    ensures r[|tasks|] == task.(statusLogs := [])
  {
    tasks + [task.(statusLogs := [])]
  }

  /** `updateTask`: merge into every task with the id, stamping `updatedAt` with `now`
      whatever the update says. */
  function UpdateTask(tasks: seq<Task>, id: Id, patch: TaskPatch, now: int): (r: seq<Task>)
    ensures |r| == |tasks|
    ensures forall i :: 0 <= i < |tasks| && tasks[i].id != id ==> r[i] == tasks[i]
    ensures forall i :: 0 <= i < |tasks| && tasks[i].id == id ==>
              r[i] == MergeTask(tasks[i], patch).(updatedAt := now) && r[i].id == id
  {
    MapWhere(tasks, TaskId, id, Stamped(patch, now))
  }

  /** `{ ...task, ...updates, updatedAt: now }`. */
  function Stamped(patch: TaskPatch, now: int): Task -> Task {
    (t: Task) => MergeTask(t, patch).(updatedAt := now)
  }

  /** The log `updateTaskStatus` records for a change of `task` made by `userName`. */
  function ManualLog(task: Task, newStatus: TS.TaskStatus, userName: string, justification: Option<string>,
                     freshId: Id, now: int): TaskLog
  {
    StatusLog(freshId, task.id, task.status, newStatus, justification, At(now), false, None, None, Some(userName))
  }

  function IsTask(id: Id): Task -> bool {
    (t: Task) => t.id == id
  }

  /** `updateTaskStatus`: unknown id leaves the state as it is; otherwise every task with the id
      takes the new status and one more log entry, whose origin is the status of the first such task.
      No transition rule is consulted. */
  function UpdateTaskStatus(tasks: seq<Task>, taskId: Id, newStatus: TS.TaskStatus, userName: string,
                            justification: Option<string>, freshId: Id, now: int): (r: seq<Task>)
    ensures Find(tasks, IsTask(taskId)).None? ==> r == tasks
    ensures |r| == |tasks|
    ensures forall i :: 0 <= i < |tasks| && tasks[i].id != taskId ==> r[i] == tasks[i]
    ensures forall i :: 0 <= i < |tasks| && tasks[i].id == taskId ==>
              && r[i].id == taskId
              && r[i].status == newStatus
              && r[i].updatedAt == now
              && r[i].statusLogs == tasks[i].statusLogs
                   + [ManualLog(Find(tasks, IsTask(taskId)).value, newStatus, userName, justification, freshId, now)]
              && r[i] == tasks[i].(status := r[i].status, statusLogs := r[i].statusLogs, updatedAt := now)
  {
    match Find(tasks, IsTask(taskId))
    case None => tasks
    case Some(first) =>
      var log := ManualLog(first, newStatus, userName, justification, freshId, now);
      MapWhere(tasks, TaskId, taskId,
               (t: Task) => t.(status := newStatus, statusLogs := t.statusLogs + [log], updatedAt := now))
  }

  /** Every task's log is chained to its status. */
  predicate AllChained(tasks: seq<Task>) {
    forall i :: 0 <= i < |tasks| ==> Chained(tasks[i].statusLogs, tasks[i].status)
  }

  /** With distinct ids, a manual change keeps every task's history gap-free: the appended
      entry starts at the status the task had. */
  lemma UpdateTaskStatusKeepsHistoryChained(tasks: seq<Task>, taskId: Id, newStatus: TS.TaskStatus, userName: string,
                                           justification: Option<string>, freshId: Id, now: int)
    requires KeysDistinct(tasks, TaskId)
    requires AllChained(tasks)
    ensures AllChained(UpdateTaskStatus(tasks, taskId, newStatus, userName, justification, freshId, now))
  {
    var r := UpdateTaskStatus(tasks, taskId, newStatus, userName, justification, freshId, now);
    var found := Find(tasks, IsTask(taskId));
    forall i | 0 <= i < |r| ensures Chained(r[i].statusLogs, r[i].status) {
      if tasks[i].id == taskId {
        var k :| 0 <= k < |tasks| && tasks[k] == found.value && forall j :: 0 <= j < k ==> !IsTask(taskId)(tasks[j]);
        assert TaskId(tasks[k]) == TaskId(tasks[i]);
        assert k == i;
        ChainedAppend(tasks[i].statusLogs, tasks[i].status,
                      ManualLog(found.value, newStatus, userName, justification, freshId, now));
      }
    }
  }

  /** The store writes transitions the table forbids: a completed task is reopened. */
  lemma UpdateTaskStatusSkipsValidation(task: Task, userName: string, freshId: Id, now: int)
    requires task.status == TS.Completed
    ensures UpdateTaskStatus([task], task.id, TS.NotStarted, userName, None, freshId, now)[0].status == TS.NotStarted
    ensures !TS.ValidateStatusChange(task.status, TS.NotStarted, task.startDate, task.endDate, now).valid
  {
  }

  /** `deleteTask`: drop every task with the id, keep the rest in order. */
  function DeleteTask(tasks: seq<Task>, id: Id): (r: seq<Task>)
    ensures forall t :: t in r <==> t in tasks && t.id != id
    ensures forall t :: multiset(r)[t] == if t.id != id then multiset(tasks)[t] else 0
    ensures Subsequence(r, tasks)
  {
    FilterCount(tasks, (t: Task) => t.id != id);
    FilterSubsequence(tasks, (t: Task) => t.id != id);
    Filter(tasks, (t: Task) => t.id != id)
  }

  /** Deleting a freshly added task restores the list it was added to. */
  lemma AddThenDelete(tasks: seq<Task>, task: Task)
    requires forall t :: t in tasks ==> t.id != task.id
    ensures DeleteTask(AddTask(tasks, task), task.id) == tasks
  {
    FilterAppend(tasks, [task.(statusLogs := [])], (t: Task) => t.id != task.id);
    FilterAll(tasks, (t: Task) => t.id != task.id);
  }
}

=== FILE: team_store.dfy ===
/** The client-side team store's reducers (src/store/teamStore.ts). */
module TeamStore {

  import opened Seqs
  import opened Entities

  function IsNotTeam(id: Id): Team -> bool {
    (t: Team) => t.id != id
  }

  function Flip(t: Team): Team {
    t.(active := !t.active)
  }

  /** `addTeam`: append the team as given. */
  function AddTeam(teams: seq<Team>, team: Team): (r: seq<Team>)
    ensures |r| == |teams| + 1 && r[..|teams|] == teams && r[|teams|] == team
  {
    teams + [team]
  }

  /** `updateTeam`: `{ ...team, ...updates }` for every team with the id. */
  function UpdateTeam(teams: seq<Team>, id: Id, patch: TeamPatch): (r: seq<Team>)
    ensures |r| == |teams|
    ensures forall i :: 0 <= i < |teams| ==>
              r[i] == if teams[i].id == id then MergeTeam(teams[i], patch) else teams[i]
    ensures forall i :: 0 <= i < |teams| ==> r[i].id == teams[i].id
  {
    MapWhere(teams, TeamId, id, (t: Team) => MergeTeam(t, patch))
  }

  /** `deleteTeam`: drop every team with the id, keep the rest in order. */
  function DeleteTeam(teams: seq<Team>, id: Id): (r: seq<Team>)
    ensures forall t :: t in r <==> t in teams && t.id != id
    ensures forall t :: multiset(r)[t] == if t.id != id then multiset(teams)[t] else 0
    ensures Subsequence(r, teams)
  {
    FilterCount(teams, IsNotTeam(id));
    FilterSubsequence(teams, IsNotTeam(id));
    Filter(teams, IsNotTeam(id))
  }

  /** `toggleTeamStatus`: flip `active` of every team with the id, nothing else. */
  function ToggleTeamStatus(teams: seq<Team>, id: Id): (r: seq<Team>)
    ensures |r| == |teams|
    ensures forall i :: 0 <= i < |teams| && teams[i].id == id ==>
              r[i].active == !teams[i].active && r[i].(active := teams[i].active) == teams[i]
    ensures forall i :: 0 <= i < |teams| && teams[i].id != id ==> r[i] == teams[i]
  {
    MapWhere(teams, TeamId, id, Flip)
  }

  lemma ToggleTwice(teams: seq<Team>, id: Id)
    ensures ToggleTeamStatus(ToggleTeamStatus(teams, id), id) == teams
  {
    MapWhereTwice(teams, TeamId, id, Flip);
  }

  lemma AddThenDelete(teams: seq<Team>, team: Team)
    requires forall t :: t in teams ==> t.id != team.id
    ensures DeleteTeam(AddTeam(teams, team), team.id) == teams
  {
    FilterAppend(teams, [team], IsNotTeam(team.id));
    FilterAll(teams, IsNotTeam(team.id));
  }
}

=== FILE: text.dfy ===
/** String helpers with the JavaScript semantics the application relies on:
    `<`/`>=` on strings (lexicographic order of code points, standing in for the UTF-16 code
    units JavaScript compares), `trim()` emptiness, `toLowerCase()` and `split(' ')[0]`. */
module Text {

  import Sorting

  /** `a <= b` on JavaScript strings: lexicographic by character code. */
  predicate StrLe(a: string, b: string)
    decreases |a|
  {
    if |a| == 0 then true
    else if |b| == 0 then false
    else if a[0] != b[0] then a[0] < b[0]
    else StrLe(a[1..], b[1..])
  }

  /** `a < b` on JavaScript strings. */
  predicate StrLt(a: string, b: string) {
    !StrLe(b, a)
  }

  lemma {:induction false} StrLeTotal(a: string, b: string)
    ensures StrLe(a, b) || StrLe(b, a)
    decreases |a|
  {
    if |a| > 0 && |b| > 0 && a[0] == b[0] {
      StrLeTotal(a[1..], b[1..]);
    }
  }

  lemma {:induction false} StrLeTrans(a: string, b: string, c: string)
    requires StrLe(a, b) && StrLe(b, c)
    ensures StrLe(a, c)
    decreases |a|
  {
    if |a| > 0 && |b| > 0 && |c| > 0 && a[0] == b[0] && b[0] == c[0] {
      StrLeTrans(a[1..], b[1..], c[1..]);
    }
  }

  lemma {:induction false} StrLeRefl(a: string)
    ensures StrLe(a, a)
    decreases |a|
  {
    if |a| > 0 {
      StrLeRefl(a[1..]);
    }
  }

  /** Strings compare equal under `StrLe` in both directions only when they are equal. */
  lemma {:induction false} StrLeAntisym(a: string, b: string)
    requires StrLe(a, b) && StrLe(b, a)
    ensures a == b
    decreases |a|
  {
    if |a| > 0 {
      StrLeAntisym(a[1..], b[1..]);
      assert a == [a[0]] + a[1..] && b == [b[0]] + b[1..];
    }
  }

  /** The string order is a valid `sort` comparator. */
  lemma StrLePreorder()
    ensures Sorting.TotalPreorder(StrLe)
  {
    forall a, b ensures StrLe(a, b) || StrLe(b, a) { StrLeTotal(a, b); }
    forall a, b, c | StrLe(a, b) && StrLe(b, c) ensures StrLe(a, c) { StrLeTrans(a, b, c); }
  }

  /** A character that `String.prototype.trim` removes. */
  predicate IsSpace(c: char) {
    c == ' ' || c == '\t' || c == '\n' || c == '\r' || c == '\U{000B}' || c == '\U{000C}'
    || c == '\U{00A0}' || c == '\U{1680}' || ('\U{2000}' <= c <= '\U{200A}')
    || c == '\U{2028}' || c == '\U{2029}' || c == '\U{202F}' || c == '\U{205F}'
    || c == '\U{3000}' || c == '\U{FEFF}'
  }

  /** `s.trim()` is the empty string, i.e. `!s?.trim()` holds for a present `s`. */
  predicate IsBlank(s: string) {
    forall i :: 0 <= i < |s| ==> IsSpace(s[i])
  }

  /** `c.toLowerCase()` on the ASCII and Latin-1 letters. */
  function LowerChar(c: char): (r: char)
    ensures 'A' <= c <= 'Z' ==> 'a' <= r <= 'z'
    ensures !('A' <= c <= 'Z') && !('\U{00C0}' <= c <= '\U{00DE}') ==> r == c
  {
    if 'A' <= c <= 'Z' || ('\U{00C0}' <= c <= '\U{00DE}' && c != '\U{00D7}')
    then (c as int + 32) as char
    else c
  }

  /** `s.toLowerCase()`, character by character. */
  function Lower(s: string): (r: string)
    ensures |r| == |s|
    ensures forall i :: 0 <= i < |s| ==> r[i] == LowerChar(s[i])
  {
    if s == [] then [] else [LowerChar(s[0])] + Lower(s[1..])
  }

  /** `s.split(' ')[0]`: everything before the first space. */
  function FirstWord(s: string): (r: string)
    ensures |r| <= |s| && r == s[..|r|]
    ensures ' ' !in r
    ensures |r| < |s| ==> s[|r|] == ' '
  {
    if s == [] then []
    else if s[0] == ' ' then []
    else [s[0]] + FirstWord(s[1..])
  }
}

=== FILE: verdicts.dfy ===
/** The `{ valid, message?, automatic? }` record every validator of the application returns. */
module Verdicts {

  import opened Wrappers

  datatype Verdict = Verdict(valid: bool, message: Option<string>, automatic: Option<bool>)

  function Reject(message: string): Verdict {
    Verdict(false, Some(message), None)
  }

  function Accept(message: Option<string>): Verdict {
    Verdict(true, message, None)
  }
}

=== FILE: work_schedule.dfy ===
/** The work-period editor of a collaborator (src/components/collaborators/WorkScheduleSection.tsx):
    the list operations it hands to its `onChange`, and the weekday check boxes. */
module WorkScheduleSection {

  import opened Wrappers
  import opened Seqs
  import opened Entities

  /** The period a click on "Adicionar Período" appends. */
  const NewPeriod := WorkSchedule(Presential, [], "08:00", "17:00")

  /** The check boxes offered for each period. */
  const Weekdays: seq<string> := ["Segunda", "Terça", "Quarta", "Quinta", "Sexta"]

  /** `addSchedule`. */
  function AddSchedule(schedules: seq<WorkSchedule>): (r: seq<WorkSchedule>)
    ensures |r| == |schedules| + 1 && r[..|schedules|] == schedules
    ensures r[|schedules|].kind == Presential && r[|schedules|].days == []
    ensures r[|schedules|].startTime == "08:00" && r[|schedules|].endTime == "17:00"
  {
    schedules + [NewPeriod]
  }

  /** `updateSchedule(index, updates)`: merge into the period at `index` only; an index outside the
      list changes nothing. */
  function UpdateSchedule(schedules: seq<WorkSchedule>, index: int, patch: SchedulePatch): (r: seq<WorkSchedule>)
    ensures |r| == |schedules|
    ensures forall i :: 0 <= i < |schedules| && i != index ==> r[i] == schedules[i]
    ensures 0 <= index < |schedules| ==> r[index] == MergeSchedule(schedules[index], patch)
  {
    seq(|schedules|, i requires 0 <= i < |schedules| =>
      if i == index then MergeSchedule(schedules[i], patch) else schedules[i])
  }

  /** `removeSchedule(index)`: drop the period at `index`; an index outside the list changes
      nothing. */
  function RemoveSchedule(schedules: seq<WorkSchedule>, index: int): (r: seq<WorkSchedule>)
    ensures 0 <= index < |schedules| ==> |r| == |schedules| - 1
    ensures 0 <= index < |schedules| ==>
              (forall i :: 0 <= i < index ==> r[i] == schedules[i])
              && (forall i :: index <= i < |r| ==> r[i] == schedules[i + 1])
    ensures !(0 <= index < |schedules|) ==> r == schedules
  {
    if 0 <= index < |schedules| then schedules[..index] + schedules[index + 1..] else schedules
  }

  /** "Remover" is offered only while there is more than one period. */
  predicate CanRemove(schedules: seq<WorkSchedule>) {
    |schedules| > 1
  }

  /** Removing through the editor never leaves a collaborator without a period. */
  lemma OfferedRemovalKeepsOne(schedules: seq<WorkSchedule>, index: int)
    requires CanRemove(schedules) && 0 <= index < |schedules|
    ensures |RemoveSchedule(schedules, index)| >= 1
  {
  }

  /** Removing the period just added restores the list. */
  lemma AddThenRemove(schedules: seq<WorkSchedule>)
    ensures RemoveSchedule(AddSchedule(schedules), |schedules|) == schedules
  {
    assert AddSchedule(schedules)[..|schedules|] == schedules;
  }

  /** Writing back the fields a period already has changes nothing. */
  lemma UpdateWithOwnFields(schedules: seq<WorkSchedule>, index: int)
    requires 0 <= index < |schedules|
    ensures UpdateSchedule(schedules, index, SchedulePatch(Some(schedules[index].kind), Some(schedules[index].days),
                                                           Some(schedules[index].startTime), Some(schedules[index].endTime)))
            == schedules
  {
  }

  function IsNotDay(day: string): string -> bool {
    (d: string) => d != day
  }

  /** A weekday check box: checking appends the day, unchecking removes every copy of it
      and keeps the other days in order. */
  function ToggleDay(days: seq<string>, day: string, checked: bool): (r: seq<string>)
    ensures checked ==> r == days + [day]
    ensures !checked ==> day !in r && forall d :: d in r <==> d in days && d != day
    ensures !checked ==> forall d :: d != day ==> multiset(r)[d] == multiset(days)[d]
    ensures !checked ==> Subsequence(r, days)
  {
    if checked then days + [day]
    else
      FilterCount(days, IsNotDay(day));
      FilterSubsequence(days, IsNotDay(day));
      Filter(days, IsNotDay(day))
  }

  /** Checking a day that was not checked and unchecking it again restores the list. */
  lemma CheckThenUncheck(days: seq<string>, day: string)
    requires day !in days
    ensures ToggleDay(ToggleDay(days, day, true), day, false) == days
  {
    FilterAppend(days, [day], IsNotDay(day));
    FilterAll(days, IsNotDay(day));
    FilterNone([day], IsNotDay(day));
    assert days + [] == days;
  }

  /** The check box's `onChange`: rewrite the period's days. */
  function SetDay(schedules: seq<WorkSchedule>, index: int, day: string, checked: bool): (r: seq<WorkSchedule>)
    requires 0 <= index < |schedules|
    ensures |r| == |schedules|
    ensures forall i :: 0 <= i < |schedules| && i != index ==> r[i] == schedules[i]
    ensures r[index] == schedules[index].(days := ToggleDay(schedules[index].days, day, checked))
    ensures (day in r[index].days) == checked
  {
    UpdateSchedule(schedules, index, SchedulePatch(None, Some(ToggleDay(schedules[index].days, day, checked)), None, None))
  }
}

=== FILE: wrappers.dfy ===
/** Optional values: the model's rendering of TypeScript's `undefined`-able fields. */
module Wrappers {

  datatype Option<+T> = None | Some(value: T) {

    /** The value, or `default` when absent (TypeScript's `x || default` on an optional). */
    function GetOr(default: T): T {
      match this
      case Some(v) => v
      case None => default
    }
  }

  /** JavaScript truthiness of an optional string: present and non-empty. */
  predicate Truthy(s: Option<string>) {
    s.Some? && s.value != ""
  }
}
